=== FILE: README.md ===
# RocketSim bookkeeping and wire format, in Dafny

This project models the parts of RocketSim (the Rocket League physics
simulator with its Python bindings) that can be checked without its physics
engine. They are:

- **The remote-visualisation wire format** (`RLViserSocket.h`).
  - `ByteWriter` appends little-endian `u8`/`u32`/`u64` values, `f32` bit
    patterns, 0/1 booleans, vectors and rotation matrices to a byte vector.
  - `ByteReader` reads them back through a cursor. A read that does not fit
    returns 0 and leaves the cursor where it was.
  - `CarInfo`, `BoostPadInfo` and `BallStateInfo` are fixed-layout records.
  - `GameState::to_bytes`/`from_bytes` chain the records behind a 21-byte
    header, and `get_num_bytes` predicts a packet's length from that header.
- **The `Arena` container's bookkeeping** (`Arena.h`): the car registry
  (`_lastCarID`, `_cars`, `_carIDMap`), the 64-bit `tickCount`, the
  `ContactTracker`, the five callback slots and the mutator configuration.
- **The numeric helpers** (`Math.h`, `Math.cpp`):
  - the eight-point `LinearPieceCurve` and its `GetOutput` search;
  - `WrapNormalizeFloat`, `RandInt`, `RoundVec` and `RoundAngleUE3`.
- **The benchmark utilities**:
  - the `Statistics` sample list and `FormatNumber`;
  - the stress benchmark's xorshift `FastRNG`;
  - the README benchmark's control-change schedule and its replay;
  - the performance benchmark's command-line parser, thread seeds and mode
    dispatch;
  - the phase profiler's collector, its tick batching and its phase
    partition.

Each file is one module:

| file | module | component |
|---|---|---|
| `wire_bytes.dfy` | `RLViserBytes` | byte writer and reader |
| `wire_records.dfy` | `RLViserRecords` | car, pad and ball records |
| `wire_game_state.dfy` | `RLViserGameState` | whole frames |
| `game_mode.dfy` | `GameModes` | the `GameMode` enum and its names |
| `arena.dfy` | `ArenaModel` | `Arena`, `Car`, `ContactTracker` |
| `math.dfy` | `RsMath` | curve, angle wrap, `RandInt`, rounding |
| `profiler_utils.dfy` | `ProfilerStats` | `Statistics`, `FormatNumber` |
| `stress_benchmark.dfy` | `StressBench` | `FastRNG` |
| `readme_benchmark.dfy` | `ReadmeBench` | control schedules and replay |
| `performance_benchmark.dfy` | `PerfBench` | `ParseArgs`, thread seeds, `main` |
| `phase_profiler.dfy` | `PhaseProf` | phase collector, `ProfileStep` |
| `wrappers.dfy` | `Wrappers` | `Option` |

Objects that the C++ updates in place are Dafny classes. Their methods are
proved against specification functions:

- `ByteWriter`, `ByteReader` and `Arena`;
- `Statistics`, `FastRNG` and `LinearPieceCurve` (whose points are an array);
- `PhaseProfilerCollector` and `ProfileResult`.

Loops stay loops. This covers `write_u64`/`read_u64`, the `GameState` pad
and car loops, the curve constructor and search, `FormatNumber`,
`ParseArgs`, the schedule generation and replay, and the `ProfileStep`
batching.

Modelling choices:

- **Floats.** On the wire, a `float` is its 32-bit pattern, because the C++
  only `memcpy`s it. Everywhere else, floats are reals.
- **Fixed-width integers.** Wrap-around is written out. This covers the
  `uint64_t` tick counter, the `uint32_t` pad and car counts, the `uint32_t`
  thread seed, the `size_t` percentile index and the `int` cast of a batch
  size.
- **Clocks and random draws are parameters.** They include `steady_clock`
  readings, `mt19937` draws and per-batch durations.

`Arena.cpp` is not part of this model. The `Arena` bodies follow what
`Arena.h` declares and comments, and the library's design rules:

- `AddCar` numbers cars from `++_lastCarID`.
- `Step(n)` runs `n` ticks. Each tick clears the contact tracker and adds one
  to `tickCount`.
- The callback setters hand back the previously registered pair, as the
  Python binding does (`python/tests/test_rlgym.py:40`, `64-65`). `Arena.h`
  declares them `void`.
- The goal-score and boost-pickup setters fail in `THE_VOID`, which has no
  goals and no pads. `Arena.h` says nothing about this (its setters at lines
  130 and 142 carry no comment). The refusal comes from the library's rule
  that an operation a game mode does not support fails and leaves the arena
  unchanged.

Where a comment in the source and its code disagree, the model follows the
code:

- `FastRNG::rand` is documented as returning values in [0, 1). It can return
  exactly 1.0 (`StressBench.DrawCanBeOne`).
- The multi-threaded README run can derive the thread seed 0, which
  `RunBenchmark` then treats as "pick a random seed"
  (`PerfBench.ThreadSeedCanWrapToZero`).

## Model

| member | source | states |
|---|---|---|
| RLViserBytes.LittleEndian | python/src/RLViserSocket.h:76-80 | the byte loop of `write_u64` produces exactly `n` bytes |
| RLViserBytes.FromLittleEndian | python/src/RLViserSocket.h:130-137 | the value assembled from `n` bytes is below 256^n |
| RLViserBytes.LittleEndianRoundTrip | python/src/RLViserSocket.h:76-80 | decoding the `n`-byte little-endian encoding of any `v < 256^n` gives `v` back |
| RLViserBytes.FromLittleEndianRoundTrip | python/src/RLViserSocket.h:130-137 | re-encoding the value of any byte string gives the same bytes, so the encoding is a bijection |
| RLViserBytes.LittleEndianByte | python/src/RLViserSocket.h:76-80 | byte `i` of the encoding is `(v >> 8i) & 0xFF` |
| RLViserBytes.LittleEndianSnoc | python/src/RLViserSocket.h:77-79 | one more iteration of the write loop appends the next-higher byte |
| RLViserBytes.FromLittleEndianSnoc | python/src/RLViserSocket.h:133-135 | one more iteration of the read loop adds `b << 8i` |
| RLViserBytes.EncodeU8 | python/src/RLViserSocket.h:65-67 | a `u8` occupies one byte |
| RLViserBytes.EncodeU32 | python/src/RLViserSocket.h:69-74 | a `u32` occupies exactly four bytes |
| RLViserBytes.EncodeU32Bytes | python/src/RLViserSocket.h:69-74 | the four bytes are `v & 0xFF`, `(v >> 8) & 0xFF`, `(v >> 16) & 0xFF` and `(v >> 24) & 0xFF`, low byte first |
| RLViserBytes.EncodeU64 | python/src/RLViserSocket.h:76-80 | a `u64` occupies exactly eight bytes |
| RLViserBytes.EncodeU64Byte | python/src/RLViserSocket.h:76-80 | byte `i` of a `u64` is `(v >> 8i) & 0xFF` |
| RLViserBytes.EncodeF32 | python/src/RLViserSocket.h:82-86 | a float travels as its 4-byte bit pattern |
| RLViserBytes.EncodeBool | python/src/RLViserSocket.h:88-90 | a bool occupies one byte |
| RLViserBytes.EncodeVec | python/src/RLViserSocket.h:92-96 | a vector occupies 12 bytes |
| RLViserBytes.EncodeRotMat | python/src/RLViserSocket.h:98-102 | a rotation matrix occupies 36 bytes |
| RLViserBytes.U8At | python/src/RLViserSocket.h:113-118 | a read with a byte left advances the cursor by one; otherwise it yields 0 and the cursor stays |
| RLViserBytes.U32At | python/src/RLViserSocket.h:120-128 | the cursor advances by four when four bytes remain; otherwise the read yields 0 and the cursor stays |
| RLViserBytes.U64At | python/src/RLViserSocket.h:130-137 | the cursor advances by eight when eight bytes remain; otherwise the read yields 0 and the cursor stays |
| RLViserBytes.F32At | python/src/RLViserSocket.h:139-144 | the cursor never moves back and never passes the end |
| RLViserBytes.BoolAt | python/src/RLViserSocket.h:146-148 | the cursor never moves back and never passes the end |
| RLViserBytes.VecAt | python/src/RLViserSocket.h:150-155 | the cursor never moves back and never passes the end |
| RLViserBytes.RotMatAt | python/src/RLViserSocket.h:157-162 | the cursor never moves back and never passes the end |
| RLViserBytes.U8RoundTrip | python/src/RLViserSocket.h:65-67 | reading where a `u8` was written returns it and moves one byte |
| RLViserBytes.U32RoundTrip | python/src/RLViserSocket.h:69-74 | reading where a `u32` was written returns it and moves four bytes |
| RLViserBytes.U64RoundTrip | python/src/RLViserSocket.h:76-80 | reading where a `u64` was written returns it and moves eight bytes |
| RLViserBytes.F32RoundTrip | python/src/RLViserSocket.h:82-86 | a float's bit pattern comes back unchanged |
| RLViserBytes.BoolRoundTrip | python/src/RLViserSocket.h:88-90 | a bool written as 0/1 is read back by `!= 0` as itself |
| RLViserBytes.VecRoundTrip | python/src/RLViserSocket.h:92-96 | a vector comes back unchanged after 12 bytes |
| RLViserBytes.RotMatRoundTrip | python/src/RLViserSocket.h:98-102 | a rotation matrix comes back unchanged after 36 bytes |
| RLViserBytes.ReadU32Value | python/src/RLViserSocket.h:122-127 | the little-endian value of four bytes is their weighted sum, which is what `ReadU32` assembles |
| RLViserBytes.OrLanes | python/src/RLViserSocket.h:122-127 | for bytes below 0x100, or-ing them shifted by 0, 8, 16 and 24 bits equals their weighted sum, because the byte lanes are disjoint |
| RLViserBytes.OrLanes64 | python/src/RLViserSocket.h:130-137 | the same for the eight lanes of `read_u64` |
| RLViserBytes.ByteWriter.constructor | python/src/RLViserSocket.h:61-63 | a new writer holds no bytes |
| RLViserBytes.ByteWriter.WriteU8 | python/src/RLViserSocket.h:65-67 | appends exactly the byte's encoding and leaves the earlier bytes alone |
| RLViserBytes.ByteWriter.WriteU32 | python/src/RLViserSocket.h:69-74 | appends exactly the four-byte encoding |
| RLViserBytes.ByteWriter.WriteU64 | python/src/RLViserSocket.h:76-80 | the loop appends exactly the eight-byte encoding |
| RLViserBytes.ByteWriter.WriteF32 | python/src/RLViserSocket.h:82-86 | appends the bit pattern's encoding |
| RLViserBytes.ByteWriter.WriteBool | python/src/RLViserSocket.h:88-90 | appends 1 or 0 |
| RLViserBytes.ByteWriter.WriteVec | python/src/RLViserSocket.h:92-96 | appends x, y, z in order |
| RLViserBytes.ByteWriter.WriteRotMat | python/src/RLViserSocket.h:98-102 | appends forward, right, up in order |
| RLViserBytes.ByteReader.constructor | python/src/RLViserSocket.h:111 | a new reader views the buffer from position 0 |
| RLViserBytes.ByteReader.ReadU8 | python/src/RLViserSocket.h:115-118 | value and new cursor are those of `U8At`, so a short buffer yields 0 with the cursor unmoved |
| RLViserBytes.ByteReader.ReadU32 | python/src/RLViserSocket.h:120-128 | value and new cursor are those of `U32At`: the four bytes weighted low byte first, or 0 with the cursor unmoved when fewer than four remain |
| RLViserBytes.ByteReader.HasRemaining | python/src/RLViserSocket.h:113 | true exactly when at least `n` unread bytes follow the cursor |
| RLViserBytes.ByteReader.ReadU64 | python/src/RLViserSocket.h:130-137 | the loop's value and new cursor are those of `U64At` |
| RLViserBytes.ByteReader.ReadF32 | python/src/RLViserSocket.h:139-144 | value and new cursor are those of `F32At` |
| RLViserBytes.ByteReader.ReadBool | python/src/RLViserSocket.h:146-148 | value and new cursor are those of `BoolAt` |
| RLViserBytes.ByteReader.ReadVec | python/src/RLViserSocket.h:150-155 | value and new cursor are those of `VecAt` |
| RLViserBytes.ByteReader.ReadRotMat | python/src/RLViserSocket.h:157-162 | value and new cursor are those of `RotMatAt` |
| RLViserRecords.EncodeBools | python/src/RLViserSocket.h:238-240 | a run of flags takes one byte per flag |
| RLViserRecords.EncodeWheels | python/src/RLViserSocket.h:238-240 | the four wheel-contact flags take four bytes |
| RLViserRecords.BoolsAt | python/src/RLViserSocket.h:309-311 | reading `n` flags yields `n` flags and keeps the cursor in the buffer |
| RLViserRecords.WheelsAt | python/src/RLViserSocket.h:309-311 | reading the wheel flags keeps the cursor in the buffer |
| RLViserRecords.WorldContactAt | python/src/RLViserSocket.h:332-333 | decoding moves the cursor forward and never past the end of the buffer |
| RLViserRecords.CarContactAt | python/src/RLViserSocket.h:334-335 | decoding moves the cursor forward and never past the end of the buffer |
| RLViserRecords.BallHitInfoAt | python/src/RLViserSocket.h:340-345 | decoding moves the cursor forward and never past the end of the buffer |
| RLViserRecords.CarControlsAt | python/src/RLViserSocket.h:348-355 | decoding moves the cursor forward and never past the end of the buffer |
| RLViserRecords.WheelPairConfigAt | python/src/RLViserSocket.h:360-362 | decoding moves the cursor forward and never past the end of the buffer |
| RLViserRecords.CarConfigAt | python/src/RLViserSocket.h:358-366 | decoding moves the cursor forward and never past the end of the buffer |
| RLViserRecords.CarPhysicsAt | python/src/RLViserSocket.h:304-307 | decoding moves the cursor forward and never past the end of the buffer |
| RLViserRecords.CarGroundAt | python/src/RLViserSocket.h:308-311 | decoding moves the cursor forward and never past the end of the buffer |
| RLViserRecords.CarJumpAt | python/src/RLViserSocket.h:312-315 | decoding moves the cursor forward and never past the end of the buffer |
| RLViserRecords.CarJumpTimersAt | python/src/RLViserSocket.h:316-319 | decoding moves the cursor forward and never past the end of the buffer |
| RLViserRecords.CarAirBoostAt | python/src/RLViserSocket.h:320-325 | decoding moves the cursor forward and never past the end of the buffer |
| RLViserRecords.CarSupersonicAt | python/src/RLViserSocket.h:326-331 | decoding moves the cursor forward and never past the end of the buffer |
| RLViserRecords.CarContactsAt | python/src/RLViserSocket.h:332-337 | decoding moves the cursor forward and never past the end of the buffer |
| RLViserRecords.CarStateAt | python/src/RLViserSocket.h:304-355 | decoding moves the cursor forward and never past the end of the buffer |
| RLViserRecords.CarInfoAt | python/src/RLViserSocket.h:298-368 | decoding moves the cursor forward and never past the end of the buffer |
| RLViserRecords.BoostPadInfoAt | python/src/RLViserSocket.h:391-398 | decoding moves the cursor forward and never past the end of the buffer |
| RLViserRecords.HeatseekerInfoAt | python/src/RLViserSocket.h:428-430 | decoding moves the cursor forward and never past the end of the buffer |
| RLViserRecords.BallStateAt | python/src/RLViserSocket.h:420-433 | decoding moves the cursor forward and never past the end of the buffer |
| RLViserRecords.BoolsRoundTrip | python/src/RLViserSocket.h:238-240 | flags read where they were written come back in order |
| RLViserRecords.WheelsRoundTrip | python/src/RLViserSocket.h:309-311 | the four wheel flags come back unchanged |
| RLViserRecords.WriteWheels | python/src/RLViserSocket.h:238-240 | the four-step loop appends exactly the flags' encoding |
| RLViserRecords.ReadWheels | python/src/RLViserSocket.h:309-311 | the four-step loop reads exactly what `WheelsAt` describes |
| RLViserRecords.EncodeWorldContact | python/src/RLViserSocket.h:261-262 | a world contact takes 13 bytes |
| RLViserRecords.WorldContactRoundTrip | python/src/RLViserSocket.h:332-333 | a world contact comes back unchanged |
| RLViserRecords.WriteWorldContact | python/src/RLViserSocket.h:261-262 | appends the contact's encoding |
| RLViserRecords.ReadWorldContact | python/src/RLViserSocket.h:332-333 | reads what `WorldContactAt` describes |
| RLViserRecords.EncodeCarContact | python/src/RLViserSocket.h:263-264 | a car contact takes 8 bytes |
| RLViserRecords.CarContactRoundTrip | python/src/RLViserSocket.h:334-335 | a car contact comes back unchanged |
| RLViserRecords.WriteCarContact | python/src/RLViserSocket.h:263-264 | appends the contact's encoding |
| RLViserRecords.ReadCarContact | python/src/RLViserSocket.h:334-335 | reads what `CarContactAt` describes |
| RLViserRecords.EncodeBallHitInfo | python/src/RLViserSocket.h:269-274 | the ball-hit block takes 53 bytes |
| RLViserRecords.BallHitInfoRoundTrip | python/src/RLViserSocket.h:340-345 | the ball-hit block, including both 64-bit ticks, comes back unchanged |
| RLViserRecords.WriteBallHitInfo | python/src/RLViserSocket.h:269-274 | appends the block's encoding |
| RLViserRecords.ReadBallHitInfo | python/src/RLViserSocket.h:340-345 | reads what `BallHitInfoAt` describes |
| RLViserRecords.EncodeCarControls | python/src/RLViserSocket.h:277-284 | the last controls take 23 bytes |
| RLViserRecords.CarControlsRoundTrip | python/src/RLViserSocket.h:348-355 | the controls come back unchanged |
| RLViserRecords.WriteCarControls | python/src/RLViserSocket.h:277-284 | appends the controls' encoding |
| RLViserRecords.ReadCarControls | python/src/RLViserSocket.h:348-355 | reads what `CarControlsAt` describes |
| RLViserRecords.EncodeWheelPairConfig | python/src/RLViserSocket.h:289-291 | a wheel pair takes 20 bytes |
| RLViserRecords.WheelPairConfigRoundTrip | python/src/RLViserSocket.h:360-362 | a wheel pair comes back unchanged |
| RLViserRecords.WriteWheelPairConfig | python/src/RLViserSocket.h:289-291 | appends the wheel pair's encoding |
| RLViserRecords.ReadWheelPairConfig | python/src/RLViserSocket.h:360-362 | reads what `WheelPairConfigAt` describes |
| RLViserRecords.EncodeCarConfig | python/src/RLViserSocket.h:287-295 | the car configuration takes 68 bytes |
| RLViserRecords.CarConfigRoundTrip | python/src/RLViserSocket.h:358-366 | the configuration comes back unchanged |
| RLViserRecords.WriteCarConfig | python/src/RLViserSocket.h:287-295 | appends the configuration's encoding |
| RLViserRecords.ReadCarConfig | python/src/RLViserSocket.h:358-366 | reads what `CarConfigAt` describes |
| RLViserRecords.EncodeCarPhysics | python/src/RLViserSocket.h:233-236 | position, rotation, velocity and angular velocity take 72 bytes |
| RLViserRecords.CarPhysicsRoundTrip | python/src/RLViserSocket.h:304-307 | those four fields come back unchanged |
| RLViserRecords.WriteCarPhysics | python/src/RLViserSocket.h:233-236 | appends their encoding |
| RLViserRecords.ReadCarPhysics | python/src/RLViserSocket.h:304-307 | reads what `CarPhysicsAt` describes |
| RLViserRecords.EncodeCarGround | python/src/RLViserSocket.h:237-240 | the ground flag and wheel contacts take 5 bytes |
| RLViserRecords.CarGroundRoundTrip | python/src/RLViserSocket.h:308-311 | they come back unchanged |
| RLViserRecords.WriteCarGround | python/src/RLViserSocket.h:237-240 | appends their encoding |
| RLViserRecords.ReadCarGround | python/src/RLViserSocket.h:308-311 | reads what `CarGroundAt` describes |
| RLViserRecords.EncodeCarJump | python/src/RLViserSocket.h:241-244 | the jump flags and flip torque take 15 bytes |
| RLViserRecords.CarJumpRoundTrip | python/src/RLViserSocket.h:312-315 | they come back unchanged |
| RLViserRecords.WriteCarJump | python/src/RLViserSocket.h:241-244 | appends their encoding |
| RLViserRecords.ReadCarJump | python/src/RLViserSocket.h:312-315 | reads what `CarJumpAt` describes |
| RLViserRecords.EncodeCarJumpTimers | python/src/RLViserSocket.h:245-248 | the jump and flip timers and flags take 10 bytes |
| RLViserRecords.CarJumpTimersRoundTrip | python/src/RLViserSocket.h:316-319 | they come back unchanged |
| RLViserRecords.WriteCarJumpTimers | python/src/RLViserSocket.h:245-248 | appends their encoding |
| RLViserRecords.ReadCarJumpTimers | python/src/RLViserSocket.h:316-319 | reads what `CarJumpTimersAt` describes |
| RLViserRecords.EncodeCarAirBoost | python/src/RLViserSocket.h:249-254 | the air-time and boost fields take 21 bytes |
| RLViserRecords.CarAirBoostRoundTrip | python/src/RLViserSocket.h:320-325 | they come back unchanged |
| RLViserRecords.WriteCarAirBoost | python/src/RLViserSocket.h:249-254 | appends their encoding |
| RLViserRecords.ReadCarAirBoost | python/src/RLViserSocket.h:320-325 | reads what `CarAirBoostAt` describes |
| RLViserRecords.EncodeCarSupersonic | python/src/RLViserSocket.h:255-260 | the supersonic, handbrake and auto-flip fields take 18 bytes |
| RLViserRecords.CarSupersonicRoundTrip | python/src/RLViserSocket.h:326-331 | they come back unchanged |
| RLViserRecords.WriteCarSupersonic | python/src/RLViserSocket.h:255-260 | appends their encoding |
| RLViserRecords.ReadCarSupersonic | python/src/RLViserSocket.h:326-331 | reads what `CarSupersonicAt` describes |
| RLViserRecords.EncodeCarContacts | python/src/RLViserSocket.h:261-266 | the contacts and demo fields take 26 bytes |
| RLViserRecords.CarContactsRoundTrip | python/src/RLViserSocket.h:332-337 | they come back unchanged |
| RLViserRecords.WriteCarContacts | python/src/RLViserSocket.h:261-266 | appends their encoding |
| RLViserRecords.ReadCarContacts | python/src/RLViserSocket.h:332-337 | reads what `CarContactsAt` describes |
| RLViserRecords.EncodeCarState | python/src/RLViserSocket.h:232-284 | a car's state takes 243 bytes |
| RLViserRecords.CarStateRoundTrip | python/src/RLViserSocket.h:303-355 | the reader consumes the state's fields in the writer's order, so the whole state comes back |
| RLViserRecords.WriteCarState | python/src/RLViserSocket.h:232-284 | appends the state's encoding |
| RLViserRecords.ReadCarState | python/src/RLViserSocket.h:303-355 | reads what `CarStateAt` describes |
| RLViserRecords.EncodeCarInfo | python/src/RLViserSocket.h:176-226 | `CarInfo::write` emits exactly `CarInfo::NUM_BYTES` (316) bytes |
| RLViserRecords.CarInfoRoundTrip | python/src/RLViserSocket.h:228-369 | `CarInfo::read` after `CarInfo::write` returns the id, team byte, state and configuration unchanged |
| RLViserRecords.WriteCarInfo | python/src/RLViserSocket.h:228-296 | appends the car's encoding |
| RLViserRecords.ReadCarInfo | python/src/RLViserSocket.h:298-369 | reads what `CarInfoAt` describes |
| RLViserRecords.EncodeBoostPadInfo | python/src/RLViserSocket.h:382-389 | a pad takes `BoostPadInfo::NUM_BYTES` (18) bytes |
| RLViserRecords.BoostPadInfoRoundTrip | python/src/RLViserSocket.h:384-398 | a pad comes back unchanged |
| RLViserRecords.WriteBoostPadInfo | python/src/RLViserSocket.h:384-389 | appends the pad's encoding |
| RLViserRecords.ReadBoostPadInfo | python/src/RLViserSocket.h:391-398 | reads what `BoostPadInfoAt` describes |
| RLViserRecords.EncodeHeatseekerInfo | python/src/RLViserSocket.h:415-417 | the heatseeker block takes 12 bytes |
| RLViserRecords.HeatseekerInfoRoundTrip | python/src/RLViserSocket.h:428-430 | it comes back unchanged |
| RLViserRecords.WriteHeatseekerInfo | python/src/RLViserSocket.h:415-417 | appends its encoding |
| RLViserRecords.ReadHeatseekerInfo | python/src/RLViserSocket.h:428-430 | reads what `HeatseekerInfoAt` describes |
| RLViserRecords.EncodeBallState | python/src/RLViserSocket.h:408-418 | the ball takes 84 bytes, the size `get_num_bytes` assumes |
| RLViserRecords.BallStateRoundTrip | python/src/RLViserSocket.h:408-433 | the ball, with its heatseeker block, comes back unchanged |
| RLViserRecords.WriteBallState | python/src/RLViserSocket.h:408-418 | appends the ball's encoding |
| RLViserRecords.ReadBallState | python/src/RLViserSocket.h:420-433 | reads what `BallStateAt` describes |
| RLViserGameState.CountU32 | python/src/RLViserSocket.h:463-464 | a count below 2^32 survives the `uint32_t` cast |
| RLViserGameState.EncodeHeader | python/src/RLViserSocket.h:449-464 | the header takes exactly `MIN_NUM_BYTES` (21) bytes |
| RLViserGameState.EncodeListLength | python/src/RLViserSocket.h:470-477 | `n` records of a fixed size take `n` times that size |
| RLViserGameState.EncodePads | python/src/RLViserSocket.h:470-472 | the pads take 18 bytes each |
| RLViserGameState.EncodeCars | python/src/RLViserSocket.h:475-477 | the cars take 316 bytes each |
| RLViserGameState.EncodeGameState | python/src/RLViserSocket.h:456-480 | a frame is 21 + 84 + 18 per pad + 316 per car bytes long |
| RLViserGameState.WritePads | python/src/RLViserSocket.h:470-472 | the pad loop appends every pad in order |
| RLViserGameState.WriteCars | python/src/RLViserSocket.h:475-477 | the car loop appends every car in order |
| RLViserGameState.WriteHeader | python/src/RLViserSocket.h:459-464 | appends tick count, tick rate, mode byte and the two counts |
| RLViserGameState.ToBytes | python/src/RLViserSocket.h:456-480 | `to_bytes` returns exactly the frame's encoding |
| RLViserGameState.ListAt | python/src/RLViserSocket.h:516-525 | the read loops always produce `n` records |
| RLViserGameState.PadsAt | python/src/RLViserSocket.h:516-519 | the pad loop produces as many pads as the header announces |
| RLViserGameState.CarsAt | python/src/RLViserSocket.h:522-525 | the car loop produces as many cars as the header announces |
| RLViserGameState.DecodeGameState | python/src/RLViserSocket.h:501-528 | when the header fits, the pad and car lists have the counts stored at offsets 13 and 17 |
| RLViserGameState.ReadPads | python/src/RLViserSocket.h:516-519 | the loop reads what `PadsAt` describes |
| RLViserGameState.ReadCars | python/src/RLViserSocket.h:522-525 | the loop reads what `CarsAt` describes |
| RLViserGameState.FromBytes | python/src/RLViserSocket.h:501-528 | `from_bytes` returns `DecodeGameState` of its input, short input included |
| RLViserGameState.NumBytes | python/src/RLViserSocket.h:482-499 | 0 for input shorter than 21 bytes; otherwise at least header plus ball |
| RLViserGameState.GetNumBytes | python/src/RLViserSocket.h:482-499 | the reads of `get_num_bytes` compute `NumBytes` |
| RLViserGameState.ListRoundTrip | python/src/RLViserSocket.h:470-525 | a list written record by record is read back in order, ending right after it |
| RLViserGameState.PadsRoundTrip | python/src/RLViserSocket.h:470-519 | the pads come back in order |
| RLViserGameState.CarsRoundTrip | python/src/RLViserSocket.h:475-525 | the cars come back in order |
| RLViserGameState.SplitSections | python/src/RLViserSocket.h:456-480 | a frame holds the header at 0, the ball at 21, the pads at 105 and the cars after the pads |
| RLViserGameState.HeaderRoundTrip | python/src/RLViserSocket.h:505-510 | the header reads give back tick count, tick-rate bits, mode and both counts |
| RLViserGameState.BallSectionRoundTrip | python/src/RLViserSocket.h:513 | the ball comes back and the cursor lands on the pads |
| RLViserGameState.PadsSectionRoundTrip | python/src/RLViserSocket.h:516-519 | the pads come back and the cursor lands on the cars |
| RLViserGameState.CarsSectionRoundTrip | python/src/RLViserSocket.h:522-525 | the cars come back |
| RLViserGameState.DecodeEncode | python/src/RLViserSocket.h:456-528 | any buffer that starts with a frame's encoding decodes to that frame, whatever follows it, when the counts fit in 32 bits |
| RLViserGameState.FromBytesToBytes | python/src/RLViserSocket.h:456-528 | `from_bytes(to_bytes(s)) == s` when the counts fit in 32 bits |
| RLViserGameState.NumBytesToBytes | python/src/RLViserSocket.h:482-499 | `get_num_bytes` of `to_bytes(s)` is its exact length |
| GameModes.Name | src/Sim/GameMode.h:22-30 | every enumerator has a non-empty display name in `GAMEMODE_STRS` |
| GameModes.NameInjective | src/Sim/GameMode.h:6-30 | two modes share a name exactly when they are the same mode |
| ArenaModel.ContactTracker.constructor | src/Sim/Arena/Arena.h:44-46 | a new tracker holds no records |
| ArenaModel.ContactTracker.Clear | src/Sim/Arena/Arena.h:48 | `Clear` empties `records` |
| ArenaModel.TickAfter | src/Sim/Arena/Arena.h:88-89 | the 64-bit counter advances by the ticks run, exactly while it does not wrap |
| ArenaModel.TickAfterWraps | src/Sim/Arena/Arena.h:88-89 | the counter always advances by the ticks run, modulo 2^64 |
| ArenaModel.TickAfterCompose | src/Sim/Arena/Arena.h:88-89 | advancing by `a` and then by `b` is advancing by `a + b` |
| ArenaModel.TickAfterMonotone | src/Sim/Arena/Arena.h:88-89 | below the wrap, more ticks give a larger counter by exactly the difference |
| ArenaModel.Car.constructor | src/Sim/Arena/Arena.h:96 | a car made for `AddCar` carries its team and configuration and has no id yet (0) until registration |
| ArenaModel.Arena.constructor | src/Sim/Arena/Arena.h:161-162 | a new arena has no cars, counter 0 and `_lastCarID` 0, every callback slot empty (the profiler's sub-phase switch on), and an empty tracker |
| ArenaModel.Arena.GetCar | src/Sim/Arena/Arena.h:107 | returns the registered car with that id, and null exactly when no car has it |
| ArenaModel.Arena.SetMutatorConfig | src/Sim/Arena/Arena.h:77-78 | the configuration is replaced wholesale and `GetMutatorConfig` returns it; nothing else changes |
| ArenaModel.Arena.GetMutatorConfig | src/Sim/Arena/Arena.h:77 | returns the configuration last stored by the constructor or `SetMutatorConfig` |
| ArenaModel.Arena.AddCarFromPtr | src/Sim/Arena/Arena.h:94-95 | true and registered under its id when new; false with nothing changed when already present |
| ArenaModel.Arena.AddCar | src/Sim/Arena/Arena.h:96 | the new car gets id `_lastCarID + 1`, which no other car has; it is registered, `GetCar` finds it, and the count grows by one |
| ArenaModel.Arena.RemoveCar | src/Sim/Arena/Arena.h:98-99 | true exactly when a car has that id; the car then leaves both collections, the count drops by one, and `GetCar(id)` is null |
| ArenaModel.Arena.RemoveCarRef | src/Sim/Arena/Arena.h:101-105 | removal by the car's id, as written; succeeds whenever some car has that id |
| ArenaModel.Arena.RemoveCarChecked | src/Sim/Arena/Arena.h:101-102 | succeeds exactly when this very car is in the arena, as the comment promises |
| ArenaModel.Arena.Step | src/Sim/Arena/Arena.h:182-183 | the counter advances by the ticks run; the tracker is empty after a tick; nothing else changes |
| ArenaModel.Arena.SetGoalScoreCallback | src/Sim/Arena/Arena.h:126-130 | hands back the previous pair; stores exactly the given function and user info, except in `THE_VOID`, where it fails and changes nothing |
| ArenaModel.Arena.SetCarBumpCallback | src/Sim/Arena/Arena.h:132-136 | hands back the previous pair and stores exactly the given function and user info |
| ArenaModel.Arena.SetBoostPickupCallback | src/Sim/Arena/Arena.h:138-142 | hands back the previous pair; stores exactly the given pair, except in `THE_VOID`, where it fails and changes nothing |
| ArenaModel.Arena.SetBallTouchCallback | src/Sim/Arena/Arena.h:144-148 | stores exactly the given function and user info |
| ArenaModel.Arena.SetProfilerCallback | src/Sim/Arena/Arena.h:150-159 | stores the function, the user info and the sub-phase switch |
| ArenaModel.FirstCarIds | src/Sim/Arena/Arena.h:59 | in a fresh arena the first car gets id 1 and the second id 2, and each is found by its id |
| ArenaModel.AddThenRemove | src/Sim/Arena/Arena.h:98-99 | removing the only car succeeds, leaves no car, its id resolves to null, and a second removal fails |
| ArenaModel.ForeignCarRemoval | src/Sim/Arena/Arena.h:101-105 | a car of another arena with a clashing id removes this arena's own car |
| ArenaModel.ForeignCarRejected | src/Sim/Arena/Arena.h:101-105 | with the checked removal, the same foreign car is rejected and the own car stays |
| ArenaModel.StepTwice | src/Sim/Arena/Arena.h:88-89 | a fresh arena's counter equals the total number of ticks stepped, however the steps are split |
| RsMath.ToU64 | src/Math/Math.cpp:44 | conversion to a 64-bit unsigned value keeps non-negative values and adds 2^64 to negative ones |
| RsMath.ToI32 | src/Math/Math.cpp:44 | conversion to `int` is congruent modulo 2^32 and keeps values in range |
| RsMath.Trunc | src/Math/Math.cpp:81-82 | a float-to-`int` cast truncates toward zero |
| RsMath.RoundHalfAway | src/Math/Math.cpp:35-37 | `roundf` lands within one half of its argument, keeping the sign; at a tie it goes away from zero (strictly above `x - 0.5` for non-negative `x`, strictly below `x + 0.5` for non-positive `x`) |
| RsMath.RoundHalfAwayInt | src/Math/Math.cpp:35-37 | `roundf` leaves whole numbers unchanged |
| RsMath.ToPoints | src/Math/Math.h:19-25 | each `{first, second}` pair becomes the point `{input, output}` |
| RsMath.StoredPoints | src/Math/Math.h:19-25 | the curve keeps the first `min(n, 8)` pairs, in order |
| RsMath.StoredPointsDropsExtra | src/Math/Math.h:21-22 | pairs beyond the eighth are dropped silently |
| RsMath.SearchFromSegment | src/Math/Math.cpp:14-27 | the search returns the interpolation on the first segment whose end lies beyond the input |
| RsMath.SearchFromBeyondLast | src/Math/Math.cpp:14-31 | when no point lies beyond the input, the search returns the last output |
| RsMath.OutputWithin | src/Math/Math.cpp:5-32 | every point's output lies between the smallest and the largest output |
| RsMath.SearchFrom | src/Math/Math.cpp:14-31 | once past the input's lower neighbour, the search's value lies within the range of the outputs |
| RsMath.CurveOutput | src/Math/Math.cpp:5-32 | without points, the default output; at or below the first point's input, the first output; otherwise a value within the range of the points' outputs: the curve never extrapolates |
| RsMath.CurveInSegment | src/Math/Math.cpp:9-27 | above the first point, the curve interpolates on the first segment that ends beyond the input; a segment with `dx <= 0` yields its first output |
| RsMath.CurveBeyondLast | src/Math/Math.cpp:30-31 | past every point, the curve returns the last output |
| RsMath.Interpolate | src/Math/Math.cpp:20-26 | a degenerate segment answers the earlier output; the segment's ends map to their own outputs |
| RsMath.InterpolateBetween | src/Math/Math.cpp:20-26 | inside a segment, `t` lies in [0, 1) and the result lies between the two outputs |
| RsMath.CurveAtPoint | src/Math/Math.cpp:5-32 | on strictly increasing inputs, the curve at a point's input returns that point's output |
| RsMath.LinearPieceCurve.Points | src/Math/Math.h:15-16 | the live points are the first `numPoints` entries of the array |
| RsMath.LinearPieceCurve.Empty | src/Math/Math.h:27 | the default constructor gives a curve with no points |
| RsMath.LinearPieceCurve.constructor | src/Math/Math.h:19-25 | the loop stores `StoredPoints(init)`, so `numPoints <= 8`; the unused slots stay zero |
| RsMath.LinearPieceCurve.GetOutput | src/Math/Math.cpp:5-32 | the search loop returns `CurveOutput` of the stored points; without points the default output, and at or below the first input the first output |
| RsMath.EmptyCurveOutput | src/Math/Math.h:27-29 | a default curve answers the default output 1 |
| RsMath.FMod | src/Math/Math.cpp:64 | `fmod` has the dividend's sign, is smaller than the divisor, and differs from the dividend by a whole multiple of the divisor |
| RsMath.WholeQuotient | src/Math/Math.cpp:64 | what the truncated quotient takes away is a whole multiple of the divisor |
| RsMath.WrapNormalizeFloat | src/Math/Math.cpp:63-70 | for `minmax > 0` the result lies in [-minmax, minmax] and differs from `val` by a multiple of `2*minmax` |
| RsMath.WrapShift | src/Math/Math.cpp:65-68 | adding or subtracting one period keeps the difference a whole number of periods |
| RsMath.WrapNormalizeInRange | src/Math/Math.cpp:63-70 | a value already in range is returned unchanged |
| RsMath.FModSmall | src/Math/Math.cpp:64 | `fmod` leaves a value smaller than the divisor unchanged |
| RsMath.MinstdSeedState | src/Math/Math.cpp:43 | seeding `default_random_engine` gives a state in [1, 2^31 - 2] |
| RsMath.MinstdNext | src/Math/Math.cpp:44 | one engine step stays in [1, 2^31 - 2] |
| RsMath.MinstdNoZero | src/Math/Math.cpp:43-44 | the multiplier times a non-zero state is never a multiple of the prime modulus |
| RsMath.PickInRange | src/Math/Math.cpp:44-47 | the 32-bit result is congruent modulo 2^32 to `min + e % (max - min)` |
| RsMath.PickInRangeBounds | src/Math/Math.cpp:44 | `min + e % (max - min)` in the unsigned arithmetic of the expression lies in [min, max) |
| RsMath.WrapSum | src/Math/Math.cpp:44 | the wrap to 64 bits and back to `int` gives the mathematical sum when it fits |
| RsMath.RandIntSeeded | src/Math/Math.cpp:41-45 | with a seed other than -1 the result lies in [min, max) and is `min` plus the freshly seeded engine's first output modulo `max - min` |
| RsMath.RandIntSeedZero | src/Math/Math.cpp:42-44 | seed 0 draws 16807, so `RandInt(0, 10, 0) == 7` and `RandInt(5, 15, 0) == 12` |
| RsMath.RandEngine.constructor | src/Math/Math.cpp:56-61 | a seeded engine starts in the seeded state |
| RsMath.RandEngine.Next | src/Math/Math.cpp:46-47 | a draw advances the shared engine by one step and returns the new state |
| RsMath.RandInt | src/Math/Math.cpp:41-49 | the result lies in [min, max); a seed other than -1 leaves the shared engine untouched, and -1 advances it once |
| RsMath.RoundTo | src/Math/Math.cpp:35-37 | a coordinate becomes a multiple of `precision` within half a step of the original; a tie goes away from zero |
| RsMath.RoundToIdempotent | src/Math/Math.cpp:35-37 | rounding twice is rounding once |
| RsMath.RoundVec | src/Math/Math.cpp:34-39 | each coordinate becomes a multiple of `precision` within half a step of the original; a tie goes away from zero |
| RsMath.RoundVecIdempotent | src/Math/Math.cpp:34-39 | rounding a rounded vector changes nothing |
| RsMath.RoundedUnits | src/Math/Math.cpp:81-82 | `(int(x*TO_INTS) >> 2) & 0x3FFF` lies in [0, 16383] |
| RsMath.Snap | src/Math/Math.cpp:81-84 | a snapped component is a multiple of `BACK_TO_RADIANS` in [0, 2π) |
| RsMath.SnappedRange | src/Math/Math.cpp:83-84 | `k*BACK_TO_RADIANS` with `k` in [0, 16383] lies in [0, 2π) |
| RsMath.BackToRadiansValue | src/Math/Math.cpp:77-78 | `BACK_TO_RADIANS` is four rotator units: 16384 of them make a full turn |
| RsMath.SnapIdempotent | src/Math/Math.cpp:81-84 | snapping a snapped component changes nothing |
| RsMath.SnapFixed | src/Math/Math.cpp:81-84 | every grid value is a fixed point of the snap |
| RsMath.RoundedUnitsFixed | src/Math/Math.cpp:81-82 | the grid value `k*BACK_TO_RADIANS` rounds back to `k` |
| RsMath.RoundAngleUE3 | src/Math/Math.cpp:72-88 | yaw and pitch become grid multiples in [0, 2π), and roll stays 0 |
| RsMath.RoundAngleUE3Idempotent | src/Math/Math.cpp:72-88 | rounding a rounded angle changes nothing |
| ProfilerStats.SortedCopy | tests/Benchmark/ProfilerUtils.h:115-116 | the sorted copy is sorted and a permutation of the samples |
| ProfilerStats.MinOf | tests/Benchmark/ProfilerUtils.h:127 | `min_element` is a sample no larger than any sample |
| ProfilerStats.MaxOf | tests/Benchmark/ProfilerUtils.h:132 | `max_element` is a sample no smaller than any sample |
| ProfilerStats.SortedCopyBetween | tests/Benchmark/ProfilerUtils.h:113-153 | every entry of the sorted copy lies between the minimum and the maximum |
| ProfilerStats.SortedCopyEnds | tests/Benchmark/ProfilerUtils.h:113-153 | the sorted copy starts with the minimum and ends with the maximum |
| ProfilerStats.Ceil | tests/Benchmark/ProfilerUtils.h:150 | `ceil` is the least integer at or above its argument |
| ProfilerStats.PercentileRank | tests/Benchmark/ProfilerUtils.h:150 | the rank `ceil(p * n / 100)` is non-negative for `p >= 0`, at most `n` for `p <= 100`, and at least 1 for positive `p` on non-empty samples |
| ProfilerStats.PercentileIndex | tests/Benchmark/ProfilerUtils.h:150-151 | the index computed as written always lies inside the samples |
| ProfilerStats.PercentileIndexRank | tests/Benchmark/ProfilerUtils.h:150-152 | a rank between 1 and n selects the rank-th smallest sample |
| ProfilerStats.PercentileZeroIsLast | tests/Benchmark/ProfilerUtils.h:150-151 | as written, rank 0 underflows and the clamp picks the last index |
| ProfilerStats.PercentileIndexGuarded | tests/Benchmark/ProfilerUtils.h:150-151 | the guarded index maps rank 0 to the first index, ranks 1..n to rank - 1, and higher ranks to the last index |
| ProfilerStats.PercentileIndexGuardedAgrees | tests/Benchmark/ProfilerUtils.h:150-151 | the guarded and written indices agree on every rank except 0 |
| ProfilerStats.Statistics.constructor | tests/Benchmark/ProfilerUtils.h:93 | a new collector has no samples |
| ProfilerStats.Statistics.AddSample | tests/Benchmark/ProfilerUtils.h:95-97 | the sample is appended at the end |
| ProfilerStats.Statistics.Count | tests/Benchmark/ProfilerUtils.h:103-105 | the number of samples, 0 exactly when there are none |
| ProfilerStats.Statistics.GetSamples | tests/Benchmark/ProfilerUtils.h:158-160 | the samples in the order they were added, as many as `Count()` |
| ProfilerStats.Statistics.Clear | tests/Benchmark/ProfilerUtils.h:99-101 | all samples are removed |
| ProfilerStats.Statistics.Min | tests/Benchmark/ProfilerUtils.h:125-128 | 0 without samples; otherwise a sample no larger than any other |
| ProfilerStats.Statistics.Max | tests/Benchmark/ProfilerUtils.h:130-133 | 0 without samples; otherwise a sample no smaller than any other |
| ProfilerStats.Statistics.Median | tests/Benchmark/ProfilerUtils.h:113-123 | 0 without samples; otherwise the middle of a sorted copy (the mean of the two middle values for even n), between `Min` and `Max` |
| ProfilerStats.Statistics.Percentile | tests/Benchmark/ProfilerUtils.h:146-153 | 0 without samples; otherwise the sorted sample at the clamped index, between `Min` and `Max` |
| ProfilerStats.Statistics.PercentileGuarded | tests/Benchmark/ProfilerUtils.h:146-153 | with the underflow guarded, rank 0 reads the minimum and ranks of n or more read the maximum |
| ProfilerStats.PercentileZeroReadsMax | tests/Benchmark/ProfilerUtils.h:146-153 | as written, `Percentile(0)` returns the largest sample |
| ProfilerStats.CollectSamples | tests/Benchmark/ProfilerUtils.h:95-105 | after a run of `AddSample` calls, `Count` is their number and `GetSamples` lists them in insertion order |
| ProfilerStats.DigitChar | tests/Benchmark/ProfilerUtils.h:189 | each digit value has a digit character |
| ProfilerStats.DecimalDigits | tests/Benchmark/ProfilerUtils.h:189 | `to_string` gives at least one digit, one exactly below 10, and at most three below 1000 |
| ProfilerStats.DecimalDigitsValue | tests/Benchmark/ProfilerUtils.h:189 | the digits read back as `n` |
| ProfilerStats.WithCommasLength | tests/Benchmark/ProfilerUtils.h:188-196 | a number of `n` digits gains `(n - 1) / 3` commas |
| ProfilerStats.WithCommasRemove | tests/Benchmark/ProfilerUtils.h:190-194 | removing the inserted commas gives the digits back |
| ProfilerStats.WithCommasGrouped | tests/Benchmark/ProfilerUtils.h:190-194 | the leading group has 1-3 digits and every comma is followed by exactly 3 digits |
| ProfilerStats.FormatNumber | tests/Benchmark/ProfilerUtils.h:188-196 | the insertion loop produces the digits of `n` grouped by commas |
| ProfilerStats.FormatNumberSmall | tests/Benchmark/ProfilerUtils.h:190-191 | numbers below 1000 get no comma |
| ProfilerStats.FormatNumberDigits | tests/Benchmark/ProfilerUtils.h:188-196 | the output with its commas removed is the decimal form of `n`, and it is well grouped |
| StressBench.XorShift | tests/Benchmark/StressBenchmark.h:39-41 | an independently written inverse undoes the three xor-shift updates, so the step loses no state |
| StressBench.ZeroFixed | tests/Benchmark/StressBenchmark.h:39-41 | the step maps a state to 0 exactly when the state is 0 |
| StressBench.XorShiftInjective | tests/Benchmark/StressBenchmark.h:39-41 | distinct states step to distinct states |
| StressBench.Unit | tests/Benchmark/StressBenchmark.h:42 | a draw lies in [0, 1]; with the exact quotient, it is 1 exactly when the low 31 bits are all set |
| StressBench.Draws | tests/Benchmark/StressBenchmark.h:38-42 | `n` calls yield `n` values |
| StressBench.DrawsInRange | tests/Benchmark/StressBenchmark.h:37-43 | every draw lies in [0, 1] |
| StressBench.DrawsStep | tests/Benchmark/StressBenchmark.h:38-42 | one call produces the first value, and the rest continue from the new state |
| StressBench.DrawsSnoc | tests/Benchmark/StressBenchmark.h:38-42 | the `k + 1`-th call steps the state once more and appends the value of the new state |
| StressBench.ZeroSeedStaysZero | tests/Benchmark/StressBenchmark.h:33-42 | from seed 0 the state stays 0 and every draw is 0 |
| StressBench.DrawsSplit | tests/Benchmark/StressBenchmark.h:38-42 | `m` draws then `n` more are the same as `m + n` draws |
| StressBench.DrawCanBeOne | tests/Benchmark/StressBenchmark.h:37-43 | a reachable state makes `rand()` return exactly 1.0 |
| StressBench.FastRNG.constructor | tests/Benchmark/StressBenchmark.h:33 | the state is the seed |
| StressBench.FastRNG.Seed | tests/Benchmark/StressBenchmark.h:35 | `seed(s)` sets the state to `s` |
| StressBench.FastRNG.Rand | tests/Benchmark/StressBenchmark.h:38-43 | the state takes one xor-shift step and the result is its low 31 bits over 0x7FFFFFFF, in [0, 1] |
| StressBench.FastRNG.RandAxisVal | tests/Benchmark/StressBenchmark.h:46-48 | one step; the result is `2*rand() - 1`, in [-1, 1] |
| StressBench.FastRNG.RandChance | tests/Benchmark/StressBenchmark.h:51-53 | one step; true exactly when the draw is below the threshold |
| StressBench.FastRNG.DrawMany | tests/Benchmark/StressBenchmark.h:38-43 | `n` calls yield `Draws(seed, n)` and leave the state `n` steps on |
| StressBench.SameSeedSameDraws | tests/Benchmark/StressBenchmark.h:33-35 | a generator constructed with a seed and one re-seeded with it draw the same values |
| StressBench.DefaultSeedDraws | tests/Benchmark/StressBenchmark.h:33-43 | the default generator draws only zeros |
| ReadmeBench.TickAtGrows | tests/Benchmark/READMEBenchmark.cpp:76-86 | after `k - j` further intervals the tick has grown by between `2(k-j)` and `60(k-j)` |
| ReadmeBench.GenerateSequence | tests/Benchmark/READMEBenchmark.cpp:80-92 | the generation loop builds the schedule of the drawn intervals, with as many controls as change ticks |
| ReadmeBench.ScheduleWithinRun | tests/Benchmark/READMEBenchmark.cpp:83-91 | every change tick is at most `num_ticks` |
| ReadmeBench.ScheduleSpacing | tests/Benchmark/READMEBenchmark.cpp:76-91 | the first change tick and every gap lie in [2, 60], so the ticks strictly increase |
| ReadmeBench.AdvanceBounds | tests/Benchmark/READMEBenchmark.cpp:112-122 | one replay tick moves `current_index` by at most one, never past the end, and assigns only stored controls |
| ReadmeBench.ReadyInSync | tests/Benchmark/READMEBenchmark.cpp:95-97 | a freshly generated car starts on the controls its schedule prescribes |
| ReadmeBench.ReplayTickInSync | tests/Benchmark/READMEBenchmark.cpp:110-128 | each replay tick keeps every car on the controls its schedule prescribes |
| ReadmeBench.GeneratedReady | tests/Benchmark/READMEBenchmark.cpp:79-97 | a generated car, `controls[0]` applied when present, is ready for replay |
| ReadmeBench.GenerateAll | tests/Benchmark/READMEBenchmark.cpp:79-98 | every car gets a generated schedule; `controls[0]` is applied only when the schedule is non-empty |
| ReadmeBench.ReplayTick | tests/Benchmark/READMEBenchmark.cpp:112-123 | each car's index and controls advance as one replay step prescribes |
| ReadmeBench.RunReplay | tests/Benchmark/READMEBenchmark.cpp:100-128 | 100 warm-up steps, then exactly `num_ticks` replay steps; the schedules are unchanged and every ready car stays in sync |
| ReadmeBench.AddTwoCars | tests/Benchmark/READMEBenchmark.cpp:62-63 | two `AddCar` calls register ids `last + 1` and `last + 2` |
| ReadmeBench.CreateArena | tests/Benchmark/READMEBenchmark.cpp:56-65 | a SOCCAR arena with four cars, ids 1 to 4, at tick 0 |
| ReadmeBench.RunBenchmark | tests/Benchmark/READMEBenchmark.cpp:28-139 | the arena ends at tick `100 + num_ticks`, `ticks_simulated` is `num_ticks`, and, when `num_ticks < 2^32`, all four cars end in sync with their schedules |
| PerfBench.LeadingDigits | tests/Benchmark/PerformanceBenchmark.cpp:63-69 | the longest leading run of decimal digits |
| PerfBench.StoUL | tests/Benchmark/PerformanceBenchmark.cpp:63-69 | `stoul` skips leading white space and one sign; it fails exactly when no digit follows or the magnitude exceeds `ULONG_MAX`; a minus sign negates modulo 2^64 |
| PerfBench.StoULDecimal | tests/Benchmark/PerformanceBenchmark.cpp:63-69 | the decimal form of `n` parses back to `n` |
| PerfBench.StoULSpacePlus | tests/Benchmark/PerformanceBenchmark.cpp:63-69 | a leading space or plus sign does not change the parsed value |
| PerfBench.StoULMinus | tests/Benchmark/PerformanceBenchmark.cpp:63-69 | `"-n"` parses to `2^64 - n` |
| PerfBench.SkipSpace | tests/Benchmark/PerformanceBenchmark.cpp:63-69 | the longest suffix that does not start with white space, after only white space |
| PerfBench.Magnitude | tests/Benchmark/PerformanceBenchmark.cpp:63-69 | the digits after the white space and the optional sign |
| PerfBench.LeadingDigitsAll | tests/Benchmark/PerformanceBenchmark.cpp:63-69 | a string of digits is read whole |
| PerfBench.MagnitudeAfterSign | tests/Benchmark/PerformanceBenchmark.cpp:63-69 | after one sign, the digits are the magnitude, and only `-` negates |
| PerfBench.MagnitudeOfDigits | tests/Benchmark/PerformanceBenchmark.cpp:63-69 | bare digits are read whole and are not negative |
| PerfBench.MagnitudeAfterSpace | tests/Benchmark/PerformanceBenchmark.cpp:63-69 | white space before the digits is skipped |
| PerfBench.StoULNoDigit | tests/Benchmark/PerformanceBenchmark.cpp:63-69 | input whose first character is neither white space, a sign nor a digit throws |
| PerfBench.StepAt | tests/Benchmark/PerformanceBenchmark.cpp:56-83 | one argument is consumed, or two for a valued option that has a successor; a consumed argument keeps every numeric field within its C++ type, and a stop is `exit(0)`, `exit(1)` or a throw |
| PerfBench.ParseOption | tests/Benchmark/PerformanceBenchmark.cpp:56-82 | one pass of the `if` chain does what `StepAt` describes |
| PerfBench.ParseFrom | tests/Benchmark/PerformanceBenchmark.cpp:55-83 | the rest of the loop keeps every numeric field within its C++ type, and ends the program only with exit code 0 or 1 or an uncaught exception |
| PerfBench.Parse | tests/Benchmark/PerformanceBenchmark.cpp:52-87 | parsed arguments fit `uint64_t`, `uint32_t` and `size_t`; the other outcomes are `exit(0)`, `exit(1)` and an uncaught exception |
| PerfBench.ParseArgs | tests/Benchmark/PerformanceBenchmark.cpp:52-87 | the parse loop computes `Parse(argv)` |
| PerfBench.ParseNoArguments | tests/Benchmark/PerformanceBenchmark.cpp:36-50 | with no arguments: README mode, 1000000 ticks, seed 0, 2 cars, 1 thread, both flags false, meshes in "collision_meshes" |
| PerfBench.ParseAppend | tests/Benchmark/PerformanceBenchmark.cpp:55-84 | parsing a longer command line continues from where the shorter one ended |
| PerfBench.StepAtPrefix | tests/Benchmark/PerformanceBenchmark.cpp:55-84 | an option that does not end parsing is handled the same whatever arguments follow it |
| PerfBench.ParseOneMore | tests/Benchmark/PerformanceBenchmark.cpp:55-84 | one more argument is handled from the arguments parsed so far |
| PerfBench.ModeFlagWins | tests/Benchmark/PerformanceBenchmark.cpp:58-61 | the last of `--readme`/`--profile` decides the mode |
| PerfBench.FlagsIdempotent | tests/Benchmark/PerformanceBenchmark.cpp:70-73 | `--compare-configs` and `--no-subphase` only set their flag, so repeating one changes nothing |
| PerfBench.ValuedOption | tests/Benchmark/PerformanceBenchmark.cpp:62-69 | a valued option followed by a number stores it; the seed is truncated to 32 bits |
| PerfBench.ValuedOptionLast | tests/Benchmark/PerformanceBenchmark.cpp:62-83 | a valued option in last position is an unknown option: exit 1 |
| PerfBench.HelpAndUnknown | tests/Benchmark/PerformanceBenchmark.cpp:76-83 | `--help` exits with 0; any unrecognised argument exits with 1 |
| PerfBench.ThreadSeed | tests/Benchmark/PerformanceBenchmark.cpp:109 | the thread seed is a `uint32_t` |
| PerfBench.TimesSeedFactorCancels | tests/Benchmark/PerformanceBenchmark.cpp:109 | multiplying by 12345 modulo 2^32 is undone by its modular inverse |
| PerfBench.ThreadSeedsDistinct | tests/Benchmark/PerformanceBenchmark.cpp:109 | different threads get different seeds; with seed 0, no thread below 2^32 - 1 gets seed 0 |
| PerfBench.ThreadSeedCanWrapToZero | tests/Benchmark/PerformanceBenchmark.cpp:109 | seed 0xFFFFFFFF gives thread 1 the seed 0 |
| PerfBench.Dispatch | tests/Benchmark/PerformanceBenchmark.cpp:148-212 | a multi-threaded README run has the requested thread count, which is more than one; both README runs keep the requested seed; the comparison and profile runs keep the requested car count |
| PerfBench.DispatchCases | tests/Benchmark/PerformanceBenchmark.cpp:148-212 | multi-threaded exactly in README mode with more than one thread; comparison exactly in profile mode with `--compare-configs`; sub-phases unless `--no-subphase` |
| PerfBench.DefaultRun | tests/Benchmark/PerformanceBenchmark.cpp:145-164 | with no arguments, `main` runs the single-threaded README benchmark for 1000000 ticks with seed 0 |
| PhaseProf.Start | tests/Benchmark/ProfilerUtils.h:29-32 | `Start` records the current time and runs |
| PhaseProf.Stop | tests/Benchmark/ProfilerUtils.h:34-39 | `Stop` records the end time when running and otherwise changes nothing |
| PhaseProf.Elapsed | tests/Benchmark/ProfilerUtils.h:41-47 | reading a timer gives what stopping it at that moment would measure: up to now while running, up to the recorded end otherwise |
| PhaseProf.StartStopMeasures | tests/Benchmark/ProfilerUtils.h:29-47 | a start then a stop measure the time between them |
| PhaseProf.StopIdempotent | tests/Benchmark/ProfilerUtils.h:34-39 | a second stop changes nothing |
| PhaseProf.PhaseStartKeepsStats | tests/Benchmark/PhaseProfiler.cpp:34-41 | only a new name gets an empty sample list; existing samples are kept and the phase's timer runs from now |
| PhaseProf.PhaseStart | tests/Benchmark/PhaseProfiler.cpp:34-41 | the started phase is timed from now; timed phases and stats entries are only ever added, and the two maps stay in step |
| PhaseProf.PhaseEndUnknown | tests/Benchmark/PhaseProfiler.cpp:43-51 | ending a phase never started changes nothing |
| PhaseProf.PhaseEnd | tests/Benchmark/PhaseProfiler.cpp:43-51 | an unknown name changes nothing; a known one gets its timer reset and exactly one more sample; the maps stay in step |
| PhaseProf.PhaseEndAppendsOne | tests/Benchmark/PhaseProfiler.cpp:45-50 | ending a known phase appends exactly one sample to it, resets its timer, and leaves the other phases alone |
| PhaseProf.StartThenEndRecordsDuration | tests/Benchmark/PhaseProfiler.cpp:34-51 | a start at `a` then an end at `b` records `b - a` |
| PhaseProf.EndTwiceRecordsZero | tests/Benchmark/PhaseProfiler.cpp:43-51 | a second end without a new start records 0, the elapsed time of a reset timer |
| PhaseProf.ReplayCountsEnds | tests/Benchmark/PhaseProfiler.cpp:66-77 | over any event stream, a phase gains one sample per end event for it, after its earlier samples |
| PhaseProf.Dispatch | tests/Benchmark/PhaseProfiler.cpp:66-77 | one callback keeps the maps in step and loses no phase |
| PhaseProf.Replay | tests/Benchmark/PhaseProfiler.cpp:66-77 | any stream of callbacks keeps the maps in step and loses no phase |
| PhaseProf.ReplayAppend | tests/Benchmark/PhaseProfiler.cpp:66-77 | callbacks delivered in two runs leave the collector as one run of both |
| PhaseProf.FinalTimersPointwise | tests/Benchmark/PhaseProfiler.cpp:15-23 | stopping every timer one by one gives the stopped-timer map |
| PhaseProf.FinalStatsPointwise | tests/Benchmark/PhaseProfiler.cpp:15-23 | a running timer adds its elapsed time to its phase's samples, and the others keep theirs |
| PhaseProf.FinalTimers | tests/Benchmark/PhaseProfiler.cpp:15-23 | after the destructor's first loop no timer runs, and the timed phases are the same |
| PhaseProf.FinalStats | tests/Benchmark/PhaseProfiler.cpp:15-23 | every phase keeps its samples and gains at most one more |
| PhaseProf.FinalizeStopsAll | tests/Benchmark/PhaseProfiler.cpp:13-23 | the destructor leaves no timer running and adds exactly one sample per timer that was running |
| PhaseProf.StoreResultsCounts | tests/Benchmark/PhaseProfiler.cpp:26-31 | one `PhaseTiming` per stats entry, carrying its name, its samples and `sample_count = Count()`; other phases stay |
| PhaseProf.StoreResults | tests/Benchmark/PhaseProfiler.cpp:26-31 | the result holds the old phases plus one entry per stats entry, carrying its samples and `sample_count`; other phases stay |
| PhaseProf.FinalizeNothing | tests/Benchmark/PhaseProfiler.cpp:13-32 | a collector that saw no events leaves the result's phases unchanged |
| PhaseProf.ProfileResult.constructor | tests/Benchmark/PhaseProfiler.h:27-42 | a new result has no phases, 0 ticks simulated and 0 total time |
| PhaseProf.PhaseProfilerCollector.constructor | tests/Benchmark/PhaseProfiler.cpp:10-11 | a new collector targets the given result and has no timers and no stats |
| PhaseProf.PhaseProfilerCollector.OnPhaseStart | tests/Benchmark/PhaseProfiler.cpp:34-41 | the maps become `PhaseStart` of the old ones |
| PhaseProf.PhaseProfilerCollector.OnPhaseEnd | tests/Benchmark/PhaseProfiler.cpp:43-51 | the maps become `PhaseEnd` of the old ones |
| PhaseProf.PhaseProfilerCollector.OnPhase | tests/Benchmark/PhaseProfiler.cpp:66-77 | the arena callback dispatches start events to `OnPhaseStart` and end events to `OnPhaseEnd` |
| PhaseProf.PhaseProfilerCollector.Finalize | tests/Benchmark/PhaseProfiler.cpp:13-32 | the destructor stops every timer, records the running ones, then stores the results; the other result fields are unchanged |
| PhaseProf.PhaseProfilerCollector.StopTimers | tests/Benchmark/PhaseProfiler.cpp:15-23 | the first loop of the destructor computes the final timers and stats |
| PhaseProf.PhaseProfilerCollector.StorePhases | tests/Benchmark/PhaseProfiler.cpp:26-31 | the second loop writes `StoreResults` into the result |
| PhaseProf.PhaseProfilerCollector.OnPhases | tests/Benchmark/PhaseProfiler.cpp:66-77 | the callbacks of one `Step` call, handed over in order, leave the collector in the state `Replay` describes |
| PhaseProf.Interval | tests/Benchmark/PhaseProfiler.cpp:84 | the batch size is at least 1 and at least `num_ticks / 10000`, and exactly that from 20000 ticks on |
| PhaseProf.Batches | tests/Benchmark/PhaseProfiler.cpp:84-102 | every batch holds between 1 and the interval's ticks, and there are no batches exactly when there are no ticks |
| PhaseProf.BatchesFrom | tests/Benchmark/PhaseProfiler.cpp:89-102 | every batch holds between 1 and `interval` ticks |
| PhaseProf.BatchesCover | tests/Benchmark/PhaseProfiler.cpp:89-102 | the batches sum to the remaining ticks; all but the last are full, and their number is the ceiling of ticks over interval |
| PhaseProf.BatchesOfRun | tests/Benchmark/PhaseProfiler.cpp:84-102 | the batches of a run sum to `num_ticks`; each is at most the interval; up to 10000 ticks there is one batch per tick |
| PhaseProf.Int32Cast | tests/Benchmark/PhaseProfiler.cpp:94 | `static_cast<int>` keeps values up to `INT_MAX` and always yields an `int` |
| PhaseProf.TicksStepped | tests/Benchmark/PhaseProfiler.cpp:94 | the ticks stepped never exceed the batches' sum: the `int` cast only loses ticks |
| PhaseProf.TicksSteppedExact | tests/Benchmark/PhaseProfiler.cpp:94 | batches that fit in an `int` step exactly their sum |
| PhaseProf.ExactRun | tests/Benchmark/PhaseProfiler.cpp:84-102 | up to `MAX_EXACT_TICKS` the loop steps exactly `num_ticks` ticks |
| PhaseProf.OversizedBatchRunsNothing | tests/Benchmark/PhaseProfiler.cpp:84-94 | one tick more and the batch size is 2^31, whose `int` cast is negative, so `Step` runs nothing |
| PhaseProf.StepSamples | tests/Benchmark/PhaseProfiler.cpp:97-99 | one per-tick sample per batch |
| PhaseProf.StepSampleAt | tests/Benchmark/PhaseProfiler.cpp:98-99 | sample `k` is batch `k`'s duration over its tick count |
| PhaseProf.NextBatch | tests/Benchmark/PhaseProfiler.cpp:90 | `min(interval, remaining)` is the next batch of the schedule |
| PhaseProf.BatchPrefix | tests/Benchmark/PhaseProfiler.cpp:89-101 | one loop iteration appends one sample and steps one batch |
| PhaseProf.ProgressStep | tests/Benchmark/PhaseProfiler.cpp:89-102 | the loop invariant survives an iteration |
| PhaseProf.ProgressDone | tests/Benchmark/PhaseProfiler.cpp:89-102 | at loop exit the samples and the arena's counter are those of the whole batch schedule |
| PhaseProf.CollectedBy | tests/Benchmark/PhaseProfiler.cpp:63-102 | the collector state the timed batches leave keeps its two maps in step |
| PhaseProf.ReplayNextBatch | tests/Benchmark/PhaseProfiler.cpp:86-102 | feeding one more batch's callbacks extends the replay by that batch |
| PhaseProf.StepBatch | tests/Benchmark/PhaseProfiler.cpp:90-92 | one batch advances the arena by the ticks `Step` runs and feeds that batch's callbacks to the collector |
| PhaseProf.WarmUp | tests/Benchmark/PhaseProfiler.cpp:58-60 | the warm-up advances the arena by 100 ticks and changes nothing else |
| PhaseProf.RunBatches | tests/Benchmark/PhaseProfiler.cpp:86-102 | the loop records `StepSamples` of the schedule, advances the arena by the ticks it stepped, and hands the collector every batch's callbacks in order |
| PhaseProf.TimedSteps | tests/Benchmark/PhaseProfiler.cpp:66-118 | "Total Step" holds the per-tick samples, the total time and `sample_count` equal to the number of batches; the collector has seen every batch's callbacks; the profiler callback is cleared |
| PhaseProf.ProfileStep | tests/Benchmark/PhaseProfiler.cpp:53-119 | `ticks_simulated = num_ticks`; the phases are "Total Step" as above, then one entry per phase the collector saw, with the samples the destructor completes at the end time; the arena advanced by 100 plus the ticks stepped |
| PhaseProf.ProfileRun | tests/Benchmark/PhaseProfiler.cpp:121-155 | the arena gets `num_cars` cars and ends at tick `100 + TicksStepped`, which is `100 + num_ticks` up to the largest exact run; unless a reported phase is named "Total Step", it has the ceiling of ticks over interval samples |
| PhaseProf.IsCarSubPhase | tests/Benchmark/PhaseProfiler.cpp:226 | a car sub-phase name has at least four characters and is never "Total Step" |
| PhaseProf.FilterMembers | tests/Benchmark/PhaseProfiler.cpp:223-231 | the filtered list holds exactly the names the predicate accepts |
| PhaseProf.PartitionPhases | tests/Benchmark/PhaseProfiler.cpp:219-231 | the loop splits the phases, in map order, into top-level phases and car sub-phases |
| PhaseProf.PartitionExact | tests/Benchmark/PhaseProfiler.cpp:223-231 | apart from "Total Step", a phase is a sub-phase exactly when its name begins with "Car.", and a top-level phase otherwise |
| PhaseProf.PartitionSizes | tests/Benchmark/PhaseProfiler.cpp:223-231 | the two lists together hold every phase except "Total Step" |

## Left out

- The `RLViserSocket` class and `get_socket`: UDP socket I/O and platform-specific calls.
- `GameState::from_arena`: it copies out of engine classes whose sources are not part of this model.
- RLViserRecords.CarInfoRoundTrip: the team travels as a byte. Only the named teams, 0 and 1, are meaningful, and the model keeps the byte itself.
- ArenaModel.Arena.RemoveCarRef: in the source a removed car is freed and the caller's pointer becomes invalid (`Arena.h:102`). The same holds for `RemoveCar`. An arena whose `ownsCars` is set (`Arena.h:61`) also deletes its remaining cars when it is destroyed. The model drops the car from both collections, but the `Car` object lives on: car lifetimes, ownership and the invalidated pointer are not modelled.
- ArenaModel.Arena.AddCar: requires `_lastCarID < 0xFFFFFFFF`, so the 32-bit wrap of the id counter is not modelled. `Arena.cpp` is not part of this model.
- ArenaModel.Arena.Step: the physics is not modelled. A tick only clears the contact tracker and advances `tickCount`. The profiler callback is stored but never invoked by `Step` itself; the callbacks a timed batch makes are a parameter of `ProfileStep` instead.
- ArenaModel.Arena.SetGoalScoreCallback: the failure in `THE_VOID` is a `false` result, not an exception, because `Arena.cpp`'s error path is not part of this model. The same holds for `SetBoostPickupCallback`.
- ArenaModel.Arena.SetBoostPickupCallback: `THE_VOID_WITH_GROUND` is "like THE_VOID" (`GameMode.h:18`), yet both setters accept callbacks there, because the rule names `THE_VOID` alone.
- RLViserBytes.ByteReader.ReadU32: assembles the value as a weighted sum of the bytes, where `read_u32` ors shifted bytes. `OrLanes` proves the two agree; converting between `int` and a 32-bit vector inside the method is beyond what the solver proves cheaply.
- RLViserBytes.ByteReader.ReadU64: the same weighted sum, with `OrLanes64` for the 64-bit or.
- StressBench.Unit: the float rounding of the division is not modelled. In `float`, every numerator from 0x7FFFFFC0 on gives 1.0f, so the "only if" half holds for the exact quotient only.
- RsMath.MinstdSeedState: `default_random_engine` is taken to be libstdc++'s `minstd_rand0` (multiplier 16807, modulus 2^31 - 1). Other standard libraries choose other engines, and `RsMath.RandInt` inherits the choice.
- `ContactTracker::Reserve`: a capacity hint with no observable effect.
- `MutatorConfig` keeps only a few of its fields, because the arena only stores and returns it.
- The physics engine (Bullet world, car and ball dynamics, boost pads, kickoff, `GetTickRate`): `Arena.cpp` and the engine sources are not part of this model.
- RsMath.WrapNormalizeFloat: requires `minmax > 0`. The C++ `fmod` by zero or a negative period is not modelled.
- RsMath.RoundVec: requires `precision > 0`. Division by zero is not modelled, and neither is a negative precision, which the source accepts and which flips the rounding direction.
- RsMath.RoundAngleUE3: requires roll 0, which the source asserts, and requires that the angles fit in an `int` after scaling. Float rounding of `TO_INTS` is not modelled.
- RsMath.RandInt: requires `min < max`. With `max <= min` the source divides by zero or by a negative number. It also requires `max - min < 2^31`: a wider range overflows the signed `int` subtraction, which is undefined behaviour in C++.
- `Math::RandFloat` and the clock-based seed of `GetRandEngine`: the shared engine is a parameter.
- `Statistics::Mean` and `StdDev`, `Timer::GetElapsed*` in micro- and nanoseconds, `FormatTime`, `FormatTimePerTick`, `GetSystemInfo` and all printing (`PrintProfileResults` output, `PrintComparison`): float accumulation, clocks, OS queries and console output.
- PerfBench.StoUL: white space is the six characters `isspace` accepts in the "C" locale; other locales are not modelled. `stoull` for `--ticks` is the same function on a 64-bit `unsigned long`.
- PerfBench.StoULNoDigit: covers only a first character that is neither white space, a sign nor a digit. White space or a sign followed by no digit also throws, as `StoUL`'s own contract states.
- ReadmeBench.GenerateSequence: requires `num_ticks + 60 < 2^64`, so the 64-bit wrap of `current_tick` is excluded.
- ReadmeBench.RunBenchmark: `mt19937`, its distributions and `random_device` become parameter functions (the drawn intervals and controls). `GenerateRandomControls` is not modelled beyond those draws. The collision-mesh path checks and `RocketSim::Init` are left out.
- `StressBenchmark::CalcBotControls` and the stress `RunBenchmark`: float steering heuristics over a live arena.
- `RunMultiThreadedREADME`: the threads, the join and the aggregated timing are left out. Only the per-thread seed rule is modelled.
- PhaseProf.ProfileRun: requires `num_cars < 0xFFFFFFFF` (see AddCar). Beyond the largest exact run it states the tick count through `TicksStepped`, not as `100 + num_ticks`. `CompareConfigurations` is not modelled: its four runs differ only in arena settings that the modelled `Step` ignores. The configuration-name fields of `ProfileResult` are left out for the same reason. `enable_subphase` is passed through `ProfileStep` to the arena's `SetProfilerCallback` while the batches run. Which phases the callbacks then report is the `events` parameter, so no contract depends on the flag.
- PhaseProf.FinalStats: all timers still running at destruction are stopped at one time `now`, where the destructor reads the clock once per running timer, so each timer's last sample may end slightly later than the one before.
- ProfilerStats.Statistics.Percentile: requires `PercentileDefined`, the rank `ceil(p * n / 100)` between 0 and `SIZE_MAX`. A negative or oversized percentile makes the source's `size_t` cast of the float undefined, so it is not modelled.
- PhaseProf.ProfileStep: `ticks_per_second`, `game_time_per_real_second_minutes` and `tick_rate` are float outputs of clock readings and are left out. The total and per-batch durations, the destructor's clock reading and each batch's phase callbacks are parameters. No callbacks reach the collector during the warm-up, because it is created after the warm-up.
- `std::map` iteration order: `PartitionPhases` takes the phase names as a sequence in that order.
- `ScopedTimer`: a timing helper outside the modelled operations.

## Findings

| source | as written | input that shows it | evidently intended | confidence | as-written member | corrected member |
|---|---|---|---|---|---|---|
| src/Sim/Arena/Arena.h:101-105 | `RemoveCar(Car*)` removes whatever car has `car->id` | a car from another arena whose id equals the id of a car in this arena: `RemoveCar(thatCar)` returns true and deletes this arena's own car | "returns false if the car was not found in the cars list": remove only if this very car is registered | not executed | ArenaModel.ForeignCarRemoval | ArenaModel.ForeignCarRejected |
| tests/Benchmark/ProfilerUtils.h:150-151 | the index is `size_t(ceil(p*n/100)) - 1`, clamped to `n - 1` | `Percentile(0.0)` on any non-empty samples: the rank 0 wraps to `SIZE_MAX` and the clamp returns the largest sample | the 0th percentile is the smallest sample | not executed | ProfilerStats.PercentileZeroReadsMax | ProfilerStats.Statistics.PercentileGuarded |

=== FILE: arena.dfy ===
/**
 * Bookkeeping of the simulation container `Arena`: the registry of cars keyed by
 * id, the never-resetting tick counter, the contact tracker that is cleared on
 * every tick, the event-callback slots and the mutator configuration.
 *
 * The physics world behind `Step` is not part of this model: a tick here only
 * clears the contact tracker and advances `tickCount`.
 */
module ArenaModel {
  import opened Wrappers
  import opened RLViserBytes
  import opened RLViserRecords
  import opened GameModes

  /** `tickCount` is a `uint64_t`: arithmetic on it wraps modulo 2^64. */
  const TICK_MODULUS: int := 0x1_0000_0000_0000_0000

  /** A reference to a callback function or a user-info pointer; NULL is `None`. */
  type Handle = nat

  /** A callback slot: the stored function and the user pointer handed back to it. */
  datatype CallbackSlot = CallbackSlot(func: Option<Handle>, userInfo: Option<Handle>)

  /** Both members of a fresh slot are NULL. */
  const NO_CALLBACK: CallbackSlot := CallbackSlot(None, None)

  /** The profiler slot also remembers whether sub-phases are reported. */
  datatype ProfilerSlot = ProfilerSlot(func: Option<Handle>, userInfo: Option<Handle>, enableSubphase: bool)

  /** The mutator settings the arena hands to the physics (the fields the model keeps). */
  datatype MutatorConfig = MutatorConfig(gravity: Vec, carMass: F32, ballMass: F32, ballRadius: F32)

  /** One deferred collision, as recorded during a physics step. */
  datatype CollisionRecord = CollisionRecord(
    userIndexA: int, userIndexB: int,
    userPointerA: Option<Handle>, userPointerB: Option<Handle>,
    localPointA: Vec, localPointB: Vec, normalWorldOnB: Vec,
    combinedFriction: F32, combinedRestitution: F32,
    shouldSwap: bool)

  /** Collects collision records during a physics step for processing afterwards. */
  class ContactTracker {
    var records: seq<CollisionRecord>

    constructor ()
      ensures records == []
    {
      records := [];
    }

    method Clear()
      modifies this
      ensures records == []
    {
      records := [];
    }
  }

  /** A car as far as the registry sees it: its id (assigned on insertion), team and configuration. */
  class Car {
    var id: u32
    const team: Team
    const config: CarConfig

    constructor (team: Team, config: CarConfig)
      ensures id == 0 && this.team == team && this.config == config
    {
      id := 0;
      this.team := team;
      this.config := config;
    }
  }

  /** The number of ticks a `Step(n)` call runs: its loop does nothing for n <= 0. */
  function TicksRun(ticksToSimulate: int): (r: nat)
    ensures ticksToSimulate <= 0 ==> r == 0
    ensures ticksToSimulate > 0 ==> r == ticksToSimulate
  {
    if ticksToSimulate <= 0 then 0 else ticksToSimulate
  }

  /** The tick count after `ticks` more ticks, with `uint64_t` wrap-around. */
  function TickAfter(tickCount: u64, ticks: nat): (r: u64)
    ensures tickCount + ticks < TICK_MODULUS ==> r == tickCount + ticks
  {
    (tickCount + ticks) % TICK_MODULUS
  }

  /** Past 2^64 the counter wraps: it differs from the true count by a multiple of 2^64. */
  lemma TickAfterWraps(tickCount: u64, ticks: nat)
    ensures (TickAfter(tickCount, ticks) - tickCount - ticks) % TICK_MODULUS == 0
  {
  }

  /** Two consecutive steps advance the counter as one step of their combined length. */
  lemma TickAfterCompose(t: u64, a: nat, b: nat)
    ensures TickAfter(TickAfter(t, a), b) == TickAfter(t, a + b)
  {
    var m := (t + a) / TICK_MODULUS;
    assert t + a == m * TICK_MODULUS + TickAfter(t, a);
    assert t + a + b == m * TICK_MODULUS + (TickAfter(t, a) + b);
  }

  /** Without wrap-around the counter never decreases, and it grows by exactly the ticks run. */
  lemma TickAfterMonotone(t: u64, a: nat, b: nat)
    requires a <= b && t + b < TICK_MODULUS
    ensures t <= TickAfter(t, a) <= TickAfter(t, b)
    ensures TickAfter(t, b) - TickAfter(t, a) == b - a
  {
  }

  /** Every field of the arena that the registry, counter and callback model track. */
  datatype ArenaState = ArenaState(
    gameMode: GameMode,
    lastCarID: u32,
    cars: set<Car>,
    carIDMap: map<u32, Car>,
    tickCount: u64,
    mutatorConfig: MutatorConfig,
    goalScoreCallback: CallbackSlot,
    carBumpCallback: CallbackSlot,
    boostPickupCallback: CallbackSlot,
    ballTouchCallback: CallbackSlot,
    profilerCallback: ProfilerSlot)

  class Arena {
    var gameMode: GameMode
    /** The last id handed out; ids are assigned by pre-incrementing it. */
    var lastCarID: u32
    var cars: set<Car>
    var carIDMap: map<u32, Car>
    var mutatorConfig: MutatorConfig
    /** Ticks simulated by this instance; never reset. */
    var tickCount: u64
    const contactTracker: ContactTracker
    var goalScoreCallback: CallbackSlot
    var carBumpCallback: CallbackSlot
    var boostPickupCallback: CallbackSlot
    var ballTouchCallback: CallbackSlot
    var profilerCallback: ProfilerSlot

    /** The registry invariant: `cars` and `carIDMap` describe the same cars, each under
        its own id, and every id was handed out by the `lastCarID` counter. */
    ghost predicate Valid()
      reads this, cars
    {
      (forall c :: c in cars ==> c.id in carIDMap && carIDMap[c.id] == c) &&
      (forall id :: id in carIDMap ==> carIDMap[id] in cars && carIDMap[id].id == id) &&
      (forall c :: c in cars ==> 0 < c.id <= lastCarID)
    }

    ghost function State(): ArenaState
      reads this
    {
      ArenaState(gameMode, lastCarID, cars, carIDMap, tickCount, mutatorConfig,
                 goalScoreCallback, carBumpCallback, boostPickupCallback, ballTouchCallback,
                 profilerCallback)
    }

    /** `Arena::Create`: no cars, counters at 0, every callback slot NULL. */
    constructor (gameMode: GameMode, mutatorConfig: MutatorConfig)
      ensures Valid()
      ensures State() == ArenaState(gameMode, 0, {}, map[], 0, mutatorConfig,
                                    NO_CALLBACK, NO_CALLBACK, NO_CALLBACK, NO_CALLBACK,
                                    ProfilerSlot(None, None, true))
      ensures fresh(contactTracker) && contactTracker.records == []
    {
      this.gameMode := gameMode;
      lastCarID := 0;
      cars := {};
      carIDMap := map[];
      this.mutatorConfig := mutatorConfig;
      tickCount := 0;
      contactTracker := new ContactTracker();
      goalScoreCallback := NO_CALLBACK;
      carBumpCallback := NO_CALLBACK;
      boostPickupCallback := NO_CALLBACK;
      ballTouchCallback := NO_CALLBACK;
      profilerCallback := ProfilerSlot(None, None, true);
    }

    /** The car registered under `id`, or null. */
    function GetCar(id: u32): (r: Car?)
      requires Valid()
      reads this, cars
      ensures r != null ==> r in cars && r.id == id
      ensures r == null <==> forall c :: c in cars ==> c.id != id
    {
      if id in carIDMap then carIDMap[id] else null
    }

    /** The configuration last stored by the constructor or `SetMutatorConfig`. */
    function GetMutatorConfig(): (r: MutatorConfig)
      reads this
      ensures r == State().mutatorConfig
    {
      mutatorConfig
    }

    /** Replaces the mutator configuration wholesale. */
    method SetMutatorConfig(config: MutatorConfig)
      modifies this
      ensures GetMutatorConfig() == config
      ensures State() == old(State()).(mutatorConfig := config)
    {
      mutatorConfig := config;
    }

    /** Registers `car` under its current id; false, and no change, if it is already registered. */
    method AddCarFromPtr(car: Car) returns (added: bool)
      modifies this
      ensures added == (car !in old(cars))
      ensures added ==> State() == old(State()).(cars := old(cars) + {car},
                                                 carIDMap := old(carIDMap)[car.id := car])
      ensures !added ==> State() == old(State())
      ensures old(Valid()) && (car in old(cars) || (car.id !in old(carIDMap) && 0 < car.id <= lastCarID))
              ==> Valid()
    {
      if car in cars {
        added := false;
      } else {
        cars := cars + {car};
        carIDMap := carIDMap[car.id := car];
        added := true;
      }
    }

    /** Creates a car, gives it the next id (`++_lastCarID`) and registers it. */
    method AddCar(team: Team, config: CarConfig) returns (car: Car)
      requires Valid()
      requires lastCarID < 0xFFFF_FFFF
      modifies this
      ensures Valid()
      ensures fresh(car) && car.team == team && car.config == config
      ensures car.id == old(lastCarID) + 1 && car.id !in old(carIDMap)
      ensures forall c :: c in old(cars) ==> c.id != car.id
      ensures State() == old(State()).(lastCarID := car.id,
                                       cars := old(cars) + {car},
                                       carIDMap := old(carIDMap)[car.id := car])
      ensures |cars| == |old(cars)| + 1
      ensures GetCar(car.id) == car
    {
      car := new Car(team, config);
      assert lastCarID + 1 !in carIDMap;
      lastCarID := lastCarID + 1;
      car.id := lastCarID;
      var added := AddCarFromPtr(car);
      assert cars == old(cars) + {car} && car !in old(cars);
    }

    /** Unregisters the car with this id; false, and no change, if there is none. */
    method RemoveCar(id: u32) returns (removed: bool)
      requires Valid()
      modifies this
      ensures Valid()
      ensures removed == (id in old(carIDMap))
      ensures removed ==> State() == old(State()).(cars := old(cars) - {old(carIDMap)[id]},
                                                   carIDMap := old(carIDMap) - {id})
      ensures removed ==> |cars| == |old(cars)| - 1
      ensures !removed ==> State() == old(State())
      ensures GetCar(id) == null
    {
      if id in carIDMap {
        var car := carIDMap[id];
        cars := cars - {car};
        carIDMap := carIDMap - {id};
        removed := true;
      } else {
        removed := false;
      }
    }

    /** `RemoveCar(Car*)` as written: removal by the car's own id, whichever car holds it. */
    method RemoveCarRef(car: Car) returns (removed: bool)
      requires Valid()
      modifies this
      ensures Valid()
      ensures removed == (car.id in old(carIDMap))
      ensures removed ==> State() == old(State()).(cars := old(cars) - {old(carIDMap)[car.id]},
                                                   carIDMap := old(carIDMap) - {car.id})
      ensures !removed ==> State() == old(State())
    {
      removed := RemoveCar(car.id);
    }

    /** `RemoveCar(Car*)` as its comment describes it: false, and no change, unless this
        very car is registered. */
    method RemoveCarChecked(car: Car) returns (removed: bool)
      requires Valid()
      modifies this
      ensures Valid()
      ensures removed == (car in old(cars))
      ensures State() == old(State()).(cars := old(cars) - {car},
                                       carIDMap := if removed then old(carIDMap) - {car.id}
                                                   else old(carIDMap))
    {
      if car in cars {
        removed := RemoveCar(car.id);
      } else {
        removed := false;
      }
    }

    /** Runs `ticksToSimulate` ticks; each one clears the contact tracker and advances the counter. */
    method Step(ticksToSimulate: int)
      modifies this, contactTracker
      ensures tickCount == TickAfter(old(tickCount), TicksRun(ticksToSimulate))
      ensures State() == old(State()).(tickCount := tickCount)
      ensures ticksToSimulate > 0 ==> contactTracker.records == []
      ensures ticksToSimulate <= 0 ==> contactTracker.records == old(contactTracker.records)
    {
      var i := 0;
      while i < ticksToSimulate
        invariant 0 <= i <= TicksRun(ticksToSimulate)
        invariant tickCount == TickAfter(old(tickCount), i)
        invariant State() == old(State()).(tickCount := tickCount)
        invariant i > 0 ==> contactTracker.records == []
        invariant i == 0 ==> contactTracker.records == old(contactTracker.records)
      {
        contactTracker.Clear();
        TickAfterCompose(old(tickCount), i, 1);
        tickCount := TickAfter(tickCount, 1);
        i := i + 1;
      }
    }

    /** Goal events do not exist on THE_VOID, so registering one there is refused; the
        previously registered pair is handed back. */
    method SetGoalScoreCallback(callbackFn: Option<Handle>, userInfo: Option<Handle>)
      returns (ok: bool, prev: CallbackSlot)
      modifies this
      ensures ok == (gameMode != THE_VOID)
      ensures prev == old(goalScoreCallback)
      ensures ok ==> State() == old(State()).(goalScoreCallback := CallbackSlot(callbackFn, userInfo))
      ensures !ok ==> State() == old(State())
    {
      prev := goalScoreCallback;
      if gameMode == THE_VOID {
        ok := false;
      } else {
        goalScoreCallback := CallbackSlot(callbackFn, userInfo);
        ok := true;
      }
    }

    /** Replaces the bump callback and hands back the previously registered pair. */
    method SetCarBumpCallback(callbackFn: Option<Handle>, userInfo: Option<Handle>) returns (prev: CallbackSlot)
      modifies this
      ensures prev == old(carBumpCallback)
      ensures State() == old(State()).(carBumpCallback := CallbackSlot(callbackFn, userInfo))
    {
      prev := carBumpCallback;
      carBumpCallback := CallbackSlot(callbackFn, userInfo);
    }

    /** Boost pads do not exist on THE_VOID, so registering a pickup callback there is refused;
        the previously registered pair is handed back. */
    method SetBoostPickupCallback(callbackFn: Option<Handle>, userInfo: Option<Handle>)
      returns (ok: bool, prev: CallbackSlot)
      modifies this
      ensures ok == (gameMode != THE_VOID)
      ensures prev == old(boostPickupCallback)
      ensures ok ==> State() == old(State()).(boostPickupCallback := CallbackSlot(callbackFn, userInfo))
      ensures !ok ==> State() == old(State())
    {
      prev := boostPickupCallback;
      if gameMode == THE_VOID {
        ok := false;
      } else {
        boostPickupCallback := CallbackSlot(callbackFn, userInfo);
        ok := true;
      }
    }

    method SetBallTouchCallback(callbackFn: Option<Handle>, userInfo: Option<Handle>)
      modifies this
      ensures State() == old(State()).(ballTouchCallback := CallbackSlot(callbackFn, userInfo))
    {
      ballTouchCallback := CallbackSlot(callbackFn, userInfo);
    }

    method SetProfilerCallback(callbackFn: Option<Handle>, userInfo: Option<Handle>, enableSubphase: bool)
      modifies this
      ensures State() == old(State()).(profilerCallback := ProfilerSlot(callbackFn, userInfo, enableSubphase))
    {
      profilerCallback := ProfilerSlot(callbackFn, userInfo, enableSubphase);
    }
  }

  /** A fresh arena numbers its first two cars 1 and 2, and finds each under its id. */
  method FirstCarIds(gameMode: GameMode, mutatorConfig: MutatorConfig, config: CarConfig)
    returns (id1: u32, id2: u32, sameFirst: bool, sameSecond: bool)
    ensures id1 == 1 && id2 == 2
    ensures sameFirst && sameSecond
  {
    var arena := new Arena(gameMode, mutatorConfig);
    var car1 := arena.AddCar(BLUE, config);
    var car2 := arena.AddCar(ORANGE, config);
    id1, id2 := car1.id, car2.id;
    sameFirst := arena.GetCar(id1) == car1;
    sameSecond := arena.GetCar(id2) == car2;
  }

  /** Adding then removing a car leaves no car, and its id no longer resolves. */
  method AddThenRemove(gameMode: GameMode, mutatorConfig: MutatorConfig, config: CarConfig)
    returns (removed: bool, count: nat, found: bool, removedAgain: bool)
    ensures removed && count == 0 && !found && !removedAgain
  {
    var arena := new Arena(gameMode, mutatorConfig);
    var car := arena.AddCar(BLUE, config);
    var id := car.id;
    removed := arena.RemoveCar(id);
    count := |arena.cars|;
    found := arena.GetCar(id) != null;
    removedAgain := arena.RemoveCar(id);
  }

  /** A car of another arena that shares an id with one of ours: removing it by
      reference succeeds and takes our car out, although it was never in this arena. */
  method ForeignCarRemoval(gameMode: GameMode, mutatorConfig: MutatorConfig, config: CarConfig)
    returns (removed: bool, ownCarLeft: bool)
    ensures removed && !ownCarLeft
  {
    var home := new Arena(gameMode, mutatorConfig);
    var other := new Arena(gameMode, mutatorConfig);
    var own := home.AddCar(BLUE, config);
    var foreign := other.AddCar(BLUE, config);
    assert foreign.id == own.id && foreign !in home.cars;
    removed := home.RemoveCarRef(foreign);
    ownCarLeft := own in home.cars;
  }

  /** The same foreign car given to the checked removal: nothing is removed. */
  method ForeignCarRejected(gameMode: GameMode, mutatorConfig: MutatorConfig, config: CarConfig)
    returns (removed: bool, ownCarLeft: bool)
    ensures !removed && ownCarLeft
  {
    var home := new Arena(gameMode, mutatorConfig);
    var other := new Arena(gameMode, mutatorConfig);
    var own := home.AddCar(BLUE, config);
    var foreign := other.AddCar(BLUE, config);
    assert foreign != own;
    removed := home.RemoveCarChecked(foreign);
    ownCarLeft := own in home.cars;
  }

  /** A fresh arena's counter equals the number of ticks stepped, however the steps are split. */
  method StepTwice(gameMode: GameMode, mutatorConfig: MutatorConfig, a: nat, b: nat)
    returns (ticks: u64)
    requires a + b < TICK_MODULUS
    ensures ticks == a + b
  {
    var arena := new Arena(gameMode, mutatorConfig);
    arena.Step(a);
    arena.Step(b);
    TickAfterCompose(0, a, b);
    ticks := arena.tickCount;
  }
}

=== FILE: game_mode.dfy ===
/** The simulator's game modes: `enum class GameMode : byte`, whose seven
    named values are 0..6, and the table of their display names. */
module GameModes {

  /// A game mode is stored as a byte; a cast from any byte is a GameMode,
  /// named or not.
  newtype GameMode = x: int | 0 <= x < 0x100

  const SOCCAR: GameMode := 0
  const HOOPS: GameMode := 1
  const HEATSEEKER: GameMode := 2
  const SNOWDAY: GameMode := 3
  const DROPSHOT: GameMode := 4
  /// Soccar without goals, boost pads or arena hull.
  const THE_VOID: GameMode := 5
  /// THE_VOID with a ground plane.
  const THE_VOID_WITH_GROUND: GameMode := 6

  /// One of the enumerators.
  predicate IsNamed(m: GameMode) {
    m <= THE_VOID_WITH_GROUND
  }

  /// GAMEMODE_STRS, indexed by the enumerator's value.
  const GAMEMODE_STRS: seq<string> :=
    ["soccar", "hoops", "heatseeker", "snowday", "dropshot", "void", "void_with_ground"]

  /// The display name of a named mode; the table has no entry for other bytes.
  function Name(m: GameMode): (r: string)
    requires IsNamed(m)
    ensures r in GAMEMODE_STRS && r != []
  {
    GAMEMODE_STRS[m as int]
  }

  /// The table has one entry per enumerator, and no two modes share a name,
  /// so a name identifies its mode.
  lemma NameInjective(a: GameMode, b: GameMode)
    requires IsNamed(a) && IsNamed(b)
    ensures Name(a) == Name(b) <==> a == b
  {
  }
}

=== FILE: math.dfy ===
/**
 * The numeric helpers: a piecewise-linear curve of at most eight points, angle
 * wrapping, the seeded integer draw, vector rounding and UE3 rotator rounding.
 *
 * Floats are modelled as reals: the properties are about ordering, ranges and
 * clamping, and rounding error is outside the model.
 */
module RsMath {

  // ---------------------------------------------------------------- shared

  type Int32 = x: int | -0x8000_0000 <= x < 0x8000_0000


  /** Conversion of a value to `unsigned long` (64-bit): wrap modulo 2^64. */
  function ToU64(x: int): (r: nat)
    ensures r < 0x1_0000_0000_0000_0000
    ensures 0 <= x < 0x1_0000_0000_0000_0000 ==> r == x
    ensures x < 0 && -0x1_0000_0000_0000_0000 <= x ==> r == x + 0x1_0000_0000_0000_0000
  {
    x % 0x1_0000_0000_0000_0000
  }

  /** Conversion of a value to `int` (32-bit, two's complement): wrap modulo 2^32. */
  function ToI32(x: int): (r: Int32)
    ensures (x - r) % 0x1_0000_0000 == 0
    ensures -0x8000_0000 <= x < 0x8000_0000 ==> r == x
  {
    var w := x % 0x1_0000_0000;
    if w >= 0x8000_0000 then w - 0x1_0000_0000 else w
  }

  /** C's conversion of a real to an integer: truncation toward zero. */
  function Trunc(x: real): (r: int)
    ensures 0.0 <= x ==> 0 <= r && r as real <= x < r as real + 1.0
    ensures x < 0.0 ==> r <= 0 && r as real - 1.0 < x <= r as real
  {
    if x >= 0.0 then x.Floor else -((-x).Floor)
  }

  /** `roundf`: to the nearest integer, halves away from zero. */
  function RoundHalfAway(x: real): (r: int)
    ensures x - 0.5 <= r as real <= x + 0.5
    ensures 0.0 <= x ==> 0 <= r
    ensures x <= 0.0 ==> r <= 0
    ensures 0.0 <= x ==> x - 0.5 < r as real
    ensures x <= 0.0 ==> r as real < x + 0.5
  {
    if x >= 0.0 then (x + 0.5).Floor else -((-x + 0.5).Floor)
  }

  lemma RoundHalfAwayInt(n: int)
    ensures RoundHalfAway(n as real) == n
  {
  }

  predicate IsWhole(x: real)
  {
    x.Floor as real == x
  }

  // ----------------------------------------------------- LinearPieceCurve

  datatype Point = Point(input: real, output: real)

  const MAX_POINTS: nat := 8

  /** The value-initialised point every unused slot holds. */
  const ZERO_POINT: Point := Point(0.0, 0.0)

  function Min(a: int, b: int): int
  {
    if a <= b then a else b
  }

  function ToPoints(init: seq<(real, real)>): (r: seq<Point>)
    ensures |r| == |init|
    ensures forall i :: 0 <= i < |init| ==> r[i] == Point(init[i].0, init[i].1)
  {
    if init == [] then [] else ToPoints(init[..|init| - 1]) + [Point(init[|init| - 1].0, init[|init| - 1].1)]
  }

  /** The points an initializer list leaves in a curve: the first eight pairs, in order. */
  function StoredPoints(init: seq<(real, real)>): (r: seq<Point>)
    ensures |r| == Min(|init|, MAX_POINTS) <= MAX_POINTS
    ensures forall i :: 0 <= i < |r| ==> r[i] == Point(init[i].0, init[i].1)
  {
    ToPoints(init[..Min(|init|, MAX_POINTS)])
  }

  /** Pairs after the eighth change nothing. */
  lemma StoredPointsDropsExtra(init: seq<(real, real)>, extra: seq<(real, real)>)
    requires |init| >= MAX_POINTS
    ensures StoredPoints(init + extra) == StoredPoints(init)
  {
    assert (init + extra)[..MAX_POINTS] == init[..MAX_POINTS];
  }

  /** Linear interpolation between two neighbouring points; a segment that does not
      advance in input yields the earlier point's output. */
  function Interpolate(before: Point, after: Point, input: real): (r: real)
    ensures after.input <= before.input ==> r == before.output
    ensures input == before.input ==> r == before.output
    ensures before.input < after.input && input == after.input ==> r == after.output
  {
    var dx := after.input - before.input;
    if dx <= 0.0 then before.output
    else before.output + (after.output - before.output) * ((input - before.input) / dx)
  }

  /** The smallest output among the points. */
  function MinOutput(pts: seq<Point>): real
    requires |pts| > 0
  {
    if |pts| == 1 then pts[0].output
    else
      var m := MinOutput(pts[..|pts| - 1]);
      if m <= pts[|pts| - 1].output then m else pts[|pts| - 1].output
  }

  /** The largest output among the points. */
  function MaxOutput(pts: seq<Point>): real
    requires |pts| > 0
  {
    if |pts| == 1 then pts[0].output
    else
      var m := MaxOutput(pts[..|pts| - 1]);
      if m >= pts[|pts| - 1].output then m else pts[|pts| - 1].output
  }

  /** Every point's output lies between the smallest and the largest. */
  lemma {:induction false} OutputWithin(pts: seq<Point>, k: nat)
    requires k < |pts|
    ensures MinOutput(pts) <= pts[k].output <= MaxOutput(pts)
  {
    if |pts| > 1 && k < |pts| - 1 {
      OutputWithin(pts[..|pts| - 1], k);
    }
  }

  /** The search from index `i` on: the first later point whose input exceeds `input`
      decides the segment; without one, the last output applies. Once the search is past
      the input's lower neighbour, the value never leaves the range of the outputs. */
  function SearchFrom(pts: seq<Point>, input: real, i: nat): (r: real)
    requires 1 <= i <= |pts|
    ensures pts[i - 1].input <= input ==> MinOutput(pts) <= r <= MaxOutput(pts)
    decreases |pts| - i
  {
    if i == |pts| then
      OutputWithin(pts, |pts| - 1);
      pts[|pts| - 1].output
    else if pts[i].input > input then
      OutputWithin(pts, i - 1);
      OutputWithin(pts, i);
      var v := Interpolate(pts[i - 1], pts[i], input);
      if pts[i - 1].input <= input then
        InterpolateBetween(pts[i - 1], pts[i], input);
        v
      else v
    else SearchFrom(pts, input, i + 1)
  }

  /** The curve's value at `input`, `defaultOutput` when it has no points. The curve
      never extrapolates: its value lies between the smallest and largest outputs. */
  function CurveOutput(pts: seq<Point>, input: real, defaultOutput: real): (r: real)
    ensures |pts| == 0 ==> r == defaultOutput
    ensures |pts| > 0 ==> MinOutput(pts) <= r <= MaxOutput(pts)
    ensures |pts| > 0 && input <= pts[0].input ==> r == pts[0].output
  {
    if |pts| == 0 then defaultOutput
    else if input <= pts[0].input then
      OutputWithin(pts, 0);
      pts[0].output
    else SearchFrom(pts, input, 1)
  }

  /** `i` is the first index after 0 whose point lies beyond `input`. */
  predicate FirstBeyond(pts: seq<Point>, input: real, i: int)
  {
    1 <= i < |pts| && pts[i].input > input &&
    forall k :: 1 <= k < i ==> pts[k].input <= input
  }

  lemma {:induction false} SearchFromSegment(pts: seq<Point>, input: real, i: nat, j: nat)
    requires 1 <= j <= i && FirstBeyond(pts, input, i)
    ensures SearchFrom(pts, input, j) == Interpolate(pts[i - 1], pts[i], input)
    decreases i - j
  {
    if j < i {
      SearchFromSegment(pts, input, i, j + 1);
    }
  }

  lemma {:induction false} SearchFromBeyondLast(pts: seq<Point>, input: real, j: nat)
    requires 1 <= j <= |pts|
    requires forall k :: 0 <= k < |pts| ==> pts[k].input <= input
    ensures SearchFrom(pts, input, j) == pts[|pts| - 1].output
    decreases |pts| - j
  {
    if j < |pts| {
      SearchFromBeyondLast(pts, input, j + 1);
    }
  }

  /** Past the first point, the output is the interpolation on the first segment whose
      end lies beyond the input. */
  lemma CurveInSegment(pts: seq<Point>, input: real, defaultOutput: real, i: nat)
    requires |pts| > 0 && input > pts[0].input && FirstBeyond(pts, input, i)
    ensures CurveOutput(pts, input, defaultOutput) == Interpolate(pts[i - 1], pts[i], input)
  {
    SearchFromSegment(pts, input, i, 1);
  }

  /** An input that no point exceeds (and that is past the first point) gives the last output. */
  lemma CurveBeyondLast(pts: seq<Point>, input: real, defaultOutput: real)
    requires |pts| > 0 && input > pts[0].input
    requires forall k :: 0 <= k < |pts| ==> pts[k].input <= input
    ensures CurveOutput(pts, input, defaultOutput) == pts[|pts| - 1].output
  {
    SearchFromBeyondLast(pts, input, 1);
  }

  /** Inside a proper segment the interpolation weight lies in [0, 1), so the output lies
      between the two end outputs. */
  lemma InterpolateBetween(before: Point, after: Point, input: real)
    requires before.input <= input < after.input
    ensures var t := (input - before.input) / (after.input - before.input);
            0.0 <= t < 1.0 &&
            Interpolate(before, after, input) == before.output + (after.output - before.output) * t
    ensures before.output <= after.output ==>
              before.output <= Interpolate(before, after, input) <= after.output
    ensures after.output <= before.output ==>
              after.output <= Interpolate(before, after, input) <= before.output
  {
    var dx := after.input - before.input;
    var t := (input - before.input) / dx;
    FractionBelowOne(input - before.input, dx);
    ScaleByFraction(after.output - before.output, t);
  }

  lemma FractionBelowOne(a: real, b: real)
    requires 0.0 <= a < b
    ensures 0.0 <= a / b < 1.0
  {
    DivMul(a, b);
    FactorBounds(a / b, a, b);
  }

  /** A factor `t` with `t * b == a` for `0 <= a < b` lies in [0, 1). */
  lemma FactorBounds(t: real, a: real, b: real)
    requires b > 0.0 && t * b == a && 0.0 <= a < b
    ensures 0.0 <= t < 1.0
  {
  }

  lemma MulNonNeg(x: real, y: real)
    requires x >= 0.0 && y >= 0.0
    ensures x * y >= 0.0
  {
  }

  lemma ScaleByFraction(d: real, t: real)
    requires 0.0 <= t < 1.0
    ensures d >= 0.0 ==> 0.0 <= d * t <= d
    ensures d < 0.0 ==> d <= d * t <= 0.0
  {
    assert d - d * t == d * (1.0 - t);
    if d >= 0.0 {
      MulNonNeg(d, 1.0 - t);
      MulNonNeg(d, t);
    } else {
      MulNonNeg(-d, 1.0 - t);
      MulNonNeg(-d, t);
      assert (-d) * (1.0 - t) == -(d * (1.0 - t));
      assert (-d) * t == -(d * t);
    }
  }

  predicate StrictlyIncreasing(pts: seq<Point>)
  {
    forall i, j :: 0 <= i < j < |pts| ==> pts[i].input < pts[j].input
  }

  /** On a curve with increasing inputs, each point's own input gives that point's output. */
  lemma CurveAtPoint(pts: seq<Point>, j: nat, defaultOutput: real)
    requires StrictlyIncreasing(pts) && j < |pts|
    ensures CurveOutput(pts, pts[j].input, defaultOutput) == pts[j].output
  {
    var x := pts[j].input;
    if j > 0 {
      if j + 1 < |pts| {
        assert FirstBeyond(pts, x, j + 1);
        CurveInSegment(pts, x, defaultOutput, j + 1);
        assert (x - pts[j].input) / (pts[j + 1].input - pts[j].input) == 0.0;
      } else {
        CurveBeyondLast(pts, x, defaultOutput);
      }
    }
  }

  /** A curve: up to `MAX_POINTS` points in a fixed array, the first `numPoints` in use. */
  class LinearPieceCurve {
    const points: array<Point>
    var numPoints: nat

    ghost predicate Valid()
      reads this
    {
      points.Length == MAX_POINTS && numPoints <= MAX_POINTS
    }

    /** The points in use, in order. */
    function Points(): (r: seq<Point>)
      requires Valid()
      reads this, points
      ensures |r| == numPoints
    {
      points[..numPoints]
    }

    /** The default constructor: an empty curve. */
    constructor Empty()
      ensures Valid() && fresh(points)
      ensures numPoints == 0 && Points() == []
    {
      points := new Point[MAX_POINTS](_ => ZERO_POINT);
      numPoints := 0;
    }

    /** The initializer-list constructor: keeps the first eight pairs and silently drops the rest. */
    constructor (init: seq<(real, real)>)
      ensures Valid() && fresh(points)
      ensures numPoints == Min(|init|, MAX_POINTS)
      ensures Points() == StoredPoints(init)
      ensures forall k :: numPoints <= k < MAX_POINTS ==> points[k] == ZERO_POINT
    {
      points := new Point[MAX_POINTS](_ => ZERO_POINT);
      numPoints := 0;
      new;
      for j := 0 to |init|
        invariant numPoints == Min(j, MAX_POINTS)
        invariant points[..numPoints] == StoredPoints(init[..j])
        invariant forall k :: numPoints <= k < MAX_POINTS ==> points[k] == ZERO_POINT
      {
        assert init[..j + 1][..Min(j + 1, MAX_POINTS)] == init[..Min(j + 1, MAX_POINTS)];
        if numPoints < MAX_POINTS {
          points[numPoints] := Point(init[j].0, init[j].1);
          numPoints := numPoints + 1;
        }
      }
      assert init[..|init|] == init;
    }

    /** The linear search over the points, proved equal to `CurveOutput`. */
    method GetOutput(input: real, defaultOutput: real) returns (r: real)
      requires Valid()
      ensures r == CurveOutput(Points(), input, defaultOutput)
    {
      if numPoints == 0 {
        return defaultOutput;
      }
      if input <= points[0].input {
        return points[0].output;
      }
      var i := 1;
      while i < numPoints
        invariant 1 <= i <= numPoints
        invariant SearchFrom(Points(), input, i) == CurveOutput(Points(), input, defaultOutput)
      {
        if points[i].input > input {
          var before := points[i - 1];
          var after := points[i];
          assert SearchFrom(Points(), input, i) == Interpolate(before, after, input);
          var dx := after.input - before.input;
          if dx <= 0.0 {
            return before.output;
          }
          var t := (input - before.input) / dx;
          assert before.output + (after.output - before.output) * t == Interpolate(before, after, input);
          return before.output + (after.output - before.output) * t;
        }
        i := i + 1;
      }
      return points[numPoints - 1].output;
    }
  }

  /** A default-constructed curve answers the default output, 1 unless given. */
  method EmptyCurveOutput(input: real) returns (r: real)
    ensures r == 1.0
  {
    var curve := new LinearPieceCurve.Empty();
    r := curve.GetOutput(input, 1.0);
  }

  // -------------------------------------------------- WrapNormalizeFloat

  /** C's `fmod`: the remainder of truncated division, with the sign of `x`. */
  function FMod(x: real, y: real): (r: real)
    requires y > 0.0
    ensures 0.0 <= x ==> 0.0 <= r < y
    ensures x < 0.0 ==> -y < r <= 0.0
    ensures IsWhole((x - r) / y)
  {
    var q := Trunc(x / y);
    FModBracket(x, y, q as real);
    WholeQuotient(x, y, q);
    x - q as real * y
  }

  /** Taking away the remainder leaves a whole multiple of `y`. */
  lemma WholeQuotient(x: real, y: real, q: int)
    requires y > 0.0
    ensures IsWhole((x - (x - q as real * y)) / y)
  {
    var w := x - (x - q as real * y);
    assert w == q as real * y;
    MulDiv(q as real, y);
    assert w / y == q as real;
    assert IsWhole(q as real);
  }

  /** Scaling the truncation bounds `q <= x / y < q + 1` (or their mirror image) by `y`. */
  lemma FModBracket(x: real, y: real, q: real)
    requires y > 0.0
    requires 0.0 <= x ==> q <= x / y < q + 1.0
    requires x < 0.0 ==> q - 1.0 < x / y <= q
    ensures 0.0 <= x ==> 0.0 <= x - q * y < y
    ensures x < 0.0 ==> -y < x - q * y <= 0.0
  {
    DivMul(x, y);
    if 0.0 <= x {
      ScaleBelow(x, y, q, x / y);
    } else {
      ScaleAbove(x, y, q, x / y);
    }
  }

  lemma ScaleBelow(x: real, y: real, q: real, t: real)
    requires y > 0.0 && t * y == x && q <= t < q + 1.0
    ensures q * y <= x < q * y + y
  {
    ScaleLe(x, y, q, t);
    ScaleLtSucc(x, y, q, t);
  }

  lemma ScaleAbove(x: real, y: real, q: real, t: real)
    requires y > 0.0 && t * y == x && q - 1.0 < t <= q
    ensures q * y - y < x <= q * y
  {
    ScaleGe(x, y, q, t);
    ScaleGtPred(x, y, q, t);
  }

  lemma ScaleLe(x: real, y: real, q: real, t: real)
    requires y > 0.0 && t * y == x && q <= t
    ensures q * y <= x
  {
    MulLe(q, t, y);
  }

  lemma ScaleGe(x: real, y: real, q: real, t: real)
    requires y > 0.0 && t * y == x && t <= q
    ensures x <= q * y
  {
    MulLe(t, q, y);
  }

  lemma ScaleLtSucc(x: real, y: real, q: real, t: real)
    requires y > 0.0 && t * y == x && t < q + 1.0
    ensures x < q * y + y
  {
    MulLt(t, q + 1.0, y);
    Distrib(q, 1.0, y);
  }

  lemma ScaleGtPred(x: real, y: real, q: real, t: real)
    requires y > 0.0 && t * y == x && q - 1.0 < t
    ensures q * y - y < x
  {
    MulLt(q - 1.0, t, y);
    Distrib(q, -1.0, y);
  }

  lemma Distrib(a: real, b: real, c: real)
    ensures (a + b) * c == a * c + b * c
  {
  }

  /** Brings `val` into [-minmax, minmax] by removing whole periods of `2*minmax`. */
  function WrapNormalizeFloat(val: real, minmax: real): (r: real)
    requires minmax > 0.0
    ensures -minmax <= r <= minmax
    ensures IsWhole((val - r) / (2.0 * minmax))
  {
    var period := minmax * 2.0;
    var m := FMod(val, period);
    var r := if m > minmax then m - period else if m < -minmax then m + period else m;
    WrapShift(val, m, r, period);
    assert period == 2.0 * minmax;
    r
  }

  /** Moving a remainder by one period keeps the difference a whole number of periods. */
  lemma WrapShift(val: real, m: real, r: real, period: real)
    requires period > 0.0 && IsWhole((val - m) / period)
    requires r == m || r == m - period || r == m + period
    ensures IsWhole((val - r) / period)
  {
    var k := ((val - m) / period).Floor;
    assert (val - m) / period == k as real;
    DivMul(val - m, period);
    assert val - m == k as real * period;
    if r == m - period {
      assert val - r == (k + 1) as real * period;
      MulDiv((k + 1) as real, period);
      assert (val - r) / period == (k + 1) as real;
    } else if r == m + period {
      assert val - r == (k - 1) as real * period;
      MulDiv((k - 1) as real, period);
      assert (val - r) / period == (k - 1) as real;
    }
  }

  lemma MulDiv(q: real, p: real)
    requires p != 0.0
    ensures (q * p) / p == q
  {
  }

  lemma DivMul(x: real, p: real)
    requires p != 0.0
    ensures (x / p) * p == x
  {
  }

  lemma MulLt(a: real, b: real, p: real)
    requires a < b && p > 0.0
    ensures a * p < b * p
  {
  }

  lemma MulLe(a: real, b: real, p: real)
    requires a <= b && p > 0.0
    ensures a * p <= b * p
  {
  }

  /** A value already in range comes back unchanged. */
  lemma WrapNormalizeInRange(val: real, minmax: real)
    requires minmax > 0.0 && -minmax <= val <= minmax
    ensures WrapNormalizeFloat(val, minmax) == val
  {
    FModSmall(val, minmax * 2.0);
  }

  /** `fmod` of a value smaller in magnitude than the divisor is the value itself. */
  lemma FModSmall(x: real, y: real)
    requires y > 0.0 && -y < x < y
    ensures FMod(x, y) == x
  {
    var q := Trunc(x / y);
    if x >= 0.0 {
      FractionBelowOne(x, y);
    } else {
      FractionBelowOne(-x, y);
      NegDiv(x, y);
    }
    assert q == 0;
    ZeroTimes(q, y);
  }

  lemma NegDiv(x: real, y: real)
    requires y > 0.0
    ensures (-x) / y == -(x / y)
  {
  }

  lemma ZeroTimes(q: int, y: real)
    requires q == 0
    ensures q as real * y == 0.0
  {
  }

  // ------------------------------------------------------------- RandInt

  /** The modulus and multiplier of `std::default_random_engine` as libstdc++ defines it
      (`minstd_rand0`). */
  const MINSTD_MODULUS: nat := 2147483647
  const MINSTD_MULTIPLIER: nat := 16807

  /** Seeding: the seed, as an unsigned 64-bit value, reduced modulo the modulus; 0 becomes 1. */
  function MinstdSeedState(seed: int): (x: nat)
    ensures 0 < x < MINSTD_MODULUS
  {
    var s := ToU64(seed) % MINSTD_MODULUS;
    if s == 0 then 1 else s
  }

  /** One step of the engine; the new state is also its output. */
  function MinstdNext(x: nat): (r: nat)
    requires 0 < x < MINSTD_MODULUS
    ensures 0 < r < MINSTD_MODULUS
  {
    var r := (MINSTD_MULTIPLIER * x) % MINSTD_MODULUS;
    MinstdNoZero(x);
    r
  }

  /** The modulus is prime, so a step never reaches state 0. */
  lemma MinstdNoZero(x: nat)
    requires 0 < x < MINSTD_MODULUS
    ensures (MINSTD_MULTIPLIER * x) % MINSTD_MODULUS != 0
  {
    var k := (MINSTD_MULTIPLIER * x) / MINSTD_MODULUS;
    assert MINSTD_MULTIPLIER * x == k * MINSTD_MODULUS + (MINSTD_MULTIPLIER * x) % MINSTD_MODULUS;
    if k > 0 {
      assert k * MINSTD_MODULUS <= MINSTD_MULTIPLIER * x < MINSTD_MULTIPLIER * MINSTD_MODULUS;
      assert k < MINSTD_MULTIPLIER;
      MultipleOfPrime(x, k);
    }
  }

  /** 16807 * x == k * 2147483647 has no solution with 0 < k < 16807. */
  lemma MultipleOfPrime(x: int, k: nat)
    requires 0 < k < MINSTD_MULTIPLIER
    ensures MINSTD_MULTIPLIER * x != k * MINSTD_MODULUS
  {
    // 2147483647 == 16807 * 127773 + 2836
    assert k * MINSTD_MODULUS == MINSTD_MULTIPLIER * (k * 127773) + k * 2836;
    NoMultipleOf16807(k, x - k * 127773);
  }

  /** 16807 = 7^5 does not divide 2836 * k for 0 < k < 16807. */
  lemma NoMultipleOf16807(k: nat, y: int)
    requires 0 < k < MINSTD_MULTIPLIER
    ensures MINSTD_MULTIPLIER * y != k * 2836
  {
  }

  /** `min + (e % (max - min))` in the types the expression really has: the `int` operands
      are converted to `unsigned long`, the sum wraps modulo 2^64 and the result is
      converted back to `int`. */
  function PickInRange(min: Int32, max: Int32, e: nat): (r: Int32)
    requires min != max && -0x8000_0000 <= max - min < 0x8000_0000
    ensures (min + e % ToU64(max - min) - r) % 0x1_0000_0000 == 0
  {
    var d := e % ToU64(max - min);
    var x := (ToU64(min) + d) % 0x1_0000_0000_0000_0000;
    PickCongruent(min, d, x, ToI32(x));
    ToI32(x)
  }

  /** Wrapping modulo 2^64 and then modulo 2^32 keeps `min + d` modulo 2^32. */
  lemma PickCongruent(min: Int32, d: nat, x: int, r: int)
    requires x == (ToU64(min) + d) % 0x1_0000_0000_0000_0000
    requires (x - r) % 0x1_0000_0000 == 0
    ensures (min + d - r) % 0x1_0000_0000 == 0
  {
    var k := (ToU64(min) + d) / 0x1_0000_0000_0000_0000;
    assert ToU64(min) + d == k * 0x1_0000_0000_0000_0000 + x;
    var j := if min < 0 then 1 else 0;
    assert ToU64(min) == min + j * 0x1_0000_0000_0000_0000;
    var m := (x - r) / 0x1_0000_0000;
    assert x - r == m * 0x1_0000_0000;
    assert min + d - r == (k - j) * 0x1_0000_0000_0000_0000 + m * 0x1_0000_0000;
    assert min + d - r == ((k - j) * 0x1_0000_0000 + m) * 0x1_0000_0000;
  }

  /** With min < max the pick lands in [min, max): min inclusive, max exclusive. */
  lemma PickInRangeBounds(min: Int32, max: Int32, e: nat)
    requires min < max && max - min < 0x8000_0000
    ensures min <= PickInRange(min, max, e) < max
    ensures PickInRange(min, max, e) == min + e % (max - min)
  {
    assert ToU64(max - min) == max - min;
    var d := e % (max - min);
    assert 0 <= d < max - min;
    WrapSum(min, d);
  }

  /** Adding a small non-negative offset to an `int` through `unsigned long` and back
      loses nothing. */
  lemma WrapSum(min: Int32, d: nat)
    requires min + d < 0x8000_0000
    ensures ToI32((ToU64(min) + d) % 0x1_0000_0000_0000_0000) == min + d
  {
    if min >= 0 {
      assert (ToU64(min) + d) % 0x1_0000_0000_0000_0000 == min + d;
    } else if min + d >= 0 {
      assert ToU64(min) + d == min + d + 0x1_0000_0000_0000_0000;
      assert (ToU64(min) + d) % 0x1_0000_0000_0000_0000 == min + d;
    } else {
      assert ToU64(min) + d == min + d + 0x1_0000_0000_0000_0000;
      assert (ToU64(min) + d) % 0x1_0000_0000_0000_0000 == min + d + 0x1_0000_0000_0000_0000;
    }
  }


  /** `RandInt` with a seed other than -1: the first output of a fresh engine seeded with it. */
  function RandIntSeeded(min: Int32, max: Int32, seed: Int32): (r: Int32)
    requires seed != -1
    requires min < max && max - min < 0x8000_0000
    ensures min <= r < max
    ensures r == min + MinstdNext(MinstdSeedState(seed)) % (max - min)
  {
    PickInRangeBounds(min, max, MinstdNext(MinstdSeedState(seed)));
    PickInRange(min, max, MinstdNext(MinstdSeedState(seed)))
  }

  /** Seed 0 is stored as state 1, whose first output is the multiplier itself. */
  lemma RandIntSeedZero()
    ensures RandIntSeeded(0, 10, 0) == 7
    ensures RandIntSeeded(5, 15, 0) == 12
  {
    assert MinstdSeedState(0) == 1;
    assert MinstdNext(1) == 16807;
  }

  /** The shared engine `GetRandEngine` returns (its clock-based seeding is not modelled). */
  class RandEngine {
    var state: nat

    ghost predicate Valid()
      reads this
    {
      0 < state < MINSTD_MODULUS
    }

    constructor (seed: int)
      ensures Valid() && state == MinstdSeedState(seed)
    {
      state := MinstdSeedState(seed);
    }

    method Next() returns (e: nat)
      requires Valid()
      modifies this
      ensures Valid()
      ensures state == MinstdNext(old(state)) && e == state
    {
      state := MinstdNext(state);
      e := state;
    }
  }

  /** `RandInt`: a seed other than -1 selects a throw-away engine and leaves the shared one
      alone; -1 draws from the shared engine. */
  method RandInt(min: Int32, max: Int32, seed: Int32, shared: RandEngine) returns (r: Int32)
    requires shared.Valid()
    requires min < max && max - min < 0x8000_0000
    modifies shared
    ensures shared.Valid()
    ensures min <= r < max
    ensures seed != -1 ==> r == RandIntSeeded(min, max, seed) && shared.state == old(shared.state)
    ensures seed == -1 ==> shared.state == MinstdNext(old(shared.state)) &&
                           r == min + shared.state % (max - min)
  {
    var e: nat;
    if seed != -1 {
      var tempEngine := new RandEngine(seed);
      e := tempEngine.Next();
    } else {
      e := shared.Next();
    }
    PickInRangeBounds(min, max, e);
    r := PickInRange(min, max, e);
  }

  // ------------------------------------------------------------ RoundVec

  datatype Vec3 = Vec3(x: real, y: real, z: real)

  /** One coordinate rounded to the nearest multiple of `precision`. */
  function RoundTo(v: real, precision: real): (r: real)
    requires precision > 0.0
    ensures IsWhole(r / precision)
    ensures v - precision / 2.0 <= r <= v + precision / 2.0
    ensures 0.0 <= v ==> v - precision / 2.0 < r
    ensures v <= 0.0 ==> r < v + precision / 2.0
  {
    var n := RoundHalfAway(v / precision);
    RoundToFacts(v, precision, n);
    n as real * precision
  }

  lemma RoundToFacts(v: real, precision: real, n: int)
    requires precision > 0.0 && v / precision - 0.5 <= n as real <= v / precision + 0.5
    requires 0.0 <= v / precision ==> v / precision - 0.5 < n as real
    requires v / precision <= 0.0 ==> n as real < v / precision + 0.5
    ensures IsWhole((n as real * precision) / precision)
    ensures v - precision / 2.0 <= n as real * precision <= v + precision / 2.0
    ensures 0.0 <= v ==> v - precision / 2.0 < n as real * precision
    ensures v <= 0.0 ==> n as real * precision < v + precision / 2.0
  {
    MulDiv(n as real, precision);
    DivMul(v, precision);
    NearBelow(v, precision, n as real, v / precision);
    NearAbove(v, precision, n as real, v / precision);
    if 0.0 <= v {
      assert 0.0 <= v / precision;
      NearBelowStrict(v, precision, n as real, v / precision);
    }
    if v <= 0.0 {
      assert v / precision <= 0.0;
      NearAboveStrict(v, precision, n as real, v / precision);
    }
  }

  lemma NearBelow(v: real, p: real, n: real, t: real)
    requires p > 0.0 && t * p == v && t - 0.5 <= n
    ensures v - p / 2.0 <= n * p
  {
    MulLe(t - 0.5, n, p);
    Distrib(t, -0.5, p);
  }

  lemma NearAbove(v: real, p: real, n: real, t: real)
    requires p > 0.0 && t * p == v && n <= t + 0.5
    ensures n * p <= v + p / 2.0
  {
    MulLe(n, t + 0.5, p);
    Distrib(t, 0.5, p);
  }

  lemma NearBelowStrict(v: real, p: real, n: real, t: real)
    requires p > 0.0 && t * p == v && t - 0.5 < n
    ensures v - p / 2.0 < n * p
  {
    MulLt(t - 0.5, n, p);
    Distrib(t, -0.5, p);
  }

  lemma NearAboveStrict(v: real, p: real, n: real, t: real)
    requires p > 0.0 && t * p == v && n < t + 0.5
    ensures n * p < v + p / 2.0
  {
    MulLt(n, t + 0.5, p);
    Distrib(t, 0.5, p);
  }


  /** Rounding a value that is already a multiple of `precision` changes nothing. */
  lemma RoundToIdempotent(v: real, precision: real)
    requires precision > 0.0
    ensures RoundTo(RoundTo(v, precision), precision) == RoundTo(v, precision)
  {
    var r := RoundTo(v, precision);
    var n := (r / precision).Floor;
    assert r / precision == n as real;
    RoundHalfAwayInt(n);
    DivMul(r, precision);
    assert r == n as real * precision;
  }

  function RoundVec(vec: Vec3, precision: real): (r: Vec3)
    requires precision > 0.0
    ensures IsWhole(r.x / precision) && IsWhole(r.y / precision) && IsWhole(r.z / precision)
    ensures vec.x - precision / 2.0 <= r.x <= vec.x + precision / 2.0
    ensures vec.y - precision / 2.0 <= r.y <= vec.y + precision / 2.0
    ensures vec.z - precision / 2.0 <= r.z <= vec.z + precision / 2.0
    ensures 0.0 <= vec.x ==> vec.x - precision / 2.0 < r.x
    ensures vec.x <= 0.0 ==> r.x < vec.x + precision / 2.0
    ensures 0.0 <= vec.y ==> vec.y - precision / 2.0 < r.y
    ensures vec.y <= 0.0 ==> r.y < vec.y + precision / 2.0
    ensures 0.0 <= vec.z ==> vec.z - precision / 2.0 < r.z
    ensures vec.z <= 0.0 ==> r.z < vec.z + precision / 2.0
  {
    Vec3(RoundTo(vec.x, precision), RoundTo(vec.y, precision), RoundTo(vec.z, precision))
  }

  lemma RoundVecIdempotent(vec: Vec3, precision: real)
    requires precision > 0.0
    ensures RoundVec(RoundVec(vec, precision), precision) == RoundVec(vec, precision)
  {
    RoundToIdempotent(vec.x, precision);
    RoundToIdempotent(vec.y, precision);
    RoundToIdempotent(vec.z, precision);
  }

  // ------------------------------------------------------- RoundAngleUE3

  /** `M_PI` as written in the C headers. */
  const PI: real := 3.14159265358979323846

  /** Radians to UE3 rotator units: 2^15 units per half turn. */
  const TO_INTS: real := 32768.0 / PI

  /** Four rotator units, in radians. */
  const BACK_TO_RADIANS: real := (1.0 / TO_INTS) * 4.0

  const ROUNDING_MASK: int := 0x4000 - 1

  datatype Angle = Angle(yaw: real, pitch: real, roll: real)

  /** `int` conversion of an angle in rotator units must not overflow. */
  predicate FitsRotatorUnits(x: real)
  {
    -0x8000_0000 as real <= x * TO_INTS < 0x8000_0000 as real
  }

  /** `((int)(x * TO_INTS) >> 2) & ROUNDING_MASK`: on a two's-complement `int` the arithmetic
      shift is floor division by 4 and the mask is the remainder modulo 2^14. */
  function RoundedUnits(x: real): (k: int)
    requires FitsRotatorUnits(x)
    ensures 0 <= k <= ROUNDING_MASK
  {
    (Trunc(x * TO_INTS) / 4) % (ROUNDING_MASK + 1)
  }

  /** One rotator component after rounding: a multiple of four rotator units within one turn. */
  function Snap(x: real): (r: real)
    requires FitsRotatorUnits(x)
    ensures 0.0 <= r < 2.0 * PI
    ensures IsWhole(r / BACK_TO_RADIANS)
  {
    var k := RoundedUnits(x);
    SnappedRange(k);
    k as real * BACK_TO_RADIANS
  }

  lemma SnappedRange(k: int)
    requires 0 <= k <= ROUNDING_MASK
    ensures 0.0 <= k as real * BACK_TO_RADIANS < 2.0 * PI
    ensures IsWhole((k as real * BACK_TO_RADIANS) / BACK_TO_RADIANS)
  {
    BackToRadiansValue();
    MulLe(0.0, k as real, BACK_TO_RADIANS);
    MulLt(k as real, 16384.0, BACK_TO_RADIANS);
    MulDiv(k as real, BACK_TO_RADIANS);
  }

  /** Four rotator units are a 2^13-th of a half turn. */
  lemma BackToRadiansValue()
    ensures BACK_TO_RADIANS > 0.0
    ensures 16384.0 * BACK_TO_RADIANS == 2.0 * PI
    ensures BACK_TO_RADIANS * TO_INTS == 4.0
  {
  }

  /** A snapped component is left where it is. */
  lemma SnapIdempotent(x: real)
    requires FitsRotatorUnits(x)
    ensures FitsRotatorUnits(Snap(x)) && Snap(Snap(x)) == Snap(x)
  {
    var k := RoundedUnits(x);
    assert Snap(x) == k as real * BACK_TO_RADIANS;
    SnapFixed(k);
  }

  lemma SnapFixed(k: int)
    requires 0 <= k <= ROUNDING_MASK
    ensures FitsRotatorUnits(k as real * BACK_TO_RADIANS)
    ensures Snap(k as real * BACK_TO_RADIANS) == k as real * BACK_TO_RADIANS
  {
    RoundedUnitsFixed(k);
  }

  lemma RoundedUnitsFixed(k: int)
    requires 0 <= k <= ROUNDING_MASK
    ensures FitsRotatorUnits(k as real * BACK_TO_RADIANS)
    ensures RoundedUnits(k as real * BACK_TO_RADIANS) == k
  {
    BackToRadiansValue();
    MulAssoc(k as real, BACK_TO_RADIANS, TO_INTS);
    assert (k as real * BACK_TO_RADIANS) * TO_INTS == (4 * k) as real;
    assert Trunc((4 * k) as real) == 4 * k;
  }

  lemma MulAssoc(a: real, b: real, c: real)
    ensures (a * b) * c == a * (b * c)
  {
  }

  /** Yaw and pitch snap to multiples of four rotator units within one turn; roll must be 0. */
  function RoundAngleUE3(ang: Angle): (r: Angle)
    requires ang.roll == 0.0
    requires FitsRotatorUnits(ang.yaw) && FitsRotatorUnits(ang.pitch)
    ensures r.roll == 0.0
    ensures 0.0 <= r.yaw < 2.0 * PI && 0.0 <= r.pitch < 2.0 * PI
    ensures IsWhole(r.yaw / BACK_TO_RADIANS) && IsWhole(r.pitch / BACK_TO_RADIANS)
  {
    Angle(Snap(ang.yaw), Snap(ang.pitch), ang.roll)
  }

  /** Rounding twice is rounding once. */
  lemma RoundAngleUE3Idempotent(ang: Angle)
    requires ang.roll == 0.0
    requires FitsRotatorUnits(ang.yaw) && FitsRotatorUnits(ang.pitch)
    ensures var r := RoundAngleUE3(ang);
            FitsRotatorUnits(r.yaw) && FitsRotatorUnits(r.pitch) &&
            RoundAngleUE3(r) == r
  {
    SnapIdempotent(ang.yaw);
    SnapIdempotent(ang.pitch);
  }
}

=== FILE: performance_benchmark.dfy ===
/**
 * The performance benchmark's command line: `ParseArgs` walks `argv`
 * updating a `BenchmarkArgs` record, valued options consume the following
 * argument, `--help` and unknown options end the program; then `main`
 * dispatches on the parsed mode, and the multi-threaded README run derives
 * one seed per thread in 32-bit unsigned arithmetic.
 *
 * `argv` is a sequence of strings with the program name at index 0.
 * `std::stoul` and `std::stoull` are the same function on a 64-bit
 * `unsigned long`; an exception they throw leaves `main` uncaught, which is
 * the outcome `Threw`.
 */
module PerfBench {
  import opened Wrappers
  import opened ProfilerStats

  const ULONG_MAX: int := 0xFFFF_FFFF_FFFF_FFFF
  const U32_MODULUS: int := 0x1_0000_0000

  datatype Mode = README | PROFILE

  datatype BenchmarkArgs = BenchmarkArgs(
    mode: Mode, numTicks: nat, seed: nat, numCars: nat, numThreads: nat,
    compareConfigs: bool, noSubphase: bool, collisionMeshesPath: string)

  /** The member initialisers of `BenchmarkArgs`. */
  const DEFAULT_ARGS := BenchmarkArgs(README, 1000000, 0, 2, 1, false, false, "collision_meshes")

  /** How argument parsing ends: with the arguments, with `exit(code)`, or with an uncaught exception. */
  datatype Outcome = Parsed(args: BenchmarkArgs) | Exit(code: int) | Threw

  /** The longest prefix of `s` made of decimal digits. */
  function LeadingDigits(s: string): (r: string)
    ensures |r| <= |s| && r == s[..|r|]
    ensures forall i :: 0 <= i < |r| ==> IsDigit(r[i])
    ensures |r| < |s| ==> !IsDigit(s[|r|])
  {
    if s == [] || !IsDigit(s[0]) then [] else [s[0]] + LeadingDigits(s[1..])
  }

  /** The characters `isspace` accepts in the "C" locale. */
  predicate IsSpace(c: char)
  {
    c == ' ' || c == '\t' || c == '\n' || c == '\U{0B}' || c == '\U{0C}' || c == '\r'
  }

  /** `s` without its leading white space. */
  function SkipSpace(s: string): (r: string)
    ensures |r| <= |s| && r == s[|s| - |r|..]
    ensures r == [] || !IsSpace(r[0])
    ensures forall i :: 0 <= i < |s| - |r| ==> IsSpace(s[i])
  {
    if s != [] && IsSpace(s[0]) then SkipSpace(s[1..]) else s
  }

  /** The text after white space starts with a minus sign. */
  predicate Negative(s: string)
  {
    var t := SkipSpace(s);
    t != [] && t[0] == '-'
  }

  /** The digits `strtoul` reads: after white space and one optional sign. */
  function Magnitude(s: string): (r: string)
    ensures forall i :: 0 <= i < |r| ==> IsDigit(r[i])
  {
    var t := SkipSpace(s);
    LeadingDigits(if t != [] && (t[0] == '+' || t[0] == '-') then t[1..] else t)
  }

  /**
   * `std::stoul` in base 10 on a 64-bit `unsigned long`, as libstdc++'s
   * `strtoul` reads it: leading white space is skipped, one `+` or `-` is
   * accepted, and a minus sign negates the value modulo 2^64. No digits is
   * `invalid_argument`, a magnitude above the maximum is `out_of_range`
   * (both `None`).
   */
  function StoUL(s: string): (r: Option<nat>)
    ensures r.Some? ==> r.value <= ULONG_MAX
    ensures r.None? <==> Magnitude(s) == [] || DigitsValue(Magnitude(s)) > ULONG_MAX
    ensures r.Some? && !Negative(s) ==> r.value == DigitsValue(Magnitude(s))
    ensures r.Some? && Negative(s) ==> r.value + DigitsValue(Magnitude(s)) in {0, ULONG_MAX + 1}
  {
    var d := Magnitude(s);
    if d == [] then None
    else
      var v := DigitsValue(d);
      if v > ULONG_MAX then None
      else if Negative(s) then Some(if v == 0 then 0 else ULONG_MAX + 1 - v)
      else Some(v)
  }

  /** Parsing a number's decimal text gives the number back. */
  lemma StoULDecimal(n: nat)
    requires n <= ULONG_MAX
    ensures StoUL(DecimalDigits(n)) == Some(n)
  {
    var d := DecimalDigits(n);
    DecimalDigitsValue(n);
    MagnitudeOfDigits(d);
    assert DigitsValue(Magnitude(d)) == n;
  }

  /** A string made only of digits is read whole. */
  lemma {:induction false} LeadingDigitsAll(d: string)
    requires forall i :: 0 <= i < |d| ==> IsDigit(d[i])
    ensures LeadingDigits(d) == d
  {
    if d != [] {
      LeadingDigitsAll(d[1..]);
      assert [d[0]] + d[1..] == d;
    }
  }

  /** Digits with nothing before them are the magnitude, and not negative. */
  lemma MagnitudeOfDigits(d: string)
    requires d != [] && forall i :: 0 <= i < |d| ==> IsDigit(d[i])
    ensures Magnitude(d) == d && !Negative(d)
  {
    assert IsDigit(d[0]) && !IsSpace(d[0]);
    assert SkipSpace(d) == d;
    LeadingDigitsAll(d);
  }

  /** After one sign character, the digits that follow are the magnitude. */
  lemma MagnitudeAfterSign(c: char, d: string)
    requires c == '+' || c == '-'
    requires forall i :: 0 <= i < |d| ==> IsDigit(d[i])
    ensures Magnitude([c] + d) == d
    ensures Negative([c] + d) <==> c == '-'
  {
    var s := [c] + d;
    assert s[0] == c && !IsSpace(s[0]);
    assert SkipSpace(s) == s;
    assert s[1..] == d;
    LeadingDigitsAll(d);
    assert Magnitude(s) == LeadingDigits(d);
  }

  /** Only what follows the white space decides the magnitude and the sign. */
  lemma SameAfterSpace(s: string, t: string)
    requires SkipSpace(s) == SkipSpace(t)
    ensures Magnitude(s) == Magnitude(t) && Negative(s) == Negative(t)
  {
  }

  /** White space before digits is skipped. */
  lemma MagnitudeAfterSpace(d: string)
    requires forall i :: 0 <= i < |d| ==> IsDigit(d[i])
    ensures Magnitude(" " + d) == d
    ensures !Negative(" " + d)
  {
    var s := " " + d;
    assert SkipSpace(s) == SkipSpace(d) by {
      assert IsSpace(s[0]) && s[1..] == d;
    }
    SameAfterSpace(s, d);
    if d != [] {
      MagnitudeOfDigits(d);
    }
  }

  /** Leading white space and a plus sign do not change what is parsed. */
  lemma StoULSpacePlus(n: nat)
    requires n <= ULONG_MAX
    ensures StoUL(" " + DecimalDigits(n)) == Some(n)
    ensures StoUL("+" + DecimalDigits(n)) == Some(n)
  {
    DecimalDigitsValue(n);
    MagnitudeAfterSpace(DecimalDigits(n));
    MagnitudeAfterSign('+', DecimalDigits(n));
  }

  /** A minus sign wraps: `"-n"` parses to `2^64 - n` for a non-zero `n`. */
  lemma StoULMinus(n: nat)
    requires 0 < n <= ULONG_MAX
    ensures StoUL("-" + DecimalDigits(n)) == Some(ULONG_MAX + 1 - n)
  {
    var d := DecimalDigits(n);
    var s := "-" + d;
    assert s == ['-'] + d;
    DecimalDigitsValue(n);
    MagnitudeAfterSign('-', d);
    assert DigitsValue(Magnitude(s)) == n;
  }

  /** A string whose first character is neither white space, a sign nor a digit is rejected. */
  lemma StoULNoDigit(s: string)
    requires s == [] || (!IsSpace(s[0]) && s[0] != '+' && s[0] != '-' && !IsDigit(s[0]))
    ensures StoUL(s) == None
  {
  }

  /** What one pass of the parsing loop does: carry on at index `next`, or end. */
  datatype Step = Next(next: nat, args: BenchmarkArgs) | Stop(outcome: Outcome)

  /** The option at `argv[i]` is one that takes a value from `argv[i + 1]`. */
  predicate TakesValue(option: string)
  {
    option == "--ticks" || option == "--seed" || option == "--cars" || option == "--threads" || option == "--meshes"
  }

  /** The option at `argv[i]` needs nothing after it. */
  predicate IsFlag(option: string)
  {
    option == "--readme" || option == "--profile" || option == "--compare-configs" || option == "--no-subphase"
  }

  /** Every numeric field fits its C++ type: `uint64_t`, `uint32_t` and two `size_t`. */
  predicate FitsTypes(a: BenchmarkArgs)
  {
    a.numTicks <= ULONG_MAX && a.seed < U32_MODULUS && a.numCars <= ULONG_MAX && a.numThreads <= ULONG_MAX
  }

  /** The branch of the `if` chain taken for `argv[i]`. */
  function StepAt(argv: seq<string>, i: nat, a: BenchmarkArgs): (r: Step)
    requires 1 <= i < |argv|
    ensures r.Next? && FitsTypes(a) ==> FitsTypes(r.args)
    ensures r.Stop? ==> r.outcome in {Exit(0), Exit(1), Threw}
    ensures r.Next? ==> i < r.next <= |argv|
    ensures r.Next? && TakesValue(argv[i]) ==> r.next == i + 2
    ensures r.Next? && !TakesValue(argv[i]) ==> r.next == i + 1
  {
    var arg := argv[i];
    var hasValue := i + 1 < |argv|;
    if arg == "--readme" then Next(i + 1, a.(mode := README))
    else if arg == "--profile" then Next(i + 1, a.(mode := PROFILE))
    else if arg == "--ticks" && hasValue then
      match StoUL(argv[i + 1])
      case None => Stop(Threw)
      case Some(n) => Next(i + 2, a.(numTicks := n))
    else if arg == "--seed" && hasValue then
      match StoUL(argv[i + 1])
      case None => Stop(Threw)
      case Some(n) => Next(i + 2, a.(seed := n % U32_MODULUS))
    else if arg == "--cars" && hasValue then
      match StoUL(argv[i + 1])
      case None => Stop(Threw)
      case Some(n) => Next(i + 2, a.(numCars := n))
    else if arg == "--threads" && hasValue then
      match StoUL(argv[i + 1])
      case None => Stop(Threw)
      case Some(n) => Next(i + 2, a.(numThreads := n))
    else if arg == "--compare-configs" then Next(i + 1, a.(compareConfigs := true))
    else if arg == "--no-subphase" then Next(i + 1, a.(noSubphase := true))
    else if arg == "--meshes" && hasValue then Next(i + 2, a.(collisionMeshesPath := argv[i + 1]))
    else if arg == "--help" then Stop(Exit(0))
    else Stop(Exit(1))
  }

  /** Parsing from index `i` with the arguments gathered so far. */
  function ParseFrom(argv: seq<string>, i: nat, a: BenchmarkArgs): (r: Outcome)
    ensures r.Parsed? && FitsTypes(a) ==> FitsTypes(r.args)
    ensures !r.Parsed? ==> r in {Exit(0), Exit(1), Threw}
    decreases |argv| - i
  {
    if i < 1 || i >= |argv| then Parsed(a)
    else
      match StepAt(argv, i, a)
      case Next(j, b) => ParseFrom(argv, j, b)
      case Stop(o) => o
  }

  /** What `ParseArgs(argc, argv)` returns or how it ends the program. */
  function Parse(argv: seq<string>): (r: Outcome)
    ensures r.Parsed? ==> FitsTypes(r.args)
    ensures !r.Parsed? ==> r in {Exit(0), Exit(1), Threw}
  {
    ParseFrom(argv, 1, DEFAULT_ARGS)
  }

  /** One pass of the loop in `ParseArgs`: the `if` chain on `argv[i]`. */
  method ParseOption(argv: seq<string>, i: nat, args: BenchmarkArgs) returns (step: Step)
    requires 1 <= i < |argv|
    ensures step == StepAt(argv, i, args)
  {
    var arg := argv[i];
    var hasValue := i + 1 < |argv|;
    if arg == "--readme" {
      step := Next(i + 1, args.(mode := README));
    } else if arg == "--profile" {
      step := Next(i + 1, args.(mode := PROFILE));
    } else if arg == "--ticks" && hasValue {
      var n := StoUL(argv[i + 1]);
      step := if n.None? then Stop(Threw) else Next(i + 2, args.(numTicks := n.value));
    } else if arg == "--seed" && hasValue {
      var n := StoUL(argv[i + 1]);
      step := if n.None? then Stop(Threw) else Next(i + 2, args.(seed := n.value % U32_MODULUS));
    } else if arg == "--cars" && hasValue {
      var n := StoUL(argv[i + 1]);
      step := if n.None? then Stop(Threw) else Next(i + 2, args.(numCars := n.value));
    } else if arg == "--threads" && hasValue {
      var n := StoUL(argv[i + 1]);
      step := if n.None? then Stop(Threw) else Next(i + 2, args.(numThreads := n.value));
    } else if arg == "--compare-configs" {
      step := Next(i + 1, args.(compareConfigs := true));
    } else if arg == "--no-subphase" {
      step := Next(i + 1, args.(noSubphase := true));
    } else if arg == "--meshes" && hasValue {
      step := Next(i + 2, args.(collisionMeshesPath := argv[i + 1]));
    } else if arg == "--help" {
      step := Stop(Exit(0));
    } else {
      step := Stop(Exit(1));
    }
  }

  /** The loop over `argv`: each pass either carries on past the option and its value or ends parsing. */
  method ParseArgs(argv: seq<string>) returns (out: Outcome)
    ensures out == Parse(argv)
  {
    var args := DEFAULT_ARGS;
    var i := 1;
    while i < |argv|
      invariant 1 <= i
      invariant ParseFrom(argv, i, args) == Parse(argv)
      decreases |argv| - i
    {
      var step := ParseOption(argv, i, args);
      match step
      case Stop(o) =>
        return o;
      case Next(j, b) =>
        i, args := j, b;
    }
    return Parsed(args);
  }

  /** With no arguments besides the program name, every field keeps its default. */
  lemma ParseNoArguments(argv: seq<string>)
    requires |argv| <= 1
    ensures Parse(argv) == Parsed(BenchmarkArgs(README, 1000000, 0, 2, 1, false, false, "collision_meshes"))
  {
  }

  /**
   * Arguments that parse on their own are read the same way when more
   * follow: a valued option among them already had its value.
   */
  lemma {:induction false} ParseAppend(p: seq<string>, w: seq<string>, i: nat, a: BenchmarkArgs, b: BenchmarkArgs)
    requires 1 <= i <= |p| <= |w| && w[..|p|] == p
    requires ParseFrom(p, i, a) == Parsed(b)
    ensures ParseFrom(w, i, a) == ParseFrom(w, |p|, b)
    decreases |p| - i
  {
    if i < |p| {
      var s := StepAt(p, i, a);
      assert s.Next?;
      ParseFromNext(p, i, a);
      StepAtPrefix(p, w, i, a);
      ParseFromNext(w, i, a);
      ParseAppend(p, w, s.next, s.args, b);
    }
  }

  /** An option that carries on hands the rest of the parse to the next position. */
  lemma ParseFromNext(argv: seq<string>, i: nat, a: BenchmarkArgs)
    requires 1 <= i < |argv| && StepAt(argv, i, a).Next?
    ensures ParseFrom(argv, i, a) == ParseFrom(argv, StepAt(argv, i, a).next, StepAt(argv, i, a).args)
  {
  }

  /** An option that carries on in `p` does the same in any `w` that `p` begins. */
  lemma StepAtPrefix(p: seq<string>, w: seq<string>, i: nat, a: BenchmarkArgs)
    requires 1 <= i < |p| <= |w| && w[..|p|] == p && StepAt(p, i, a).Next?
    ensures StepAt(w, i, a) == StepAt(p, i, a)
  {
    assert w[i] == p[i];
    if TakesValue(p[i]) {
      assert w[i + 1] == p[i + 1];
    }
  }

  /** One more argument after arguments that parse: it alone decides what changes. */
  lemma ParseOneMore(p: seq<string>, x: string, rest: seq<string>, b: BenchmarkArgs)
    requires |p| >= 1 && Parse(p) == Parsed(b)
    ensures Parse(p + [x] + rest) == ParseFrom(p + [x] + rest, |p|, b)
  {
    assert (p + [x] + rest)[..|p|] == p;
    ParseAppend(p, p + [x] + rest, 1, DEFAULT_ARGS, b);
  }

  /** `--readme` and `--profile` set the mode, so the last of them wins. */
  lemma ModeFlagWins(p: seq<string>, b: BenchmarkArgs)
    requires |p| >= 1 && Parse(p) == Parsed(b)
    ensures Parse(p + ["--readme"]) == Parsed(b.(mode := README))
    ensures Parse(p + ["--profile"]) == Parsed(b.(mode := PROFILE))
  {
    ParseOneMore(p, "--readme", [], b);
    ParseOneMore(p, "--profile", [], b);
    assert p + ["--readme"] + [] == p + ["--readme"];
    assert p + ["--profile"] + [] == p + ["--profile"];
  }

  /** `--compare-configs` and `--no-subphase` only switch their flag on: repeating them changes nothing. */
  lemma FlagsIdempotent(p: seq<string>, b: BenchmarkArgs, flag: string)
    requires |p| >= 1 && Parse(p) == Parsed(b)
    requires flag == "--compare-configs" || flag == "--no-subphase"
    ensures Parse(p + [flag]) == Parsed(if flag == "--compare-configs" then b.(compareConfigs := true)
                                        else b.(noSubphase := true))
    ensures Parse(p + [flag, flag]) == Parse(p + [flag])
  {
    ParseOneMore(p, flag, [], b);
    assert p + [flag] + [] == p + [flag];
    var c := if flag == "--compare-configs" then b.(compareConfigs := true) else b.(noSubphase := true);
    ParseOneMore(p + [flag], flag, [], c);
    assert p + [flag] + [flag] + [] == p + [flag, flag];
    ParseOneMore(p, flag, [flag], b);
    assert p + [flag] + [flag] == p + [flag, flag];
  }

  /** A valued option followed by a number's digits stores that number; `--seed` keeps its low 32 bits. */
  lemma ValuedOption(p: seq<string>, b: BenchmarkArgs, option: string, n: nat)
    requires |p| >= 1 && Parse(p) == Parsed(b)
    requires option in ["--ticks", "--seed", "--cars", "--threads"] && n <= ULONG_MAX
    ensures Parse(p + [option, DecimalDigits(n)]) ==
              Parsed(if option == "--ticks" then b.(numTicks := n)
                     else if option == "--seed" then b.(seed := n % U32_MODULUS)
                     else if option == "--cars" then b.(numCars := n)
                     else b.(numThreads := n))
  {
    var argv := p + [option, DecimalDigits(n)];
    StoULDecimal(n);
    ParseOneMore(p, option, [DecimalDigits(n)], b);
    assert p + [option] + [DecimalDigits(n)] == argv;
    assert argv[|p|] == option && argv[|p| + 1] == DecimalDigits(n);
    var st := StepAt(argv, |p|, b);
    assert st.Next? && st.next == |argv|;
    assert ParseFrom(argv, |argv|, st.args) == Parsed(st.args);
  }

  /** A valued option in last position has no value to take and falls through to the unknown-option exit. */
  lemma ValuedOptionLast(p: seq<string>, b: BenchmarkArgs, option: string)
    requires |p| >= 1 && Parse(p) == Parsed(b)
    requires TakesValue(option)
    ensures Parse(p + [option]) == Exit(1)
  {
    ParseOneMore(p, option, [], b);
    assert p + [option] + [] == p + [option];
  }

  /** `--help` exits with 0 and an unrecognised argument with 1, whatever follows. */
  lemma HelpAndUnknown(p: seq<string>, b: BenchmarkArgs, x: string, rest: seq<string>)
    requires |p| >= 1 && Parse(p) == Parsed(b)
    ensures x == "--help" ==> Parse(p + [x] + rest) == Exit(0)
    ensures !IsFlag(x) && !TakesValue(x) && x != "--help" ==> Parse(p + [x] + rest) == Exit(1)
  {
    ParseOneMore(p, x, rest, b);
  }

  /** `(t + 1) * 12345` when no seed was given, otherwise `seed + t`, both in `uint32_t`. */
  function ThreadSeed(seed: nat, t: nat): (r: nat)
    requires seed < U32_MODULUS
    ensures r < U32_MODULUS
  {
    if seed == 0 then ((t + 1) % 0x1_0000_0000 * 12345) % 0x1_0000_0000
    else (seed + t % 0x1_0000_0000) % 0x1_0000_0000
  }

  /** 12345 is odd, so multiplying by it modulo 2^32 is undone by its inverse 1440005641. */
  lemma TimesSeedFactorCancels(x: int)
    requires 0 <= x < 0x1_0000_0000
    ensures ((x * 12345) % 0x1_0000_0000 * 1440005641) % 0x1_0000_0000 == x
  {
    var q := (x * 12345) / 0x1_0000_0000;
    var r := (x * 12345) % 0x1_0000_0000;
    assert x * 12345 == q * 0x1_0000_0000 + r;
    assert r * 1440005641 == x * 12345 * 1440005641 - q * 1440005641 * 0x1_0000_0000;
    assert 12345 * 1440005641 == 1 + 4139 * 0x1_0000_0000;
    assert x * 12345 * 1440005641 == x + x * 4139 * 0x1_0000_0000;
    assert r * 1440005641 == x + (x * 4139 - q * 1440005641) * 0x1_0000_0000;
  }

  /** Distinct threads (fewer than 2^32 of them) get distinct seeds; with no seed given, none is 0. */
  lemma ThreadSeedsDistinct(seed: nat, t1: nat, t2: nat)
    requires seed < U32_MODULUS && t1 < U32_MODULUS && t2 < U32_MODULUS && t1 != t2
    ensures ThreadSeed(seed, t1) != ThreadSeed(seed, t2)
    ensures seed == 0 && t1 + 1 < U32_MODULUS ==> ThreadSeed(seed, t1) != 0
  {
    if seed == 0 {
      var x1, x2 := (t1 + 1) % 0x1_0000_0000, (t2 + 1) % 0x1_0000_0000;
      assert x1 != x2;
      SeedFactorInjective(x1, x2);
      if t1 + 1 < U32_MODULUS {
        SeedFactorNonZero(x1);
      }
    } else {
      OffsetInjective(seed, t1, t2);
    }
  }

  /** Distinct residues stay distinct once multiplied by 12345 modulo 2^32. */
  lemma SeedFactorInjective(x: int, y: int)
    requires 0 <= x < 0x1_0000_0000 && 0 <= y < 0x1_0000_0000 && x != y
    ensures (x * 12345) % 0x1_0000_0000 != (y * 12345) % 0x1_0000_0000
  {
    TimesSeedFactorCancels(x);
    TimesSeedFactorCancels(y);
  }

  /** A nonzero residue times 12345 is nonzero modulo 2^32. */
  lemma SeedFactorNonZero(x: int)
    requires 0 < x < 0x1_0000_0000
    ensures (x * 12345) % 0x1_0000_0000 != 0
  {
    TimesSeedFactorCancels(x);
  }

  /** Adding a fixed seed modulo 2^32 keeps distinct thread indices distinct. */
  lemma OffsetInjective(seed: nat, t1: nat, t2: nat)
    requires seed < U32_MODULUS && t1 < U32_MODULUS && t2 < U32_MODULUS && t1 != t2
    ensures (seed + t1 % 0x1_0000_0000) % 0x1_0000_0000 != (seed + t2 % 0x1_0000_0000) % 0x1_0000_0000
  {
    assert t1 % 0x1_0000_0000 == t1 && t2 % 0x1_0000_0000 == t2;
  }

  /** A given seed can still wrap to 0, which makes that thread fall back to a random seed. */
  lemma ThreadSeedCanWrapToZero()
    ensures ThreadSeed(0xFFFF_FFFF, 1) == 0
  {
  }

  /** What `main` runs once the arguments are parsed. */
  datatype Run =
    | MultiThreadedReadme(numThreads: nat, numTicks: nat, seed: nat)
    | Readme(numTicks: nat, seed: nat)
    | CompareConfigurations(numCars: nat, numTicks: nat)
    | Profile(numCars: nat, numTicks: nat, enableSubphase: bool)

  function Dispatch(a: BenchmarkArgs): (r: Run)
    ensures r.MultiThreadedReadme? ==> r.numThreads == a.numThreads > 1
    ensures r.Readme? || r.MultiThreadedReadme? ==> r.seed == a.seed
    ensures r.CompareConfigurations? || r.Profile? ==> r.numCars == a.numCars
  {
    match a.mode
    case README =>
      if a.numThreads > 1 then MultiThreadedReadme(a.numThreads, a.numTicks, a.seed)
      else Readme(a.numTicks, a.seed)
    case PROFILE =>
      if a.compareConfigs then CompareConfigurations(a.numCars, a.numTicks)
      else Profile(a.numCars, a.numTicks, !a.noSubphase)
  }

  /**
   * The threaded run happens exactly in README mode with more than one
   * thread; the compare flag matters only in profile mode, and sub-phase
   * profiling is on unless `--no-subphase` was given.
   */
  lemma DispatchCases(a: BenchmarkArgs)
    ensures Dispatch(a).MultiThreadedReadme? <==> a.mode == README && a.numThreads > 1
    ensures Dispatch(a).Readme? <==> a.mode == README && a.numThreads <= 1
    ensures Dispatch(a).CompareConfigurations? <==> a.mode == PROFILE && a.compareConfigs
    ensures Dispatch(a).Profile? ==> Dispatch(a).enableSubphase == !a.noSubphase
    ensures Dispatch(a).numTicks == a.numTicks
  {
  }

  /** By default `main` runs the single-threaded README benchmark for one million ticks with seed 0. */
  lemma DefaultRun(argv: seq<string>)
    requires |argv| <= 1
    ensures Parse(argv).Parsed? && Dispatch(Parse(argv).args) == Readme(1000000, 0)
  {
  }
}

=== FILE: phase_profiler.dfy ===
/**
 * The phase profiler of the benchmarks: a collector that turns the arena's
 * phase start/end events into per-phase timing samples, the batching loop
 * that times `Arena::Step`, and the split of the reported phases into
 * top-level phases and car sub-phases.
 *
 * Clock readings are parameters (`now`, per-batch durations); durations are
 * reals. The phase events `Step` reports during each timed batch are a
 * parameter as well, since the modelled `Step` does not run the simulation
 * phases that emit them.
 */
module PhaseProf {
  import opened Wrappers
  import opened ArenaModel
  import opened RLViserBytes
  import opened RLViserRecords
  import opened GameModes

  // ---------------------------------------------------------------------------
  // Timer
  // ---------------------------------------------------------------------------

  /** `ProfilerUtils::Timer`: two time points and a running flag. */
  datatype Timer = Timer(startTime: real, endTime: real, running: bool)

  /** A default-constructed (or reset) timer: both time points zero, not running. */
  const STOPPED: Timer := Timer(0.0, 0.0, false)

  /** `Start()`: remember the current time and run. */
  function Start(t: Timer, now: real): (r: Timer)
    ensures r.running && r.startTime == now && r.endTime == t.endTime
  {
    t.(startTime := now, running := true)
  }

  /** `Stop()`: only a running timer takes the current time as its end. */
  function Stop(t: Timer, now: real): (r: Timer)
    ensures !r.running && r.startTime == t.startTime
    ensures t.running ==> r.endTime == now
    ensures !t.running ==> r == t
  {
    if t.running then t.(endTime := now, running := false) else t
  }

  /** `GetElapsedSeconds()`: up to now while running, else from start to end. */
  function Elapsed(t: Timer, now: real): (r: real)
    ensures r == Stop(t, now).endTime - t.startTime
  {
    if t.running then now - t.startTime else t.endTime - t.startTime
  }

  /** A timer started at `a` and stopped at `b` measures `b - a`, whenever it is read. */
  lemma StartStopMeasures(t: Timer, a: real, b: real, later: real)
    ensures Elapsed(Stop(Start(t, a), b), later) == b - a
  {
  }

  /** Stopping twice is stopping once. */
  lemma StopIdempotent(t: Timer, a: real, b: real)
    ensures Stop(Stop(t, a), b) == Stop(t, a)
  {
  }

  // ---------------------------------------------------------------------------
  // The collector's bookkeeping, as values
  // ---------------------------------------------------------------------------

  /** The collector's two maps: `active_timers_` and `phase_stats_` (the samples of each phase). */
  datatype Collector = Collector(timers: map<string, Timer>, stats: map<string, seq<real>>)

  const EMPTY: Collector := Collector(map[], map[])

  /** Every timed phase has a stats entry and vice versa: the two maps grow together. */
  predicate Consistent(c: Collector)
  {
    c.timers.Keys == c.stats.Keys
  }

  /** `OnPhaseStart`: a name not seen before gets a fresh timer and empty stats; its timer starts. */
  function PhaseStart(c: Collector, name: string, now: real): (r: Collector)
    ensures r.timers.Keys == c.timers.Keys + {name} && c.stats.Keys <= r.stats.Keys
    ensures r.timers[name].running && r.timers[name].startTime == now
    ensures Consistent(c) ==> Consistent(r)
  {
    if name !in c.timers then
      Collector(c.timers[name := Start(STOPPED, now)], c.stats[name := []])
    else
      Collector(c.timers[name := Start(c.timers[name], now)], c.stats)
  }

  /** The samples `phase_stats_[name]` yields: `operator[]` default-constructs a missing entry. */
  function SamplesOf(stats: map<string, seq<real>>, name: string): seq<real>
  {
    if name in stats then stats[name] else []
  }

  /** `OnPhaseEnd`: an unknown name is ignored; a known one stops, records its elapsed time and resets. */
  function PhaseEnd(c: Collector, name: string, now: real): (r: Collector)
    ensures r.timers.Keys == c.timers.Keys && c.stats.Keys <= r.stats.Keys
    ensures Consistent(c) ==> Consistent(r)
    ensures name !in c.timers ==> r == c
    ensures name in c.timers ==> r.timers[name] == STOPPED && name in r.stats && |r.stats[name]| == |SamplesOf(c.stats, name)| + 1
  {
    if name !in c.timers then c
    else
      var t := Stop(c.timers[name], now);
      Collector(c.timers[name := STOPPED], c.stats[name := SamplesOf(c.stats, name) + [Elapsed(t, now)]])
  }

  /** Starting a phase keeps every stats entry it finds, and adds an empty one only for a new name. */
  lemma PhaseStartKeepsStats(c: Collector, name: string, now: real)
    ensures var d := PhaseStart(c, name, now);
      d.timers.Keys == c.timers.Keys + {name} &&
      d.timers[name].running && d.timers[name].startTime == now &&
      (forall n :: n in c.stats && (n != name || name in c.timers) ==> n in d.stats && d.stats[n] == c.stats[n]) &&
      (name !in c.timers ==> d.stats[name] == []) &&
      (Consistent(c) ==> Consistent(d))
  {
  }

  /** Ending a phase that was never started changes nothing. */
  lemma PhaseEndUnknown(c: Collector, name: string, now: real)
    requires name !in c.timers
    ensures PhaseEnd(c, name, now) == c
  {
  }

  /** Ending a known phase appends exactly one sample to it, resets its timer and
      leaves every other phase alone. */
  lemma PhaseEndAppendsOne(c: Collector, name: string, now: real)
    requires Consistent(c) && name in c.timers
    ensures var d := PhaseEnd(c, name, now);
      Consistent(d) &&
      d.timers.Keys == c.timers.Keys && d.timers[name] == STOPPED &&
      |d.stats[name]| == |c.stats[name]| + 1 && d.stats[name][..|c.stats[name]|] == c.stats[name] &&
      (forall n :: n in c.stats && n != name ==> d.stats[n] == c.stats[n] && d.timers[n] == c.timers[n])
  {
    var d := PhaseEnd(c, name, now);
    assert d.stats[name] == c.stats[name] + [Elapsed(Stop(c.timers[name], now), now)];
  }

  /** A start at `a` followed by an end at `b` records the sample `b - a`. */
  lemma StartThenEndRecordsDuration(c: Collector, name: string, a: real, b: real)
    requires Consistent(c)
    ensures var d := PhaseEnd(PhaseStart(c, name, a), name, b);
      d.stats[name] == SamplesOf(c.stats, name) + [b - a] && d.timers[name] == STOPPED
  {
    StartStopMeasures(SamplesTimer(c, name), a, b, b);
  }

  /** The timer `PhaseStart` restarts: the existing one, or a fresh one. */
  function SamplesTimer(c: Collector, name: string): Timer
  {
    if name in c.timers then c.timers[name] else STOPPED
  }

  /** A second end without a new start records a zero duration: the reset timer measures nothing. */
  lemma EndTwiceRecordsZero(c: Collector, name: string, a: real, b: real)
    requires Consistent(c) && name in c.timers
    ensures var d := PhaseEnd(c, name, a);
      PhaseEnd(d, name, b).stats[name] == d.stats[name] + [0.0]
  {
  }

  /** One profiler callback: the phase name, whether it starts or ends, and the clock reading. */
  datatype PhaseEvent = PhaseEvent(name: string, isStart: bool, now: real)

  /** The callback `ProfileStep` installs: a start goes to `OnPhaseStart`, an end to `OnPhaseEnd`. */
  function Dispatch(c: Collector, e: PhaseEvent): (r: Collector)
    ensures Consistent(c) ==> Consistent(r)
    ensures c.stats.Keys <= r.stats.Keys
  {
    if e.isStart then PhaseStart(c, e.name, e.now) else PhaseEnd(c, e.name, e.now)
  }

  /** The collector after a sequence of callbacks, in order: it stays consistent and
      never loses a phase it knew. */
  function Replay(c: Collector, events: seq<PhaseEvent>): (r: Collector)
    ensures Consistent(c) ==> Consistent(r)
    ensures c.stats.Keys <= r.stats.Keys
    decreases |events|
  {
    if |events| == 0 then c else Replay(Dispatch(c, events[0]), events[1..])
  }

  /** Callbacks delivered in two runs leave the collector as if delivered in one. */
  lemma {:induction false} ReplayAppend(c: Collector, a: seq<PhaseEvent>, b: seq<PhaseEvent>)
    ensures Replay(c, a + b) == Replay(Replay(c, a), b)
    decreases |a|
  {
    if |a| > 0 {
      assert (a + b)[0] == a[0];
      assert (a + b)[1..] == a[1..] + b;
      ReplayAppend(Dispatch(c, a[0]), a[1..], b);
    } else {
      assert a + b == b;
    }
  }

  /** The number of end events for `name`. */
  function EndsOf(events: seq<PhaseEvent>, name: string): nat
    decreases |events|
  {
    if |events| == 0 then 0
    else (if !events[0].isStart && events[0].name == name then 1 else 0) + EndsOf(events[1..], name)
  }

  /** Callbacks keep the maps consistent and never drop a phase; a phase already known
      gains exactly one sample per end event for it, and keeps its earlier samples. */
  lemma {:induction false} ReplayCountsEnds(c: Collector, events: seq<PhaseEvent>, name: string)
    requires Consistent(c) && name in c.stats
    ensures var d := Replay(c, events);
      Consistent(d) && c.stats.Keys <= d.stats.Keys &&
      |d.stats[name]| == |c.stats[name]| + EndsOf(events, name) &&
      d.stats[name][..|c.stats[name]|] == c.stats[name]
    decreases |events|
  {
    if |events| > 0 {
      var e := events[0];
      var c1 := Dispatch(c, e);
      if e.isStart {
        PhaseStartKeepsStats(c, e.name, e.now);
      } else if e.name in c.timers {
        PhaseEndAppendsOne(c, e.name, e.now);
      } else {
        PhaseEndUnknown(c, e.name, e.now);
      }
      assert Consistent(c1) && name in c1.stats && c.stats.Keys <= c1.stats.Keys;
      assert |c1.stats[name]| == |c.stats[name]| + (if !e.isStart && e.name == name then 1 else 0);
      assert c1.stats[name][..|c.stats[name]|] == c.stats[name];
      ReplayCountsEnds(c1, events[1..], name);
      var d := Replay(c1, events[1..]);
      assert d == Replay(c, events);
      assert d.stats[name][..|c1.stats[name]|] == c1.stats[name];
      assert d.stats[name][..|c.stats[name]|] == c1.stats[name][..|c.stats[name]|];
    }
  }

  /** The destructor's first loop: every running timer is stopped at `now`. */
  function FinalTimers(timers: map<string, Timer>, now: real): (r: map<string, Timer>)
    ensures r.Keys == timers.Keys
    ensures forall n :: n in r ==> !r[n].running
  {
    map n | n in timers :: Stop(timers[n], now)
  }

  /** The destructor's first loop: each phase whose timer was still running gets
      the time from its start to `now` as one more sample. */
  function FinalStats(timers: map<string, Timer>, stats: map<string, seq<real>>, now: real): (r: map<string, seq<real>>)
    ensures r.Keys == stats.Keys
    ensures forall n :: n in stats ==> |stats[n]| <= |r[n]| <= |stats[n]| + 1 && r[n][..|stats[n]|] == stats[n]
  {
    map n | n in stats :: if n in timers && timers[n].running then stats[n] + [now - timers[n].startTime] else stats[n]
  }

  lemma FinalTimersPointwise(t0: map<string, Timer>, timers: map<string, Timer>, now: real)
    requires timers.Keys == t0.Keys && forall n :: n in t0 ==> timers[n] == Stop(t0[n], now)
    ensures timers == FinalTimers(t0, now)
  {
  }

  lemma FinalStatsPointwise(t0: map<string, Timer>, s0: map<string, seq<real>>, stats: map<string, seq<real>>, now: real)
    requires stats.Keys == s0.Keys
    requires forall n :: n in s0 ==>
      stats[n] == (if n in t0 && t0[n].running then s0[n] + [now - t0[n].startTime] else s0[n])
    ensures stats == FinalStats(t0, s0, now)
  {
  }

  /** One `PhaseTiming`: the phase name, its samples, its total time and its sample count. */
  datatype PhaseTiming = PhaseTiming(phaseName: string, samples: seq<real>, totalTimeSeconds: real, sampleCount: nat)

  /** The destructor's second loop: `result_.phases[name]` gets the name, the samples and
      `sample_count = Count()` of every stats entry; its total time is kept (0 for a new entry). */
  function StoreResults(phases: map<string, PhaseTiming>, stats: map<string, seq<real>>): (r: map<string, PhaseTiming>)
    ensures r.Keys == phases.Keys + stats.Keys
    ensures forall n :: n in stats ==> r[n].samples == stats[n] && r[n].sampleCount == |stats[n]|
    ensures forall n :: n in phases && n !in stats ==> r[n] == phases[n]
  {
    map n | n in phases.Keys + stats.Keys ::
      if n in stats then
        PhaseTiming(n, stats[n], if n in phases then phases[n].totalTimeSeconds else 0.0, |stats[n]|)
      else phases[n]
  }

  /** After finalising, no timer runs, and each phase gained one sample exactly when its timer was running. */
  lemma FinalizeStopsAll(c: Collector, now: real)
    requires Consistent(c)
    ensures forall n :: n in FinalTimers(c.timers, now) ==> !FinalTimers(c.timers, now)[n].running
    ensures forall n :: n in c.stats ==>
      |FinalStats(c.timers, c.stats, now)[n]| == |c.stats[n]| + (if c.timers[n].running then 1 else 0)
    ensures forall n :: n in c.stats && !c.timers[n].running ==> FinalStats(c.timers, c.stats, now)[n] == c.stats[n]
  {
  }

  /** Every stats entry becomes a result entry whose count is its number of samples;
      result entries without stats are left as they were, and nothing else appears. */
  lemma StoreResultsCounts(phases: map<string, PhaseTiming>, stats: map<string, seq<real>>)
    ensures var r := StoreResults(phases, stats);
      r.Keys == phases.Keys + stats.Keys &&
      (forall n :: n in stats ==> r[n].phaseName == n && r[n].samples == stats[n] && r[n].sampleCount == |stats[n]|) &&
      (forall n :: n in phases && n !in stats ==> r[n] == phases[n])
  {
  }

  /** A collector that saw no phase leaves the results as they were. */
  lemma FinalizeNothing(phases: map<string, PhaseTiming>, now: real)
    ensures FinalTimers(map[], now) == map[] && FinalStats(map[], map[], now) == map[]
    ensures StoreResults(phases, map[]) == phases
  {
  }

  // ---------------------------------------------------------------------------
  // The collector and the result it fills in, as objects
  // ---------------------------------------------------------------------------

  /** The part of `ProfileResult` the profiler writes. */
  class ProfileResult {
    var phases: map<string, PhaseTiming>
    var ticksSimulated: nat
    var totalTimeSeconds: real

    constructor ()
      ensures phases == map[] && ticksSimulated == 0 && totalTimeSeconds == 0.0
    {
      phases := map[];
      ticksSimulated := 0;
      totalTimeSeconds := 0.0;
    }
  }

  class PhaseProfilerCollector {
    /** The result the destructor writes into. */
    const result: ProfileResult
    var activeTimers: map<string, Timer>
    var phaseStats: map<string, seq<real>>

    function State(): Collector
      reads this
    {
      Collector(activeTimers, phaseStats)
    }

    constructor (result: ProfileResult)
      ensures this.result == result && State() == EMPTY
    {
      this.result := result;
      activeTimers := map[];
      phaseStats := map[];
    }

    method OnPhaseStart(name: string, now: real)
      modifies this
      ensures State() == PhaseStart(old(State()), name, now)
    {
      if name !in activeTimers {
        activeTimers := activeTimers[name := STOPPED];
        phaseStats := phaseStats[name := []];
      }
      activeTimers := activeTimers[name := Start(activeTimers[name], now)];
    }

    method OnPhaseEnd(name: string, now: real)
      modifies this
      ensures State() == PhaseEnd(old(State()), name, now)
    {
      if name in activeTimers {
        activeTimers := activeTimers[name := Stop(activeTimers[name], now)];
        var elapsed := Elapsed(activeTimers[name], now);
        var prior := SamplesOf(phaseStats, name);
        phaseStats := phaseStats[name := prior + [elapsed]];
        activeTimers := activeTimers[name := STOPPED];
      }
    }

    /** The callback installed with `SetProfilerCallback`, with this collector as its user info. */
    method OnPhase(e: PhaseEvent)
      modifies this
      ensures State() == Dispatch(old(State()), e)
    {
      if e.isStart {
        OnPhaseStart(e.name, e.now);
      } else {
        OnPhaseEnd(e.name, e.now);
      }
    }

    /** The callbacks one `Step` call makes, handed over one at a time. */
    method OnPhases(events: seq<PhaseEvent>)
      modifies this
      ensures State() == Replay(old(State()), events)
    {
      var i := 0;
      while i < |events|
        invariant 0 <= i <= |events|
        invariant Replay(State(), events[i..]) == Replay(old(State()), events)
      {
        assert events[i..][1..] == events[i + 1..];
        OnPhase(events[i]);
        i := i + 1;
      }
    }

    /** The destructor, run at `now`: stop the running timers and record their time,
        then write one `PhaseTiming` per phase into the result. */
    method Finalize(now: real)
      modifies this, result
      ensures activeTimers == FinalTimers(old(activeTimers), now)
      ensures phaseStats == FinalStats(old(activeTimers), old(phaseStats), now)
      ensures result.phases == StoreResults(old(result.phases), phaseStats)
      ensures result.ticksSimulated == old(result.ticksSimulated)
      ensures result.totalTimeSeconds == old(result.totalTimeSeconds)
    {
      StopTimers(now);
      StorePhases();
    }

    /** The destructor's first loop, over `active_timers_`. */
    method StopTimers(now: real)
      modifies this
      ensures activeTimers == FinalTimers(old(activeTimers), now)
      ensures phaseStats == FinalStats(old(activeTimers), old(phaseStats), now)
    {
      ghost var t0, s0 := activeTimers, phaseStats;
      var todo := activeTimers.Keys;
      while todo != {}
        invariant todo <= t0.Keys && activeTimers.Keys == t0.Keys && phaseStats.Keys == s0.Keys
        invariant forall n :: n in todo ==> activeTimers[n] == t0[n]
        invariant forall n :: n in t0 && n !in todo ==> activeTimers[n] == Stop(t0[n], now)
        invariant forall n :: n in s0 && (n !in t0 || n in todo || !t0[n].running) ==> phaseStats[n] == s0[n]
        invariant forall n :: n in s0 && n in t0 && n !in todo && t0[n].running ==>
          phaseStats[n] == s0[n] + [now - t0[n].startTime]
        decreases todo
      {
        var name :| name in todo;
        var timer := activeTimers[name];
        if timer.running {
          timer := Stop(timer, now);
          activeTimers := activeTimers[name := timer];
          var elapsed := Elapsed(timer, now);
          if name in phaseStats {
            phaseStats := phaseStats[name := phaseStats[name] + [elapsed]];
          }
        }
        todo := todo - {name};
      }
      FinalTimersPointwise(t0, activeTimers, now);
      FinalStatsPointwise(t0, s0, phaseStats, now);
    }

    /** The destructor's second loop, over `phase_stats_`. */
    method StorePhases()
      modifies result
      ensures result.phases == StoreResults(old(result.phases), phaseStats)
      ensures result.ticksSimulated == old(result.ticksSimulated)
      ensures result.totalTimeSeconds == old(result.totalTimeSeconds)
    {
      ghost var p0 := result.phases;
      var left := phaseStats.Keys;
      while left != {}
        invariant left <= phaseStats.Keys
        invariant result.phases.Keys == p0.Keys + (phaseStats.Keys - left)
        invariant forall n :: n in phaseStats && n !in left ==>
          result.phases[n] == PhaseTiming(n, phaseStats[n], if n in p0 then p0[n].totalTimeSeconds else 0.0, |phaseStats[n]|)
        invariant forall n :: n in p0 && (n !in phaseStats || n in left) ==> result.phases[n] == p0[n]
        invariant result.ticksSimulated == old(result.ticksSimulated)
        invariant result.totalTimeSeconds == old(result.totalTimeSeconds)
        decreases left
      {
        var name :| name in left;
        var stats := phaseStats[name];
        var total := if name in result.phases then result.phases[name].totalTimeSeconds else 0.0;
        result.phases := result.phases[name := PhaseTiming(name, stats, total, |stats|)];
        left := left - {name};
      }
      assert result.phases == StoreResults(p0, phaseStats);
    }
  }

  // ---------------------------------------------------------------------------
  // ProfileStep's batching
  // ---------------------------------------------------------------------------

  const INT_MAX: int := 0x7FFF_FFFF
  const U32_MODULUS: int := 0x1_0000_0000
  const TOTAL_STEP: string := "Total Step"

  /** `sample_interval = std::max(1ULL, num_ticks / 10000)`. */
  function Interval(numTicks: nat): (r: nat)
    ensures r >= 1 && r >= numTicks / 10000
    ensures numTicks >= 20000 ==> r == numTicks / 10000
  {
    if numTicks / 10000 > 1 then numTicks / 10000 else 1
  }

  /** The batch sizes from tick `done` on: `min(interval, num_ticks - current_tick)` until done. */
  function BatchesFrom(numTicks: nat, interval: nat, done: nat): (r: seq<nat>)
    requires interval >= 1
    ensures forall k :: 0 <= k < |r| ==> 1 <= r[k] <= interval
    decreases numTicks - done
  {
    if done >= numTicks then []
    else
      var b := if interval < numTicks - done then interval else numTicks - done;
      [b] + BatchesFrom(numTicks, interval, done + b)
  }

  /** The batches of one `ProfileStep(num_ticks)`. */
  function Batches(numTicks: nat): (r: seq<nat>)
    ensures forall k :: 0 <= k < |r| ==> 1 <= r[k] <= Interval(numTicks)
    ensures r == [] <==> numTicks == 0
  {
    BatchesFrom(numTicks, Interval(numTicks), 0)
  }

  function Sum(s: seq<nat>): nat
    decreases |s|
  {
    if |s| == 0 then 0 else s[0] + Sum(s[1..])
  }

  lemma SumAppend(s: seq<nat>, x: nat)
    ensures Sum(s + [x]) == Sum(s) + x
    decreases |s|
  {
    if |s| > 0 {
      assert (s + [x])[1..] == s[1..] + [x];
      SumAppend(s[1..], x);
    }
  }

  /** The batches cover the remaining ticks exactly, all but the last are full, and
      there are as many as it takes intervals to cover the remaining ticks. */
  lemma {:induction false} BatchesCover(numTicks: nat, interval: nat, done: nat)
    requires interval >= 1 && done <= numTicks
    ensures var bs := BatchesFrom(numTicks, interval, done);
      Sum(bs) == numTicks - done &&
      (forall k :: 0 <= k < |bs| - 1 ==> bs[k] == interval) &&
      (|bs| - 1) * interval < numTicks - done <= |bs| * interval
    decreases numTicks - done
  {
    var bs := BatchesFrom(numTicks, interval, done);
    if done < numTicks {
      var b := if interval < numTicks - done then interval else numTicks - done;
      BatchesCover(numTicks, interval, done + b);
      var rest := BatchesFrom(numTicks, interval, done + b);
      assert bs == [b] + rest;
      assert bs[1..] == rest;
      var m := |rest|;
      assert |bs| == m + 1;
      MulSucc(m, interval);
      if b < interval {
        assert m == 0;
      }
    }
  }

  /** With `num_ticks` ticks: the batches sum to `num_ticks`, none exceeds the interval,
      and their number is ceil(num_ticks / interval); up to 10000 ticks every tick is its own batch. */
  lemma BatchesOfRun(numTicks: nat)
    ensures var bs := Batches(numTicks);
      Sum(bs) == numTicks &&
      (forall k :: 0 <= k < |bs| ==> 1 <= bs[k] <= Interval(numTicks)) &&
      (|bs| - 1) * Interval(numTicks) < numTicks <= |bs| * Interval(numTicks)
    ensures numTicks <= 10000 ==> |Batches(numTicks)| == numTicks
  {
    BatchesCover(numTicks, Interval(numTicks), 0);
  }

  /** `static_cast<int>` of a batch size: the low 32 bits, read as a signed int. */
  function Int32Cast(x: nat): (r: int)
    ensures -INT_MAX - 1 <= r <= INT_MAX
    ensures x <= INT_MAX ==> r == x
    ensures r <= x
  {
    var low := x % U32_MODULUS;
    if low <= INT_MAX then low else low - U32_MODULUS
  }

  /** The ticks `Step` actually runs for each batch, after the cast. */
  function TicksStepped(bs: seq<nat>): (r: nat)
    ensures r <= Sum(bs)
    decreases |bs|
  {
    if |bs| == 0 then 0
    else
      var init, last := bs[..|bs| - 1], bs[|bs| - 1];
      SumAppend(init, last);
      assert init + [last] == bs;
      TicksStepped(init) + TicksRun(Int32Cast(last))
  }

  /** While the interval fits an `int`, every batch is stepped in full: the run is `num_ticks` ticks. */
  lemma {:induction false} TicksSteppedExact(bs: seq<nat>, interval: nat)
    requires interval <= INT_MAX
    requires forall k :: 0 <= k < |bs| ==> bs[k] <= interval
    ensures TicksStepped(bs) == Sum(bs)
    decreases |bs|
  {
    if |bs| > 0 {
      var init := bs[..|bs| - 1];
      TicksSteppedExact(init, interval);
      assert bs == init + [bs[|bs| - 1]];
      SumAppend(init, bs[|bs| - 1]);
    }
  }

  /** The largest run whose interval still fits an `int`. */
  const MAX_EXACT_TICKS: int := (INT_MAX + 1) * 10000 - 1

  lemma ExactRun(numTicks: nat)
    requires numTicks <= MAX_EXACT_TICKS
    ensures TicksStepped(Batches(numTicks)) == numTicks
  {
    BatchesOfRun(numTicks);
    TicksSteppedExact(Batches(numTicks), Interval(numTicks));
  }

  /** Beyond that, the cast turns a batch of 2^31 ticks into a negative count, and `Step` runs none of it. */
  lemma OversizedBatchRunsNothing()
    ensures Interval(MAX_EXACT_TICKS + 1) == INT_MAX + 1
    ensures TicksRun(Int32Cast(Interval(MAX_EXACT_TICKS + 1))) == 0
  {
  }

  /** The "Total Step" samples: each batch's duration divided by its tick count, in batch order. */
  function StepSamples(bs: seq<nat>, batchSeconds: nat -> real): (r: seq<real>)
    requires forall k :: 0 <= k < |bs| ==> bs[k] >= 1
    ensures |r| == |bs|
    decreases |bs|
  {
    if |bs| == 0 then []
    else StepSamples(bs[..|bs| - 1], batchSeconds) + [batchSeconds(|bs| - 1) / bs[|bs| - 1] as real]
  }

  /** The k-th sample is the k-th batch's duration per tick. */
  lemma {:induction false} StepSampleAt(bs: seq<nat>, batchSeconds: nat -> real, k: nat)
    requires forall j :: 0 <= j < |bs| ==> bs[j] >= 1
    requires k < |bs|
    ensures StepSamples(bs, batchSeconds)[k] == batchSeconds(k) / bs[k] as real
    decreases |bs|
  {
    if k < |bs| - 1 {
      StepSampleAt(bs[..|bs| - 1], batchSeconds, k);
    }
  }

  /** The batch the loop computes at `current_tick` is the next one of the run. */
  lemma NextBatch(numTicks: nat, interval: nat, currentTick: nat, bs: seq<nat>, k: nat)
    requires interval >= 1 && currentTick < numTicks && k <= |bs|
    requires BatchesFrom(numTicks, interval, currentTick) == bs[k..]
    ensures var batch := if interval < numTicks - currentTick then interval else numTicks - currentTick;
      k < |bs| && bs[k] == batch && BatchesFrom(numTicks, interval, currentTick + batch) == bs[k + 1..]
  {
    var batch := if interval < numTicks - currentTick then interval else numTicks - currentTick;
    assert bs[k..] == [batch] + BatchesFrom(numTicks, interval, currentTick + batch);
    assert bs[k..][1..] == bs[k + 1..];
  }

  /** One more batch extends the samples and the stepped ticks by that batch. */
  lemma BatchPrefix(bs: seq<nat>, k: nat, batchSeconds: nat -> real)
    requires k < |bs| && forall j :: 0 <= j < |bs| ==> bs[j] >= 1
    ensures StepSamples(bs[..k + 1], batchSeconds) == StepSamples(bs[..k], batchSeconds) + [batchSeconds(k) / bs[k] as real]
    ensures TicksStepped(bs[..k + 1]) == TicksStepped(bs[..k]) + TicksRun(Int32Cast(bs[k]))
  {
    assert bs[..k + 1][..k] == bs[..k];
  }

  /** The timed loop after `k` batches: `current_tick` ticks are covered, the rest of the
      batches are still to come, the samples are those of the first `k` batches and the
      arena's counter has moved from `t0` by the ticks those batches ran. */
  ghost predicate Progress(numTicks: nat, batchSeconds: nat -> real, t0: u64, k: nat, currentTick: nat,
                           samples: seq<real>, tick: u64,
                           events: nat -> seq<PhaseEvent>, c0: Collector, c: Collector)
  {
    var bs := Batches(numTicks);
    k <= |bs| && currentTick <= numTicks &&
    BatchesFrom(numTicks, Interval(numTicks), currentTick) == bs[k..] &&
    samples == StepSamples(bs[..k], batchSeconds) &&
    tick == TickAfter(t0, TicksStepped(bs[..k])) &&
    c == Replay(c0, EventsUpTo(events, k))
  }

  lemma ProgressStep(numTicks: nat, batchSeconds: nat -> real, t0: u64, k: nat, currentTick: nat,
                     samples: seq<real>, tick: u64, events: nat -> seq<PhaseEvent>, c0: Collector, c: Collector)
    requires Progress(numTicks, batchSeconds, t0, k, currentTick, samples, tick, events, c0, c)
    requires currentTick < numTicks
    ensures var interval := Interval(numTicks);
      var batch := if interval < numTicks - currentTick then interval else numTicks - currentTick;
      batch >= 1 &&
      Progress(numTicks, batchSeconds, t0, k + 1, currentTick + batch,
               samples + [batchSeconds(k) / batch as real], TickAfter(tick, TicksRun(Int32Cast(batch))),
               events, c0, Replay(c, events(k)))
  {
    var bs := Batches(numTicks);
    NextBatch(numTicks, Interval(numTicks), currentTick, bs, k);
    BatchPrefix(bs, k, batchSeconds);
    TickAfterCompose(t0, TicksStepped(bs[..k]), TicksRun(Int32Cast(bs[k])));
    ReplayNextBatch(c0, events, k, c);
  }

  lemma ProgressDone(numTicks: nat, batchSeconds: nat -> real, t0: u64, k: nat, currentTick: nat,
                     samples: seq<real>, tick: u64, events: nat -> seq<PhaseEvent>, c0: Collector, c: Collector)
    requires Progress(numTicks, batchSeconds, t0, k, currentTick, samples, tick, events, c0, c)
    requires currentTick >= numTicks
    ensures c == Replay(c0, EventsUpTo(events, |Batches(numTicks)|))
    ensures samples == StepSamples(Batches(numTicks), batchSeconds)
    ensures tick == TickAfter(t0, TicksStepped(Batches(numTicks)))
  {
    var bs := Batches(numTicks);
    assert bs[..k] == bs;
  }

  /** The callbacks of the first `k` batches, in order: `events(j)` is what `Step`
      reports to the installed callback while it runs the j-th batch. */
  function EventsUpTo(events: nat -> seq<PhaseEvent>, k: nat): seq<PhaseEvent>
  {
    if k == 0 then [] else EventsUpTo(events, k - 1) + events(k - 1)
  }

  /** Delivering one more batch's callbacks extends the replay by that batch. */
  lemma ReplayNextBatch(c0: Collector, events: nat -> seq<PhaseEvent>, k: nat, c: Collector)
    requires c == Replay(c0, EventsUpTo(events, k))
    ensures Replay(c, events(k)) == Replay(c0, EventsUpTo(events, k + 1))
  {
    ReplayAppend(c0, EventsUpTo(events, k), events(k));
  }

  /** The collector state the timed batches leave: a fresh collector fed every batch's callbacks. */
  function CollectedBy(numTicks: nat, events: nat -> seq<PhaseEvent>): (r: Collector)
    ensures Consistent(r)
  {
    Replay(EMPTY, EventsUpTo(events, |Batches(numTicks)|))
  }

  /** `ProfileStep`'s warm-up: 100 single-tick steps. */
  method WarmUp(arena: Arena)
    modifies arena, arena.contactTracker
    ensures arena.tickCount == TickAfter(old(arena.tickCount), 100)
    ensures arena.State() == old(arena.State()).(tickCount := arena.tickCount)
  {
    for i := 0 to 100
      invariant arena.tickCount == TickAfter(old(arena.tickCount), i)
      invariant arena.State() == old(arena.State()).(tickCount := arena.tickCount)
    {
      arena.Step(1);
      TickAfterCompose(old(arena.tickCount), i, 1);
    }
  }

  /** One timed batch: `Step` runs it, and the callbacks it reports reach the collector. */
  method StepBatch(arena: Arena, ticks: int, collector: PhaseProfilerCollector, batchEvents: seq<PhaseEvent>)
    modifies arena, arena.contactTracker, collector
    ensures arena.tickCount == TickAfter(old(arena.tickCount), TicksRun(ticks))
    ensures arena.State() == old(arena.State()).(tickCount := arena.tickCount)
    ensures collector.State() == Replay(old(collector.State()), batchEvents)
  {
    arena.Step(ticks);
    collector.OnPhases(batchEvents);
  }

  /** `ProfileStep`'s timed loop: step the arena batch by batch and record each batch's
      time per tick. `batchSeconds(k)` is the duration the clock gives the k-th batch and
      `events(k)` the callbacks the collector receives during it. */
  method RunBatches(arena: Arena, numTicks: nat, batchSeconds: nat -> real,
                    collector: PhaseProfilerCollector, events: nat -> seq<PhaseEvent>)
    returns (samples: seq<real>)
    modifies arena, arena.contactTracker, collector
    ensures samples == StepSamples(Batches(numTicks), batchSeconds)
    ensures arena.tickCount == TickAfter(old(arena.tickCount), TicksStepped(Batches(numTicks)))
    ensures arena.State() == old(arena.State()).(tickCount := arena.tickCount)
    ensures collector.State() == Replay(old(collector.State()), EventsUpTo(events, |Batches(numTicks)|))
  {
    var interval := Interval(numTicks);
    ghost var t0 := arena.tickCount;
    ghost var c0 := collector.State();
    samples := [];
    var currentTick := 0;
    var k := 0;
    while currentTick < numTicks
      invariant Progress(numTicks, batchSeconds, t0, k, currentTick, samples, arena.tickCount, events, c0, collector.State())
      invariant arena.State() == old(arena.State()).(tickCount := arena.tickCount)
      decreases numTicks - currentTick
    {
      var batch := if interval < numTicks - currentTick then interval else numTicks - currentTick;
      ProgressStep(numTicks, batchSeconds, t0, k, currentTick, samples, arena.tickCount, events, c0, collector.State());
      StepBatch(arena, Int32Cast(batch), collector, events(k));
      samples := samples + [batchSeconds(k) / batch as real];
      currentTick := currentTick + batch;
      k := k + 1;
    }
    ProgressDone(numTicks, batchSeconds, t0, k, currentTick, samples, arena.tickCount, events, c0, collector.State());
  }

  /** `ProfileStep` between creating the collector and destroying it: install the
      callback, time the batches, store "Total Step" and clear the callback. The clock
      gives the duration of each batch and of the whole timed loop. */
  method TimedSteps(arena: Arena, numTicks: nat, result: ProfileResult, enableSubphase: bool,
                    collector: PhaseProfilerCollector, callbackFn: Handle, collectorRef: Handle,
                    batchSeconds: nat -> real, totalSeconds: real, events: nat -> seq<PhaseEvent>)
    modifies arena, arena.contactTracker, result, collector
    ensures result.ticksSimulated == old(result.ticksSimulated)
    ensures result.totalTimeSeconds == totalSeconds
    ensures var bs := Batches(numTicks);
      result.phases == old(result.phases)[TOTAL_STEP := PhaseTiming(TOTAL_STEP, StepSamples(bs, batchSeconds), totalSeconds, |bs|)]
    ensures arena.tickCount == TickAfter(old(arena.tickCount), TicksStepped(Batches(numTicks)))
    ensures arena.State() == old(arena.State()).(tickCount := arena.tickCount, profilerCallback := ProfilerSlot(None, None, true))
    ensures collector.State() == Replay(old(collector.State()), EventsUpTo(events, |Batches(numTicks)|))
  {
    arena.SetProfilerCallback(Some(callbackFn), Some(collectorRef), enableSubphase);
    var samples := RunBatches(arena, numTicks, batchSeconds, collector, events);
    result.totalTimeSeconds := totalSeconds;
    result.phases := result.phases[TOTAL_STEP := PhaseTiming(TOTAL_STEP, samples, totalSeconds, |samples|)];
    arena.SetProfilerCallback(None, None, true);
  }

  /** `ProfileStep`: 100 warm-up ticks, then the timed batches, then the collector's
      destructor at `endTime`, which adds one `PhaseTiming` per phase it saw on top of
      "Total Step". `callbackFn` and `collectorRef` stand for the installed lambda and
      the collector's address. */
  method ProfileStep(arena: Arena, numTicks: nat, result: ProfileResult, enableSubphase: bool,
                     callbackFn: Handle, collectorRef: Handle,
                     batchSeconds: nat -> real, totalSeconds: real, endTime: real,
                     events: nat -> seq<PhaseEvent>)
    modifies arena, arena.contactTracker, result
    ensures result.ticksSimulated == numTicks
    ensures result.totalTimeSeconds == totalSeconds
    ensures var bs := Batches(numTicks);
      var c := CollectedBy(numTicks, events);
      result.phases == StoreResults(
        old(result.phases)[TOTAL_STEP := PhaseTiming(TOTAL_STEP, StepSamples(bs, batchSeconds), totalSeconds, |bs|)],
        FinalStats(c.timers, c.stats, endTime))
    ensures arena.tickCount == TickAfter(old(arena.tickCount), 100 + TicksStepped(Batches(numTicks)))
    ensures arena.State() == old(arena.State()).(tickCount := arena.tickCount, profilerCallback := ProfilerSlot(None, None, true))
  {
    result.ticksSimulated := numTicks;
    WarmUp(arena);
    TickAfterCompose(old(arena.tickCount), 100, TicksStepped(Batches(numTicks)));
    var collector := new PhaseProfilerCollector(result);
    TimedSteps(arena, numTicks, result, enableSubphase, collector, callbackFn, collectorRef,
               batchSeconds, totalSeconds, events);
    ghost var c := collector.State();
    assert c == CollectedBy(numTicks, events);
    ghost var stored := result.phases;
    ghost var arenaState := arena.State();
    collector.Finalize(endTime);
    assert result.phases == StoreResults(stored, FinalStats(c.timers, c.stats, endTime));
    assert arena.State() == arenaState;
  }

  /** `RunProfile`: a fresh arena gets `num_cars` cars, blue and orange in turn, and
      `ProfileStep` advances it by the warm-up plus the ticks the batches run, which is
      `num_ticks` up to the largest exact run. "Total Step" holds one sample per batch
      unless a reported phase is itself named "Total Step". */
  method ProfileRun(gameMode: GameMode, mutatorConfig: MutatorConfig, numCars: nat, config: CarConfig,
                    numTicks: nat, enableSubphase: bool, callbackFn: Handle, collectorRef: Handle,
                    batchSeconds: nat -> real, totalSeconds: real, endTime: real,
                    events: nat -> seq<PhaseEvent>)
    returns (carCount: nat, tickCount: nat, ticksSimulated: nat, sampleCount: nat)
    requires numCars < 0xFFFF_FFFF
    ensures carCount == numCars && ticksSimulated == numTicks
    ensures tickCount == TickAfter(0, 100 + TicksStepped(Batches(numTicks)))
    ensures numTicks <= MAX_EXACT_TICKS ==> tickCount == 100 + numTicks
    ensures TOTAL_STEP !in CollectedBy(numTicks, events).stats ==>
      (sampleCount - 1) * Interval(numTicks) < numTicks <= sampleCount * Interval(numTicks)
  {
    var arena := new Arena(gameMode, mutatorConfig);
    var i := 0;
    while i < numCars
      invariant i <= numCars
      invariant arena.Valid() && arena.lastCarID == i && |arena.cars| == i && arena.tickCount == 0
    {
      var team := if i % 2 == 0 then BLUE else ORANGE;
      var car := arena.AddCar(team, config);
      i := i + 1;
    }
    carCount := |arena.cars|;
    var result := new ProfileResult();
    ProfileStep(arena, numTicks, result, enableSubphase, callbackFn, collectorRef,
                batchSeconds, totalSeconds, endTime, events);
    if numTicks <= MAX_EXACT_TICKS {
      ExactRun(numTicks);
    }
    BatchesOfRun(numTicks);
    tickCount := arena.tickCount;
    ticksSimulated := result.ticksSimulated;
    sampleCount := result.phases[TOTAL_STEP].sampleCount;
  }

  // ---------------------------------------------------------------------------
  // PrintProfileResults: top-level phases and car sub-phases
  // ---------------------------------------------------------------------------

  /** `phase_name.substr(0, 4) == "Car."`: a shorter name is compared whole, and never matches. */
  predicate IsCarSubPhase(name: string)
    ensures IsCarSubPhase(name) ==> |name| >= 4 && name != TOTAL_STEP
  {
    assert TOTAL_STEP[0] == 'T' && "Car."[0] == 'C';
    |name| >= 4 && name[..4] == "Car."
  }

  /** The names `keep` accepts, in their original order. */
  function Filter(names: seq<string>, keep: string -> bool): seq<string>
    decreases |names|
  {
    if |names| == 0 then []
    else (if keep(names[0]) then [names[0]] else []) + Filter(names[1..], keep)
  }

  lemma {:induction false} FilterMembers(names: seq<string>, keep: string -> bool)
    ensures forall n :: n in Filter(names, keep) <==> n in names && keep(n)
    decreases |names|
  {
    if |names| > 0 {
      FilterMembers(names[1..], keep);
      assert names == [names[0]] + names[1..];
    }
  }

  predicate IsTotalStep(name: string)
  {
    name == TOTAL_STEP
  }

  predicate IsTopLevel(name: string)
  {
    name != TOTAL_STEP && !IsCarSubPhase(name)
  }

  predicate IsListedSubPhase(name: string)
  {
    name != TOTAL_STEP && IsCarSubPhase(name)
  }

  /** The partition loop over the phases, given in the map's iteration order. */
  method PartitionPhases(names: seq<string>) returns (topLevel: seq<string>, carSubPhases: seq<string>)
    ensures topLevel == Filter(names, IsTopLevel)
    ensures carSubPhases == Filter(names, IsListedSubPhase)
  {
    topLevel, carSubPhases := [], [];
    var i := |names|;
    while i > 0
      invariant 0 <= i <= |names|
      invariant topLevel == Filter(names[i..], IsTopLevel)
      invariant carSubPhases == Filter(names[i..], IsListedSubPhase)
    {
      i := i - 1;
      assert names[i..][1..] == names[i + 1..];
      var name := names[i];
      if name == TOTAL_STEP {
        continue;
      }
      if IsCarSubPhase(name) {
        carSubPhases := [name] + carSubPhases;
      } else {
        topLevel := [name] + topLevel;
      }
    }
    assert names[0..] == names;
  }

  /** Every phase but "Total Step" lands in exactly one of the two lists, and it is a
      sub-phase exactly when its name begins with "Car.". */
  lemma PartitionExact(names: seq<string>, n: string)
    requires n in names && n != TOTAL_STEP
    ensures n in Filter(names, IsListedSubPhase) <==> |n| >= 4 && n[..4] == "Car."
    ensures n in Filter(names, IsTopLevel) <==> !(|n| >= 4 && n[..4] == "Car.")
    ensures TOTAL_STEP !in Filter(names, IsTopLevel) + Filter(names, IsListedSubPhase)
  {
    FilterMembers(names, IsTopLevel);
    FilterMembers(names, IsListedSubPhase);
  }

  /** Partitioning keeps every name once: the two lists together are as long as the
      names other than "Total Step". */
  lemma {:induction false} PartitionSizes(names: seq<string>)
    ensures |Filter(names, IsTopLevel)| + |Filter(names, IsListedSubPhase)|
         == |names| - |Filter(names, IsTotalStep)|
    decreases |names|
  {
    if |names| > 0 {
      PartitionSizes(names[1..]);
    }
  }
}

=== FILE: profiler_utils.dfy ===
/**
 * Benchmark statistics and number formatting: the `Statistics` sample list with
 * its order statistics (computed on a sorted copy), and `FormatNumber`, which
 * writes an unsigned integer with a comma between groups of three digits.
 *
 * Samples are `double`s in the source and reals here.
 */
module ProfilerStats {

  // --------------------------------------------------------- sorted copies

  predicate IsSorted(s: seq<real>)
  {
    forall i, j :: 0 <= i < j < |s| ==> s[i] <= s[j]
  }

  /** `x` placed into the sorted sequence `s` before the first larger element. */
  function InsertSorted(x: real, s: seq<real>): (r: seq<real>)
    requires IsSorted(s)
    ensures IsSorted(r) && multiset(r) == multiset(s) + multiset{x} && |r| == |s| + 1
  {
    if s == [] then [x]
    else if x <= s[0] then [x] + s
    else
      var rest := InsertSorted(x, s[1..]);
      assert s == [s[0]] + s[1..];
      assert rest[0] in multiset(rest);
      [s[0]] + rest
  }

  /** The copy `std::sort` leaves: ordered, with the same samples. */
  function SortedCopy(s: seq<real>): (r: seq<real>)
    ensures IsSorted(r) && multiset(r) == multiset(s) && |r| == |s|
  {
    if s == [] then []
    else
      assert s == [s[0]] + s[1..];
      InsertSorted(s[0], SortedCopy(s[1..]))
  }

  // ------------------------------------------------------ extreme samples

  /** The value `std::min_element` finds. */
  function MinOf(s: seq<real>): (r: real)
    requires |s| > 0
    ensures r in s && forall x :: x in s ==> r <= x
  {
    if |s| == 1 then s[0]
    else
      var m := MinOf(s[1..]);
      assert forall x :: x in s ==> x == s[0] || x in s[1..];
      if s[0] <= m then s[0] else m
  }

  /** The value `std::max_element` finds. */
  function MaxOf(s: seq<real>): (r: real)
    requires |s| > 0
    ensures r in s && forall x :: x in s ==> x <= r
  {
    if |s| == 1 then s[0]
    else
      var m := MaxOf(s[1..]);
      assert forall x :: x in s ==> x == s[0] || x in s[1..];
      if m < s[0] then s[0] else m
  }

  /** Every element of the sorted copy lies between the smallest and the largest sample. */
  lemma SortedCopyBetween(s: seq<real>, k: nat)
    requires k < |s|
    ensures MinOf(s) <= SortedCopy(s)[k] <= MaxOf(s)
  {
    var t := SortedCopy(s);
    assert t[k] in multiset(t);
    assert t[k] in s;
  }

  /** The smallest sample opens the sorted copy and the largest closes it. */
  lemma SortedCopyEnds(s: seq<real>)
    requires |s| > 0
    ensures SortedCopy(s)[0] == MinOf(s)
    ensures SortedCopy(s)[|s| - 1] == MaxOf(s)
  {
    var t := SortedCopy(s);
    var last := |s| - 1;
    assert |t| - 1 == last;
    var lo, hi := MinOf(s), MaxOf(s);
    SortedCopyBetween(s, 0);
    SortedCopyBetween(s, last);
    SameMembers(s, t, lo);
    SameMembers(s, t, hi);
    SortedBounds(t, lo);
    SortedBounds(t, hi);
    assert lo <= t[0] <= lo;
    assert hi <= t[last] <= hi;
  }

  lemma SameMembers(s: seq<real>, t: seq<real>, v: real)
    requires multiset(t) == multiset(s) && v in s
    ensures v in t
  {
    assert v in multiset(s);
  }

  /** A member of a sorted sequence lies between its first and last element. */
  lemma SortedBounds(t: seq<real>, v: real)
    requires IsSorted(t) && v in t
    ensures t[0] <= v <= t[|t| - 1]
  {
    var i :| 0 <= i < |t| && t[i] == v;
    assert t[0] <= t[i] <= t[|t| - 1];
  }

  // ---------------------------------------------------------- percentiles

  /** `std::ceil` on the exact value. */
  function Ceil(x: real): (r: int)
    ensures x <= r as real < x + 1.0
  {
    -((-x).Floor)
  }

  const SIZE_T_MODULUS: int := 0x1_0000_0000_0000_0000

  /** The rank `ceil(p * n / 100)` before it is made an index. */
  function PercentileRank(p: real, n: nat): (r: int)
    ensures 0.0 <= p ==> 0 <= r
    ensures p <= 100.0 ==> r <= n
    ensures 0.0 < p && n > 0 ==> 1 <= r
  {
    Ceil(p * (n as real) / 100.0)
  }

  /** Converting the rank to `size_t` is defined only when it fits. */
  predicate PercentileDefined(p: real, n: nat)
  {
    0 <= PercentileRank(p, n) < SIZE_T_MODULUS
  }

  /** The index read by `Percentile` as written: `rank - 1` in `size_t` arithmetic, so a
      rank of 0 wraps to the largest value, then clamped to the last element. */
  function PercentileIndex(p: real, n: nat): (i: nat)
    requires n > 0 && PercentileDefined(p, n)
    ensures i < n
  {
    var index := (PercentileRank(p, n) - 1) % SIZE_T_MODULUS;
    if index >= n then n - 1 else index
  }

  /** A rank between 1 and n selects the rank-th smallest sample. */
  lemma PercentileIndexRank(p: real, n: nat)
    requires 0 < n < SIZE_T_MODULUS && 1 <= PercentileRank(p, n) <= n
    ensures PercentileIndex(p, n) == PercentileRank(p, n) - 1
  {
    assert (PercentileRank(p, n) - 1) % SIZE_T_MODULUS == PercentileRank(p, n) - 1;
  }

  /** As written, the 0th percentile is the largest sample: the rank 0 underflows. */
  lemma PercentileZeroIsLast(n: nat)
    requires 0 < n < SIZE_T_MODULUS
    ensures PercentileDefined(0.0, n)
    ensures PercentileIndex(0.0, n) == n - 1
  {
    assert 0.0 * (n as real) / 100.0 == 0.0;
    assert PercentileRank(0.0, n) == 0;
    assert (0 - 1) % SIZE_T_MODULUS == SIZE_T_MODULUS - 1;
  }

  /** The index with the underflow guarded: rank 0 selects the smallest sample. */
  function PercentileIndexGuarded(p: real, n: nat): (i: nat)
    requires n > 0 && PercentileDefined(p, n)
    ensures i < n
    ensures PercentileRank(p, n) == 0 ==> i == 0
    ensures 1 <= PercentileRank(p, n) <= n ==> i == PercentileRank(p, n) - 1
    ensures PercentileRank(p, n) > n ==> i == n - 1
  {
    var rank := PercentileRank(p, n);
    if rank == 0 then 0 else if rank - 1 >= n then n - 1 else rank - 1
  }

  /** The guarded index agrees with the written one except at rank 0. */
  lemma PercentileIndexGuardedAgrees(p: real, n: nat)
    requires n > 0 && PercentileDefined(p, n) && PercentileRank(p, n) != 0
    ensures PercentileIndexGuarded(p, n) == PercentileIndex(p, n)
  {
  }

  // ----------------------------------------------------------- Statistics

  /** The median of a sorted sequence: its middle element, or the mean of the two middle ones. */
  function MiddleOf(sorted: seq<real>): real
    requires |sorted| > 0
  {
    var n := |sorted|;
    if n % 2 == 0 then (sorted[n / 2 - 1] + sorted[n / 2]) / 2.0 else sorted[n / 2]
  }

  class Statistics {
    var samples: seq<real>

    constructor ()
      ensures samples == []
    {
      samples := [];
    }

    method AddSample(value: real)
      modifies this
      ensures samples == old(samples) + [value]
    {
      samples := samples + [value];
    }

    method Clear()
      modifies this
      ensures samples == []
    {
      samples := [];
    }

    /** The number of samples added since construction or the last `Clear`. */
    function Count(): (r: nat)
      reads this
      ensures r == |samples|
      ensures r == 0 <==> samples == []
    {
      |samples|
    }

    /** The samples in the order they were added, duplicates kept. */
    function GetSamples(): (r: seq<real>)
      reads this
      ensures r == samples
      ensures |r| == Count()
    {
      samples
    }

    /** The smallest sample, 0 without samples. */
    function Min(): (r: real)
      reads this
      ensures |samples| == 0 ==> r == 0.0
      ensures |samples| > 0 ==> r in samples && forall x :: x in samples ==> r <= x
    {
      if |samples| == 0 then 0.0 else MinOf(samples)
    }

    /** The largest sample, 0 without samples. */
    function Max(): (r: real)
      reads this
      ensures |samples| == 0 ==> r == 0.0
      ensures |samples| > 0 ==> r in samples && forall x :: x in samples ==> x <= r
    {
      if |samples| == 0 then 0.0 else MaxOf(samples)
    }

    /** The median of a sorted copy; the samples themselves keep their order. */
    function Median(): (r: real)
      reads this
      ensures |samples| == 0 ==> r == 0.0
      ensures |samples| > 0 ==> r == MiddleOf(SortedCopy(samples)) && Min() <= r <= Max()
    {
      if |samples| == 0 then 0.0
      else
        var sorted := SortedCopy(samples);
        var n := |sorted|;
        SortedCopyBetween(samples, n / 2);
        if n % 2 == 0 then
          SortedCopyBetween(samples, n / 2 - 1);
          (sorted[n / 2 - 1] + sorted[n / 2]) / 2.0
        else sorted[n / 2]
    }

    /** The sorted sample at `PercentileIndex`, 0 without samples. */
    function Percentile(p: real): (r: real)
      requires PercentileDefined(p, |samples|)
      reads this
      ensures |samples| == 0 ==> r == 0.0
      ensures |samples| > 0 ==> r == SortedCopy(samples)[PercentileIndex(p, |samples|)]
      ensures |samples| > 0 ==> Min() <= r <= Max()
    {
      if |samples| == 0 then 0.0
      else
        var sorted := SortedCopy(samples);
        var index := PercentileIndex(p, |samples|);
        SortedCopyBetween(samples, index);
        sorted[index]
    }

    /** `Percentile` with the rank-0 underflow guarded. */
    function PercentileGuarded(p: real): (r: real)
      requires PercentileDefined(p, |samples|)
      reads this
      ensures |samples| == 0 ==> r == 0.0
      ensures |samples| > 0 && PercentileRank(p, |samples|) == 0 ==> r == Min()
      ensures |samples| > 0 && PercentileRank(p, |samples|) >= |samples| ==> r == Max()
    {
      if |samples| == 0 then 0.0
      else
        SortedCopyEnds(samples);
        SortedCopy(samples)[PercentileIndexGuarded(p, |samples|)]
    }
  }

  /** The 0th percentile as written reads the largest sample, not the smallest. */
  lemma PercentileZeroReadsMax(stats: Statistics)
    requires 0 < |stats.samples| < SIZE_T_MODULUS
    ensures PercentileZeroIsLastHolds(stats.samples)
  {
    PercentileZeroIsLast(|stats.samples|);
    SortedCopyEnds(stats.samples);
  }

  predicate PercentileZeroIsLastHolds(samples: seq<real>)
    requires |samples| > 0
  {
    PercentileDefined(0.0, |samples|) &&
    SortedCopy(samples)[PercentileIndex(0.0, |samples|)] == MaxOf(samples)
  }

  /** Adding samples one by one: the count is the number added and the order is kept. */
  method CollectSamples(values: seq<real>) returns (count: nat, kept: seq<real>)
    ensures count == |values| && kept == values
  {
    var stats := new Statistics();
    for i := 0 to |values|
      invariant stats.samples == values[..i]
    {
      stats.AddSample(values[i]);
      assert values[..i + 1] == values[..i] + [values[i]];
    }
    assert values[..|values|] == values;
    count := stats.Count();
    kept := stats.GetSamples();
  }

  // --------------------------------------------------------- FormatNumber

  predicate IsDigit(c: char)
  {
    '0' <= c <= '9'
  }

  function DigitChar(d: nat): (c: char)
    requires d < 10
    ensures IsDigit(c)
  {
    (48 + d) as char
  }

  /** `std::to_string` of an unsigned value: its decimal digits, most significant first. */
  function DecimalDigits(n: nat): (r: string)
    ensures |r| >= 1 && forall i :: 0 <= i < |r| ==> IsDigit(r[i])
    ensures n < 10 <==> |r| == 1
    ensures n < 1000 ==> |r| <= 3
  {
    if n < 10 then [DigitChar(n)] else DecimalDigits(n / 10) + [DigitChar(n % 10)]
  }

  /** The number a string of decimal digits denotes. */
  function DigitsValue(s: string): nat
    requires forall i :: 0 <= i < |s| ==> IsDigit(s[i])
  {
    if s == [] then 0
    else
      var last := s[|s| - 1];
      assert IsDigit(last);
      10 * DigitsValue(s[..|s| - 1]) + (last as int - 48)
  }

  lemma {:induction false} DecimalDigitsValue(n: nat)
    ensures DigitsValue(DecimalDigits(n)) == n
  {
    if n >= 10 {
      DecimalDigitsValue(n / 10);
      var d := DecimalDigits(n);
      assert d[..|d| - 1] == DecimalDigits(n / 10);
    }
  }

  /** Digits grouped by threes from the right, groups separated by commas. */
  function WithCommas(d: string): string
  {
    if |d| <= 3 then d else WithCommas(d[..|d| - 3]) + [','] + d[|d| - 3..]
  }

  function RemoveCommas(s: string): string
  {
    if s == [] then []
    else RemoveCommas(s[..|s| - 1]) + (if s[|s| - 1] == ',' then [] else [s[|s| - 1]])
  }

  lemma {:induction false} RemoveCommasAppend(a: string, b: string)
    ensures RemoveCommas(a + b) == RemoveCommas(a) + RemoveCommas(b)
    decreases |b|
  {
    if b == [] {
      assert a + b == a;
    } else {
      assert (a + b)[..|a + b| - 1] == a + b[..|b| - 1];
      RemoveCommasAppend(a, b[..|b| - 1]);
    }
  }

  lemma {:induction false} RemoveCommasDigits(d: string)
    requires forall i :: 0 <= i < |d| ==> IsDigit(d[i])
    ensures RemoveCommas(d) == d
  {
    if d != [] {
      RemoveCommasDigits(d[..|d| - 1]);
    }
  }

  /** Deleting the commas gives back the digits. */
  lemma {:induction false} WithCommasRemove(d: string)
    requires forall i :: 0 <= i < |d| ==> IsDigit(d[i])
    ensures RemoveCommas(WithCommas(d)) == d
    decreases |d|
  {
    if |d| <= 3 {
      RemoveCommasDigits(d);
    } else {
      var head, tail := d[..|d| - 3], d[|d| - 3..];
      var h := WithCommas(head);
      assert WithCommas(d) == h + [','] + tail;
      WithCommasRemove(head);
      RemoveCommasAppend(h + [','], tail);
      RemoveCommasAppend(h, [',']);
      RemoveCommaAlone();
      RemoveCommasDigits(tail);
      assert RemoveCommas(h + [',']) == head;
      assert head + tail == d;
    }
  }

  lemma RemoveCommaAlone()
    ensures RemoveCommas([',']) == []
  {
    assert [','][..0] == [];
  }

  /** The shape of a grouped number: digits and commas only, a first group of one to three
      digits, and exactly three digits after every comma. */
  predicate Grouped(s: string)
  {
    |s| >= 1 && IsDigit(s[0]) &&
    (forall i :: 0 <= i < |s| ==> IsDigit(s[i]) || s[i] == ',') &&
    (|s| <= 3 || ',' in s[1..4]) &&
    (forall i :: 0 <= i < |s| && s[i] == ',' ==>
       i + 3 < |s| && IsDigit(s[i + 1]) && IsDigit(s[i + 2]) && IsDigit(s[i + 3]) &&
       (i + 4 == |s| || s[i + 4] == ','))
  }

  lemma {:induction false} WithCommasGrouped(d: string)
    requires |d| >= 1 && forall i :: 0 <= i < |d| ==> IsDigit(d[i])
    ensures Grouped(WithCommas(d))
    ensures |d| > 3 ==> WithCommas(d)[|WithCommas(d)| - 4] == ','
    decreases |d|
  {
    if |d| > 3 {
      var head, tail := d[..|d| - 3], d[|d| - 3..];
      WithCommasGrouped(head);
      assert |WithCommas(head)| <= 3 ==> WithCommas(head) == head;
      GroupedAppend(WithCommas(head), tail);
    }
  }

  /** Appending a comma and a group of three digits to a grouped number keeps it grouped. */
  lemma GroupedAppend(h: string, tail: string)
    requires Grouped(h) && (|h| > 3 ==> h[|h| - 4] == ',')
    requires |tail| == 3 && forall i :: 0 <= i < 3 ==> IsDigit(tail[i])
    ensures Grouped(h + [','] + tail)
    ensures (h + [','] + tail)[|h|] == ','
  {
    var s := h + [','] + tail;
    assert forall i :: 0 <= i < |h| ==> s[i] == h[i];
    assert |h| > 3 ==> s[1..4] == h[1..4];
    forall i | 0 <= i < |s| && s[i] == ','
      ensures i + 3 < |s| && IsDigit(s[i + 1]) && IsDigit(s[i + 2]) && IsDigit(s[i + 3]) &&
              (i + 4 == |s| || s[i + 4] == ',')
    {
      if i < |h| {
        assert h[i] == ',';
        if i + 4 == |h| {
          assert s[i + 4] == ',';
        }
      }
    }
  }

  /** A non-empty digit string of length n gains one comma per full group of three after the first digit. */
  lemma {:induction false} WithCommasLength(d: string)
    requires d != []
    ensures |WithCommas(d)| == |d| + (|d| - 1) / 3
  {
    if |d| > 3 {
      WithCommasLength(d[..|d| - 3]);
    }
  }

  /** Three more characters after a non-empty prefix are split off by one comma, ahead of any
      unformatted rest `c`. */
  lemma WithCommasSnoc(h: string, b: string, c: string)
    requires h != [] && |b| == 3
    ensures WithCommas(h + b) + c == WithCommas(h) + ([','] + b + c)
  {
    assert (h + b)[..|h + b| - 3] == h && (h + b)[|h + b| - 3..] == b;
    CommaRegroup(WithCommas(h), b, c);
  }

  /** One pass of the formatting loop: a comma before the last group of the unformatted prefix. */
  lemma CommaStep(d: string, s: string, t: string, pos: int)
    requires 0 < pos && pos + 3 <= |s| && pos + 3 <= |d|
    requires s[..pos + 3] == d[..pos + 3]
    requires WithCommas(d) == WithCommas(s[..pos + 3]) + s[pos + 3..]
    requires t == s[..pos] + [','] + s[pos..]
    ensures pos <= |t| && t[..pos] == d[..pos]
    ensures WithCommas(d) == WithCommas(t[..pos]) + t[pos..]
  {
    var a, b, c := s[..pos], s[pos..pos + 3], s[pos + 3..];
    InsertAt(d, s, t, pos);
    WithCommasSnoc(a, b, c);
  }

  /** Regrouping the pieces around an inserted comma. */
  lemma CommaRegroup(a: string, b: string, c: string)
    ensures a + [','] + b + c == a + ([','] + b + c)
  {
  }

  /** Sequence facts about inserting a comma at `pos`, three characters before `pos + 3`. */
  lemma InsertAt(d: string, s: string, t: string, pos: int)
    requires 0 < pos && pos + 3 <= |s| && pos + 3 <= |d|
    requires s[..pos + 3] == d[..pos + 3]
    requires t == s[..pos] + [','] + s[pos..]
    ensures pos <= |t| && t[..pos] == s[..pos] == d[..pos]
    ensures s[..pos + 3] == s[..pos] + s[pos..pos + 3]
    ensures t[pos..] == [','] + s[pos..pos + 3] + s[pos + 3..]
  {
    assert s[pos..] == s[pos..pos + 3] + s[pos + 3..];
    assert d[..pos] == d[..pos + 3][..pos];
  }

  /** The comma-inserting loop: walks `pos` from `length - 3` down by threes, inserting a
      comma at each positive position. */
  method FormatNumber(n: nat) returns (s: string)
    requires n < 0x1_0000_0000_0000_0000
    ensures s == WithCommas(DecimalDigits(n))
  {
    var d := DecimalDigits(n);
    s := d;
    // `s.length() - 3` is computed in `size_t` and stored in an `int`: the wrap-around
    // and the conversion back leave -2 or -1 for one- and two-digit numbers.
    var pos: int := |s| - 3;
    assert s[..pos + 3] == s && s[pos + 3..] == [];
    while pos > 0
      invariant -2 <= pos <= |d| - 3 && pos + 3 <= |s|
      invariant s[..pos + 3] == d[..pos + 3]
      invariant WithCommas(d) == WithCommas(s[..pos + 3]) + s[pos + 3..]
      decreases pos
    {
      var t := s[..pos] + [','] + s[pos..];
      CommaStep(d, s, t, pos);
      s, pos := t, pos - 3;
    }
    assert WithCommas(s[..pos + 3]) == s[..pos + 3];
    assert s == s[..pos + 3] + s[pos + 3..];
  }

  /** Below 1000 nothing is inserted. */
  lemma FormatNumberSmall(n: nat)
    requires n < 1000
    ensures WithCommas(DecimalDigits(n)) == DecimalDigits(n)
    ensures ',' !in WithCommas(DecimalDigits(n))
  {
  }

  /** The formatted number reads back as `n` once its commas are deleted, and is grouped. */
  lemma FormatNumberDigits(n: nat)
    ensures RemoveCommas(WithCommas(DecimalDigits(n))) == DecimalDigits(n)
    ensures DigitsValue(DecimalDigits(n)) == n
    ensures Grouped(WithCommas(DecimalDigits(n)))
  {
    WithCommasRemove(DecimalDigits(n));
    DecimalDigitsValue(n);
    WithCommasGrouped(DecimalDigits(n));
  }
}

=== FILE: readme_benchmark.dfy ===
/**
 * The README benchmark: every car gets a pre-generated schedule of control
 * changes, spaced 2 to 60 ticks apart, which a replay loop then follows
 * tick by tick while the arena steps.
 *
 * The Mersenne-twister draws are caller-supplied streams: `interval(car)(k)`
 * is the k-th `interval_dist(rng)` result for that car and
 * `controlDraw(car)(k)` the k-th `GenerateRandomControls(rng)` result.
 * The cars' `controls` fields are the array `carControls`, indexed like the
 * `cars` vector.
 */
module ReadmeBench {
  import opened RLViserBytes
  import opened RLViserRecords
  import opened GameModes
  import opened ArenaModel

  const WARMUP_TICKS: nat := 100
  const NUM_CARS: nat := 4
  const U32_MODULUS: int := 0x1_0000_0000

  /** Default-constructed controls: every axis 0.0 (bit pattern 0), every button off. */
  const NO_CONTROLS := CarControls(0, 0, 0, 0, 0, false, false, false)

  /** A car's pre-generated controls, the ticks at which they change, and the replay cursor. */
  datatype CarControlSequence = CarControlSequence(
    controls: seq<CarControls>, changeTicks: seq<nat>, currentIndex: nat)

  /** Every draw of `uniform_int_distribution<uint32_t>(2, 60)` lies in [2, 60]. */
  ghost predicate ValidIntervals(interval: nat -> int)
  {
    forall k: nat :: 2 <= interval(k) <= 60
  }

  /** The tick reached after drawing `k` intervals from tick 0. */
  function TickAt(interval: nat -> int, k: nat): int
  {
    if k == 0 then 0 else TickAt(interval, k - 1) + interval(k - 1)
  }

  /** Between the `j`-th and `k`-th draw the tick grows by 2 to 60 per draw. */
  lemma {:induction false} TickAtGrows(interval: nat -> int, j: nat, k: nat)
    requires ValidIntervals(interval) && j <= k
    ensures TickAt(interval, j) + 2 * (k - j) <= TickAt(interval, k) <= TickAt(interval, j) + 60 * (k - j)
    decreases k
  {
    if j < k {
      TickAtGrows(interval, j, k - 1);
      assert 2 <= interval(k - 1) <= 60;
    }
  }

  /**
   * `s` is the schedule generated for a run of `numTicks` ticks: the j-th
   * change tick is the sum of the first j + 1 intervals, cut to 32 bits, and
   * exactly the change ticks not beyond `numTicks` are kept, each paired with
   * the controls drawn for it.
   */
  ghost predicate IsSchedule(s: CarControlSequence, interval: nat -> int,
                             controlDraw: nat -> CarControls, numTicks: nat)
  {
    |s.controls| == |s.changeTicks|
    && (forall j :: 0 <= j < |s.changeTicks| ==> s.changeTicks[j] == TickAt(interval, j + 1) % U32_MODULUS)
    && TickAt(interval, |s.changeTicks|) <= numTicks < TickAt(interval, |s.changeTicks| + 1)
    && (forall j :: 0 <= j < |s.controls| ==> s.controls[j] == controlDraw(j))
  }

  predicate StrictlyIncreasing(ticks: seq<nat>)
  {
    forall i, j :: 0 <= i < j < |ticks| ==> ticks[i] < ticks[j]
  }

  /** The generation loop for one car: draw an interval, keep the tick if it is still within the run. */
  method GenerateSequence(numTicks: nat, interval: nat -> int, controlDraw: nat -> CarControls)
    returns (s: CarControlSequence)
    requires ValidIntervals(interval)
    requires numTicks + 60 < 0x1_0000_0000_0000_0000
    ensures s.currentIndex == 0
    ensures IsSchedule(s, interval, controlDraw, numTicks)
  {
    var changeTicks: seq<nat> := [];
    var controls: seq<CarControls> := [];
    var currentTick := 0;
    var drawn: nat := 0;
    while currentTick < numTicks
      invariant currentTick == TickAt(interval, drawn)
      invariant |controls| == |changeTicks|
      invariant drawn - 1 <= |changeTicks| <= drawn
      invariant |changeTicks| < drawn ==> numTicks < currentTick
      invariant TickAt(interval, |changeTicks|) <= numTicks
      invariant forall j :: 0 <= j < |changeTicks| ==> changeTicks[j] == TickAt(interval, j + 1) % U32_MODULUS
      invariant forall j :: 0 <= j < |controls| ==> controls[j] == controlDraw(j)
      decreases numTicks - currentTick
    {
      var next := interval(drawn);
      currentTick := currentTick + next;
      drawn := drawn + 1;
      if currentTick <= numTicks {
        changeTicks := changeTicks + [currentTick % U32_MODULUS];
        controls := controls + [controlDraw(|controls|)];
      }
    }
    assert |changeTicks| == drawn ==> TickAt(interval, drawn + 1) == currentTick + interval(drawn);
    s := CarControlSequence(controls, changeTicks, 0);
  }

  /** Every kept change tick lies within the run, whatever its length. */
  lemma ScheduleWithinRun(s: CarControlSequence, interval: nat -> int,
                          controlDraw: nat -> CarControls, numTicks: nat)
    requires ValidIntervals(interval) && IsSchedule(s, interval, controlDraw, numTicks)
    ensures forall j :: 0 <= j < |s.changeTicks| ==> s.changeTicks[j] <= numTicks
  {
    forall j | 0 <= j < |s.changeTicks|
      ensures s.changeTicks[j] <= numTicks
    {
      TickAtGrows(interval, j + 1, |s.changeTicks|);
      TickAtGrows(interval, 0, j + 1);
    }
  }

  /**
   * For a run shorter than 2^32 ticks no change tick is cut: the schedule is
   * strictly increasing, its first tick and every gap lie in [2, 60].
   */
  lemma ScheduleSpacing(s: CarControlSequence, interval: nat -> int,
                        controlDraw: nat -> CarControls, numTicks: nat)
    requires ValidIntervals(interval) && IsSchedule(s, interval, controlDraw, numTicks)
    requires numTicks < U32_MODULUS
    ensures forall j :: 0 <= j < |s.changeTicks| ==> s.changeTicks[j] == TickAt(interval, j + 1)
    ensures |s.changeTicks| > 0 ==> 2 <= s.changeTicks[0] <= 60
    ensures forall j :: 0 < j < |s.changeTicks| ==> 2 <= s.changeTicks[j] - s.changeTicks[j - 1] <= 60
    ensures StrictlyIncreasing(s.changeTicks)
  {
    var n := |s.changeTicks|;
    forall j | 0 <= j < n
      ensures s.changeTicks[j] == TickAt(interval, j + 1)
    {
      TickAtGrows(interval, j + 1, n);
      TickAtGrows(interval, 0, j + 1);
    }
    forall j | 0 < j < n
      ensures 2 <= s.changeTicks[j] - s.changeTicks[j - 1] <= 60
    {
      assert 2 <= interval(j) <= 60;
    }
    forall i, j | 0 <= i < j < n
      ensures s.changeTicks[i] < s.changeTicks[j]
    {
      TickAtGrows(interval, i + 1, j + 1);
    }
  }

  /** One replay tick for one car: a due change moves the cursor on. */
  function Advance(s: CarControlSequence, tick: nat): CarControlSequence
  {
    if s.currentIndex < |s.changeTicks| && tick >= s.changeTicks[s.currentIndex]
    then s.(currentIndex := s.currentIndex + 1)
    else s
  }

  /** The car's controls after that tick: the next drawn controls when the cursor moved onto one. */
  function ControlsAfter(s: CarControlSequence, c: CarControls, tick: nat): CarControls
  {
    var t := Advance(s, tick);
    if t.currentIndex != s.currentIndex && t.currentIndex < |t.controls| then t.controls[t.currentIndex] else c
  }

  /** The cursor never passes the end of the schedule, grows by at most one per tick, and nothing else changes. */
  lemma AdvanceBounds(s: CarControlSequence, c: CarControls, tick: nat)
    ensures s.currentIndex <= |s.changeTicks| ==> Advance(s, tick).currentIndex <= |s.changeTicks|
    ensures s.currentIndex <= Advance(s, tick).currentIndex <= s.currentIndex + 1
    ensures Advance(s, tick).controls == s.controls && Advance(s, tick).changeTicks == s.changeTicks
    ensures ControlsAfter(s, c, tick) == c
            || exists j :: 0 <= j < |s.controls| && ControlsAfter(s, c, tick) == s.controls[j]
  {
    var t := Advance(s, tick);
    if t.currentIndex != s.currentIndex && t.currentIndex < |t.controls| {
      assert ControlsAfter(s, c, tick) == s.controls[t.currentIndex];
    }
  }

  /** Exactly the first `i` change ticks come before tick `t`. */
  predicate Passed(ticks: seq<nat>, i: nat, t: nat)
  {
    i <= |ticks|
    && (forall j :: 0 <= j < i ==> ticks[j] < t)
    && (forall j :: i <= j < |ticks| ==> ticks[j] >= t)
  }

  /**
   * At tick `t` the cursor counts the change ticks already passed, and the
   * car holds the controls that cursor selects (the last ones once the
   * schedule is used up).
   */
  predicate InSync(s: CarControlSequence, c: CarControls, t: nat)
  {
    Passed(s.changeTicks, s.currentIndex, t)
    && (|s.controls| > 0 && s.currentIndex <= |s.controls| ==>
          c == s.controls[if s.currentIndex < |s.controls| then s.currentIndex else |s.controls| - 1])
  }

  /** A schedule fresh from generation, with its first controls applied. */
  predicate Ready(s: CarControlSequence, c: CarControls)
  {
    StrictlyIncreasing(s.changeTicks) && |s.controls| == |s.changeTicks| && s.currentIndex == 0
    && (|s.controls| > 0 ==> c == s.controls[0])
  }

  lemma ReadyInSync(s: CarControlSequence, c: CarControls)
    requires Ready(s, c)
    ensures InSync(s, c, 0)
  {
  }

  /** A replay tick keeps a car in step with its schedule, because at most one change is due per tick. */
  lemma ReplayTickInSync(s: CarControlSequence, c: CarControls, t: nat)
    requires StrictlyIncreasing(s.changeTicks) && |s.controls| == |s.changeTicks|
    requires InSync(s, c, t)
    ensures InSync(Advance(s, t), ControlsAfter(s, c, t), t + 1)
  {
    var i := s.currentIndex;
    var n := |s.changeTicks|;
    if i < n && t >= s.changeTicks[i] {
      assert s.changeTicks[i] == t;
      forall j | i + 1 <= j < n
        ensures s.changeTicks[j] >= t + 1
      {
        assert s.changeTicks[i] < s.changeTicks[j];
      }
    } else if i < n {
      forall j | i <= j < n
        ensures s.changeTicks[j] >= t + 1
      {
        if j > i {
          assert s.changeTicks[i] < s.changeTicks[j];
        }
      }
    }
  }

  /**
   * A car's state right after generation: its schedule is fresh, and the car
   * holds the first drawn controls, or its previous controls `c0` when none were drawn.
   */
  ghost predicate Generated(s: CarControlSequence, c: CarControls, c0: CarControls,
                            interval: nat -> int, controlDraw: nat -> CarControls, numTicks: nat)
  {
    s.currentIndex == 0 && IsSchedule(s, interval, controlDraw, numTicks)
    && c == if |s.controls| > 0 then s.controls[0] else c0
  }

  /** A generated schedule is ready for replay when the run is shorter than 2^32 ticks. */
  lemma GeneratedReady(s: CarControlSequence, c: CarControls, c0: CarControls, interval: nat -> int,
                       controlDraw: nat -> CarControls, numTicks: nat)
    requires ValidIntervals(interval) && Generated(s, c, c0, interval, controlDraw, numTicks)
    requires numTicks < U32_MODULUS
    ensures Ready(s, c)
  {
    ScheduleSpacing(s, interval, controlDraw, numTicks);
  }

  /** The generation loop over all cars; a car starts on its first drawn controls when it has any. */
  method GenerateAll(numTicks: nat, interval: nat -> nat -> int, controlDraw: nat -> nat -> CarControls,
                     carControls: array<CarControls>)
    returns (seqs: array<CarControlSequence>)
    requires forall car: nat :: ValidIntervals(interval(car))
    requires numTicks + 60 < 0x1_0000_0000_0000_0000
    modifies carControls
    ensures fresh(seqs) && seqs.Length == carControls.Length
    ensures forall i :: 0 <= i < seqs.Length ==>
              Generated(seqs[i], carControls[i], old(carControls[i]), interval(i), controlDraw(i), numTicks)
  {
    ghost var c0 := carControls[..];
    seqs := new CarControlSequence[carControls.Length](_ => CarControlSequence([], [], 0));
    for carIdx := 0 to carControls.Length
      invariant forall i :: 0 <= i < carIdx ==>
                  Generated(seqs[i], carControls[i], c0[i], interval(i), controlDraw(i), numTicks)
      invariant forall i :: carIdx <= i < carControls.Length ==> carControls[i] == c0[i]
    {
      var sequence := GenerateSequence(numTicks, interval(carIdx), controlDraw(carIdx));
      seqs[carIdx] := sequence;
      if |sequence.controls| > 0 {
        carControls[carIdx] := sequence.controls[0];
      }
    }
  }

  /** One pass of the replay loop's inner `for`: every car's due change is applied. */
  method ReplayTick(seqs: array<CarControlSequence>, carControls: array<CarControls>, tick: nat)
    requires seqs.Length == carControls.Length
    modifies seqs, carControls
    ensures forall i :: 0 <= i < seqs.Length ==>
              seqs[i] == Advance(old(seqs[i]), tick)
              && carControls[i] == ControlsAfter(old(seqs[i]), old(carControls[i]), tick)
  {
    for carIdx := 0 to seqs.Length
      invariant forall i :: 0 <= i < carIdx ==>
                  seqs[i] == Advance(old(seqs[i]), tick)
                  && carControls[i] == ControlsAfter(old(seqs[i]), old(carControls[i]), tick)
      invariant forall i :: carIdx <= i < seqs.Length ==>
                  seqs[i] == old(seqs[i]) && carControls[i] == old(carControls[i])
    {
      var sequence := seqs[carIdx];
      if sequence.currentIndex < |sequence.changeTicks| {
        var nextChangeTick := sequence.changeTicks[sequence.currentIndex];
        if tick >= nextChangeTick {
          sequence := sequence.(currentIndex := sequence.currentIndex + 1);
          seqs[carIdx] := sequence;
          if sequence.currentIndex < |sequence.controls| {
            carControls[carIdx] := sequence.controls[sequence.currentIndex];
          }
        }
      }
    }
  }

  /** 100 warm-up steps, then `numTicks` replay ticks with one arena step each. */
  method RunReplay(arena: Arena, seqs: array<CarControlSequence>, carControls: array<CarControls>,
                   numTicks: nat)
    requires seqs.Length == carControls.Length
    modifies arena, arena.contactTracker, seqs, carControls
    ensures arena.tickCount == TickAfter(old(arena.tickCount), WARMUP_TICKS + numTicks)
    ensures arena.State() == old(arena.State()).(tickCount := arena.tickCount)
    ensures forall i :: 0 <= i < seqs.Length ==>
              seqs[i].controls == old(seqs[i].controls) && seqs[i].changeTicks == old(seqs[i].changeTicks)
    ensures forall i :: 0 <= i < seqs.Length && old(seqs[i].currentIndex) <= |old(seqs[i].changeTicks)| ==>
              seqs[i].currentIndex <= |seqs[i].changeTicks|
    ensures forall i :: 0 <= i < seqs.Length && old(Ready(seqs[i], carControls[i])) ==>
              InSync(seqs[i], carControls[i], numTicks)
  {
    ghost var s0 := seqs[..];
    ghost var c0 := carControls[..];
    ghost var t0 := arena.tickCount;
    for w := 0 to WARMUP_TICKS
      invariant arena.tickCount == TickAfter(t0, w)
      invariant arena.State() == old(arena.State()).(tickCount := arena.tickCount)
      invariant seqs[..] == s0 && carControls[..] == c0
    {
      arena.Step(1);
      TickAfterCompose(t0, w, 1);
    }
    forall i | 0 <= i < seqs.Length && Ready(s0[i], c0[i])
      ensures InSync(seqs[i], carControls[i], 0)
    {
      ReadyInSync(s0[i], c0[i]);
    }
    var currentTick := 0;
    while currentTick < numTicks
      invariant 0 <= currentTick <= numTicks
      invariant arena.tickCount == TickAfter(t0, WARMUP_TICKS + currentTick)
      invariant arena.State() == old(arena.State()).(tickCount := arena.tickCount)
      invariant forall i :: 0 <= i < seqs.Length ==>
                  seqs[i].controls == s0[i].controls && seqs[i].changeTicks == s0[i].changeTicks
      invariant forall i :: 0 <= i < seqs.Length && s0[i].currentIndex <= |s0[i].changeTicks| ==>
                  seqs[i].currentIndex <= |seqs[i].changeTicks|
      invariant forall i :: 0 <= i < seqs.Length && Ready(s0[i], c0[i]) ==>
                  InSync(seqs[i], carControls[i], currentTick)
    {
      ghost var sPrev := seqs[..];
      ghost var cPrev := carControls[..];
      ReplayTick(seqs, carControls, currentTick);
      forall i | 0 <= i < seqs.Length
        ensures seqs[i].controls == s0[i].controls && seqs[i].changeTicks == s0[i].changeTicks
        ensures s0[i].currentIndex <= |s0[i].changeTicks| ==> seqs[i].currentIndex <= |seqs[i].changeTicks|
        ensures Ready(s0[i], c0[i]) ==> InSync(seqs[i], carControls[i], currentTick + 1)
      {
        AdvanceBounds(sPrev[i], cPrev[i], currentTick);
        if Ready(s0[i], c0[i]) {
          ReplayTickInSync(sPrev[i], cPrev[i], currentTick);
        }
      }
      arena.Step(1);
      TickAfterCompose(t0, WARMUP_TICKS + currentTick, 1);
      currentTick := currentTick + 1;
    }
  }

  /** Two `AddCar` calls for one team: ids lastCarID + 1 and lastCarID + 2. */
  method AddTwoCars(arena: Arena, team: Team, config: CarConfig)
    requires arena.Valid() && arena.lastCarID < 0xFFFF_FFFE
    modifies arena
    ensures arena.Valid() && arena.lastCarID == old(arena.lastCarID) + 2
    ensures |arena.cars| == |old(arena.cars)| + 2
    ensures arena.carIDMap.Keys == old(arena.carIDMap.Keys) + {old(arena.lastCarID) + 1, old(arena.lastCarID) + 2}
    ensures arena.tickCount == old(arena.tickCount) && arena.gameMode == old(arena.gameMode)
  {
    ghost var keys0 := arena.carIDMap.Keys;
    var first := arena.AddCar(team, config);
    assert arena.carIDMap.Keys == keys0 + {first.id};
    var second := arena.AddCar(team, config);
    assert arena.carIDMap.Keys == keys0 + {first.id} + {second.id};
  }

  /** A fresh SOCCAR arena holding two blue and two orange cars, ids 1 to 4. */
  method CreateArena(config: CarConfig, mutatorConfig: MutatorConfig) returns (arena: Arena)
    ensures fresh(arena) && fresh(arena.contactTracker)
    ensures arena.Valid() && arena.gameMode == SOCCAR && arena.tickCount == 0
    ensures |arena.cars| == NUM_CARS && arena.carIDMap.Keys == {1, 2, 3, 4}
  {
    arena := new Arena(SOCCAR, mutatorConfig);
    AddTwoCars(arena, BLUE, config);
    AddTwoCars(arena, ORANGE, config);
  }

  /**
   * The whole benchmark on a fresh SOCCAR arena with two blue and two orange
   * cars: the arena ends `WARMUP_TICKS + numTicks` ticks on, and, for a run
   * shorter than 2^32 ticks, every car ends in step with its schedule.
   */
  method RunBenchmark(config: CarConfig, mutatorConfig: MutatorConfig, numTicks: nat,
                      interval: nat -> nat -> int, controlDraw: nat -> nat -> CarControls)
    returns (ticksSimulated: nat, finalTick: u64, seqs: array<CarControlSequence>,
             carControls: array<CarControls>)
    requires forall car: nat :: ValidIntervals(interval(car))
    requires numTicks + 60 < 0x1_0000_0000_0000_0000
    ensures ticksSimulated == numTicks
    ensures finalTick == TickAfter(0, WARMUP_TICKS + numTicks)
    ensures seqs.Length == carControls.Length == NUM_CARS
    ensures forall i :: 0 <= i < NUM_CARS ==> seqs[i].currentIndex <= |seqs[i].changeTicks|
    ensures numTicks < U32_MODULUS ==>
              forall i :: 0 <= i < NUM_CARS ==> InSync(seqs[i], carControls[i], numTicks)
  {
    ticksSimulated := numTicks;
    var arena := CreateArena(config, mutatorConfig);
    carControls := new CarControls[NUM_CARS](_ => NO_CONTROLS);
    seqs := GenerateAll(numTicks, interval, controlDraw, carControls);
    forall i | 0 <= i < NUM_CARS && numTicks < U32_MODULUS
      ensures Ready(seqs[i], carControls[i])
    {
      GeneratedReady(seqs[i], carControls[i], NO_CONTROLS, interval(i), controlDraw(i), numTicks);
    }
    RunReplay(arena, seqs, carControls, numTicks);
    finalTick := arena.tickCount;
  }
}

=== FILE: stress_benchmark.dfy ===
/**
 * The stress benchmark's configuration constants and its `FastRNG`, a
 * xorshift64 generator whose every draw updates a 64-bit state in place.
 * The state is a `bv64`, so the shifts drop their high bits exactly as the
 * C++ `uint64_t` shifts do. Floats are modelled as reals.
 */
module StressBench {

  const NUM_CARS: int := 6
  const NUM_EPISODE_TICKS: int := 10000
  const NUM_EPISODES: int := 100
  const TOTAL_TICKS: int := NUM_EPISODES * NUM_EPISODE_TICKS

  /** Low 31 bits of the state: the numerator of every draw. */
  const LOW31: bv64 := 0x7FFF_FFFF

  /** The three in-place updates of one xorshift64 step: `state ^= state << 13` and so on. */
  function ShiftLeft13(s: bv64): bv64 { s ^ (s << 13) }
  function ShiftRight7(s: bv64): bv64 { s ^ (s >> 7) }
  function ShiftLeft17(s: bv64): bv64 { s ^ (s << 17) }


  /** Undoes `x ^= x << k` by xoring in every further multiple of the shift. */
  function UnShiftLeft13(x: bv64): bv64 { x ^ (x << 13) ^ (x << 26) ^ (x << 39) ^ (x << 52) }
  function UnShiftRight7(x: bv64): bv64
  {
    x ^ (x >> 7) ^ (x >> 14) ^ (x >> 21) ^ (x >> 28) ^ (x >> 35)
      ^ (x >> 42) ^ (x >> 49) ^ (x >> 56) ^ (x >> 63)
  }
  function UnShiftLeft17(x: bv64): bv64 { x ^ (x << 17) ^ (x << 34) ^ (x << 51) }

  /** The inverse step, written independently of `XorShift`. */
  function UnXorShift(x: bv64): bv64
  {
    UnShiftLeft13(UnShiftRight7(UnShiftLeft17(x)))
  }

  lemma UnShiftLeft13Undoes(s: bv64, a: bv64)
    requires a == s ^ (s << 13)
    ensures UnShiftLeft13(a) == s
  {
  }

  lemma UnShiftLeft13Inverse(s: bv64)
    ensures UnShiftLeft13(ShiftLeft13(s)) == s
  {
    assert ShiftLeft13(s) == s ^ (s << 13);
    UnShiftLeft13Undoes(s, ShiftLeft13(s));
  }

  lemma UnShiftRight7Undoes(s: bv64, a: bv64)
    requires a == s ^ (s >> 7)
    ensures UnShiftRight7(a) == s
  {
  }

  lemma UnShiftRight7Inverse(s: bv64)
    ensures UnShiftRight7(ShiftRight7(s)) == s
  {
    assert ShiftRight7(s) == s ^ (s >> 7);
    UnShiftRight7Undoes(s, ShiftRight7(s));
  }

  lemma UnShiftLeft17Undoes(s: bv64, a: bv64)
    requires a == s ^ (s << 17)
    ensures UnShiftLeft17(a) == s
  {
  }

  lemma UnShiftLeft17Inverse(s: bv64)
    ensures UnShiftLeft17(ShiftLeft17(s)) == s
  {
    assert ShiftLeft17(s) == s ^ (s << 17);
    UnShiftLeft17Undoes(s, ShiftLeft17(s));
  }

  /** Undoing the three stages in reverse order undoes the whole step. */
  lemma ComposeInverse(c: bv64, b: bv64, a: bv64, s: bv64)
    requires UnShiftLeft17(c) == b && UnShiftRight7(b) == a && UnShiftLeft13(a) == s
    ensures UnXorShift(c) == s
  {
  }

  /**
   * One xorshift64 step: `^= << 13`, `^= >> 7`, `^= << 17`. The step is a
   * bijection on 64-bit states: the independently written inverse gives the
   * state back, so no state is lost.
   */
  function XorShift(s: bv64): (r: bv64)
    ensures UnXorShift(r) == s
  {
    var a := ShiftLeft13(s);
    var b := ShiftRight7(a);
    UnShiftLeft17Inverse(b);
    UnShiftRight7Inverse(a);
    UnShiftLeft13Inverse(s);
    ComposeInverse(ShiftLeft17(b), b, a, s);
    ShiftLeft17(b)
  }

  /** 0 is the only state the step maps to 0. */
  lemma ZeroFixed(s: bv64)
    ensures XorShift(s) == 0 <==> s == 0
  {
    assert UnXorShift(XorShift(s)) == s;
    assert UnXorShift(0) == 0;
  }

  /** Two states that step to the same state are equal. */
  lemma XorShiftInjective(s: bv64, t: bv64)
    requires XorShift(s) == XorShift(t)
    ensures s == t
  {
    assert UnXorShift(XorShift(s)) == s && UnXorShift(XorShift(t)) == t;
  }

  /** The value a draw returns for a state it has just produced. */
  function Unit(state: bv64): (r: real)
    ensures 0.0 <= r <= 1.0
    ensures r == 1.0 <==> state & LOW31 == LOW31
  {
    var n := (state & LOW31) as int;
    assert n <= 0x7FFF_FFFF;
    assert n == 0x7FFF_FFFF <==> state & LOW31 == LOW31;
    n as real / 2147483647.0
  }

  /** The state after `n` draws from state `s`. */
  function StateAfter(s: bv64, n: nat): bv64
    decreases n
  {
    if n == 0 then s else StateAfter(XorShift(s), n - 1)
  }

  /** The values of `n` consecutive draws from state `s`. */
  function Draws(s: bv64, n: nat): (r: seq<real>)
    ensures |r| == n
    decreases n
  {
    if n == 0 then [] else [Unit(XorShift(s))] + Draws(XorShift(s), n - 1)
  }

  /** Every draw lies in [0, 1]. */
  lemma {:induction false} DrawsInRange(s: bv64, n: nat)
    ensures forall i :: 0 <= i < n ==> 0.0 <= Draws(s, n)[i] <= 1.0
    decreases n
  {
    if n > 0 {
      var t := XorShift(s);
      DrawsInRange(t, n - 1);
      var rest := Draws(t, n - 1);
      assert Draws(s, n) == [Unit(t)] + rest;
      forall i | 0 <= i < n
        ensures 0.0 <= Draws(s, n)[i] <= 1.0
      {
        if i > 0 {
          assert Draws(s, n)[i] == rest[i - 1];
        }
      }
    }
  }

  /** One draw peels the first value off the sequence. */
  lemma DrawsStep(before: bv64, after: bv64, m: nat)
    requires m > 0 && after == XorShift(before)
    ensures Draws(before, m) == [Unit(after)] + Draws(after, m - 1)
    ensures StateAfter(before, m) == StateAfter(after, m - 1)
  {
  }

  /** One more draw appends the value of the state it steps to. */
  lemma DrawsSnoc(s: bv64, k: nat)
    ensures StateAfter(s, k + 1) == XorShift(StateAfter(s, k))
    ensures Draws(s, k + 1) == Draws(s, k) + [Unit(StateAfter(s, k + 1))]
  {
    DrawsSplit(s, k, 1);
    var t := StateAfter(s, k);
    assert StateAfter(t, 1) == XorShift(t);
    assert Draws(t, 1) == [Unit(XorShift(t))];
  }

  /** Seed 0 is a fixed point: the state stays 0 and every draw is 0. */
  lemma {:induction false} ZeroSeedStaysZero(n: nat)
    ensures StateAfter(0, n) == 0
    ensures Draws(0, n) == seq(n, i => 0.0)
  {
    if n > 0 {
      ZeroFixed(0);
      ZeroSeedStaysZero(n - 1);
    }
  }

  /** Drawing `m` then `n` values is drawing `m + n` values. */
  lemma {:induction false} DrawsSplit(s: bv64, m: nat, n: nat)
    ensures Draws(s, m + n) == Draws(s, m) + Draws(StateAfter(s, m), n)
    ensures StateAfter(s, m + n) == StateAfter(StateAfter(s, m), n)
    decreases m
  {
    if m > 0 {
      var t := XorShift(s);
      DrawsSplit(t, m - 1, n);
      assert Draws(s, m + n) == [Unit(t)] + Draws(t, (m - 1) + n);
      assert Draws(s, m) == [Unit(t)] + Draws(t, m - 1);
      assert StateAfter(s, m) == StateAfter(t, m - 1);
    }
  }

  /** A state whose next draw has its low 31 bits all set. */
  const ALL_ONES_PREDECESSOR: bv64 := 0x3F79_FBF7_AF40_81FC

  /** The draw after that state returns exactly 1.0, so the range is [0, 1]. */
  lemma DrawCanBeOne()
    ensures XorShift(ALL_ONES_PREDECESSOR) == LOW31
    ensures Unit(XorShift(ALL_ONES_PREDECESSOR)) == 1.0
  {
  }

  class FastRNG {
    var state: bv64

    /** `FastRNG(seed = 0)`: the state is the seed. */
    constructor (seed: bv64)
      ensures state == seed
    {
      state := seed;
    }

    /** `seed(s)`: restart the sequence at `s`. */
    method Seed(s: bv64)
      modifies this
      ensures state == s
    {
      state := s;
    }

    /** `rand()`: one xorshift step, then the low 31 bits over 0x7FFFFFFF. */
    method Rand() returns (r: real)
      modifies this
      ensures state == XorShift(old(state))
      ensures r == Unit(state) && 0.0 <= r <= 1.0
    {
      state := ShiftLeft13(state);
      state := ShiftRight7(state);
      state := ShiftLeft17(state);
      r := Unit(state);
    }

    /** `rand_axis_val()`: a draw mapped onto [-1, 1]. */
    method RandAxisVal() returns (r: real)
      modifies this
      ensures state == XorShift(old(state))
      ensures r == Unit(state) * 2.0 - 1.0 && -1.0 <= r <= 1.0
    {
      var u := Rand();
      r := u * 2.0 - 1.0;
    }

    /** `rand_chance(thresh)`: true exactly when the draw is below the threshold. */
    method RandChance(thresh: real) returns (b: bool)
      modifies this
      ensures state == XorShift(old(state))
      ensures b <==> Unit(state) < thresh
    {
      var u := Rand();
      b := u < thresh;
    }

    /** `n` consecutive `rand()` calls, collected in order. */
    method DrawMany(n: nat) returns (rs: seq<real>)
      modifies this
      ensures rs == Draws(old(state), n)
      ensures state == StateAfter(old(state), n)
    {
      ghost var start := state;
      rs := [];
      var done := 0;
      while done < n
        invariant done <= n
        invariant rs == Draws(start, done) && state == StateAfter(start, done)
      {
        var r := Rand();
        DrawsSnoc(start, done);
        rs := rs + [r];
        done := done + 1;
      }
    }
  }

  /** Two generators seeded alike draw the same values, whether constructed or re-seeded. */
  method SameSeedSameDraws(seed: bv64, other: bv64, n: nat) returns (a: seq<real>, b: seq<real>)
    ensures a == b == Draws(seed, n)
  {
    var g1 := new FastRNG(seed);
    var g2 := new FastRNG(other);
    g2.Seed(seed);
    a := g1.DrawMany(n);
    b := g2.DrawMany(n);
  }

  /** The default generator (seed 0) only ever draws 0. */
  method DefaultSeedDraws(n: nat) returns (rs: seq<real>)
    ensures rs == seq(n, i => 0.0)
  {
    var g := new FastRNG(0);
    rs := g.DrawMany(n);
    ZeroSeedStaysZero(n);
  }
}

=== FILE: wire_bytes.dfy ===
/** Byte-level primitives of the remote-visualisation wire format.

    `ByteWriter` appends little-endian integers to a growing byte vector;
    `ByteReader` consumes the same encoding through a cursor that never moves
    past the end of its buffer: a read that does not fit returns 0 and leaves
    the cursor where it was. A `float` travels as its 32-bit IEEE-754 pattern,
    which the writer and the reader only copy, so it is modelled here as that
    pattern (`F32`). */
module RLViserBytes {

  type u8 = x: int | 0 <= x < 0x100
  type u32 = x: int | 0 <= x < 0x1_0000_0000
  type u64 = x: int | 0 <= x < 0x1_0000_0000_0000_0000

  /// A `float` as the wire carries it: its bit pattern.
  type F32 = u32

  /// A three-component vector of floats (x, y, z).
  datatype Vec = Vec(x: F32, y: F32, z: F32)

  /// A rotation matrix given by its three axes.
  datatype RotMat = RotMat(forward: Vec, right: Vec, up: Vec)

  // ---------------------------------------------------------------------
  // Little-endian numbers

  function Pow256(n: nat): (r: nat)
    ensures r > 0
  {
    if n == 0 then 1 else 256 * Pow256(n - 1)
  }

  /// One more block of `k` bytes: the offset arithmetic of consecutive fixed-size records.
  lemma MulSucc(m: nat, k: nat)
    ensures (m + 1) * k == m * k + k
  {
  }

  /// The n low-order bytes of v, least significant byte first.
  function LittleEndian(v: nat, n: nat): (r: seq<u8>)
    ensures |r| == n
  {
    if n == 0 then [] else [v % 256] + LittleEndian(v / 256, n - 1)
  }

  /// The number whose little-endian bytes are s; it always fits in |s| bytes.
  function FromLittleEndian(s: seq<u8>): (r: nat)
    ensures r < Pow256(|s|)
  {
    if s == [] then 0
    else
      var rest := FromLittleEndian(s[1..]);
      assert s[0] + 256 * rest <= 255 + 256 * (Pow256(|s| - 1) - 1);
      s[0] + 256 * rest
  }

  /// `v >> 8i`: v with its i low-order bytes shifted out.
  function ShiftRightBytes(v: nat, i: nat): nat
  {
    if i == 0 then v else ShiftRightBytes(v / 256, i - 1)
  }

  /// Decoding the n little-endian bytes of a number that fits in n bytes gives it back.
  lemma {:induction false} LittleEndianRoundTrip(v: nat, n: nat)
    requires v < Pow256(n)
    ensures FromLittleEndian(LittleEndian(v, n)) == v
  {
    if n > 0 {
      var s := LittleEndian(v, n);
      assert s[1..] == LittleEndian(v / 256, n - 1);
      LittleEndianRoundTrip(v / 256, n - 1);
    }
  }

  /// Encoding is onto: every byte string is the little-endian form of its value.
  lemma {:induction false} FromLittleEndianRoundTrip(s: seq<u8>)
    ensures LittleEndian(FromLittleEndian(s), |s|) == s
  {
    if s != [] {
      var v := FromLittleEndian(s);
      assert v % 256 == s[0] && v / 256 == FromLittleEndian(s[1..]);
      FromLittleEndianRoundTrip(s[1..]);
    }
  }

  /// Byte i of the encoding is `(v >> 8i) & 0xFF`.
  lemma {:induction false} LittleEndianByte(v: nat, n: nat, i: nat)
    requires i < n
    ensures LittleEndian(v, n)[i] == ShiftRightBytes(v, i) % 256
  {
    if i > 0 {
      LittleEndianByte(v / 256, n - 1, i - 1);
    }
  }

  /// One more byte of the encoding extends it at the high end.
  lemma {:induction false} LittleEndianSnoc(v: nat, n: nat)
    ensures LittleEndian(v, n + 1) == LittleEndian(v, n) + [ShiftRightBytes(v, n) % 256]
  {
    if n > 0 {
      LittleEndianSnoc(v / 256, n - 1);
    }
  }

  /// Appending a high byte adds it with weight 256^|s|.
  lemma {:induction false} FromLittleEndianSnoc(s: seq<u8>, b: u8)
    ensures FromLittleEndian(s + [b]) == FromLittleEndian(s) + b * Pow256(|s|)
  {
    if s != [] {
      var t := s[1..];
      assert (s + [b])[1..] == t + [b];
      FromLittleEndianSnoc(t, b);
      ShiftByteIn(s[0], FromLittleEndian(t), b, Pow256(|t|));
    }
  }

  /// The arithmetic step of `FromLittleEndianSnoc`: one more low byte in front.
  lemma ShiftByteIn(lo: int, rest: int, b: int, p: int)
    ensures lo + 256 * (rest + b * p) == (lo + 256 * rest) + b * (256 * p)
  {
  }

  // ---------------------------------------------------------------------
  // Encodings of single values, in the order ByteWriter emits them

  function EncodeU8(v: u8): (r: seq<u8>)
    ensures |r| == 1
  {
    [v]
  }

  function EncodeU32(v: u32): (r: seq<u8>)
    ensures |r| == 4
  {
    LittleEndian(v, 4)
  }

  function EncodeU64(v: u64): (r: seq<u8>)
    ensures |r| == 8
  {
    LittleEndian(v, 8)
  }

  function EncodeF32(v: F32): (r: seq<u8>)
    ensures |r| == 4
  {
    EncodeU32(v)
  }

  /// The byte a bool is written as.
  function BoolByte(b: bool): u8
  {
    if b then 1 else 0
  }

  function EncodeBool(b: bool): (r: seq<u8>)
    ensures |r| == 1
  {
    [BoolByte(b)]
  }

  function EncodeVec(v: Vec): (r: seq<u8>)
    ensures |r| == 12
  {
    EncodeF32(v.x) + EncodeF32(v.y) + EncodeF32(v.z)
  }

  function EncodeRotMat(m: RotMat): (r: seq<u8>)
    ensures |r| == 36
  {
    EncodeVec(m.forward) + EncodeVec(m.right) + EncodeVec(m.up)
  }

  /// write_u32 emits the low byte first: byte i is `(v >> 8i) & 0xFF`.
  lemma EncodeU32Bytes(v: u32)
    ensures EncodeU32(v) == [v % 0x100, (v / 0x100) % 0x100, (v / 0x1_0000) % 0x100, (v / 0x100_0000) % 0x100]
  {
    LittleEndianByte(v, 4, 0);
    LittleEndianByte(v, 4, 1);
    LittleEndianByte(v, 4, 2);
    LittleEndianByte(v, 4, 3);
    var b1 := v / 0x100;
    var b2 := b1 / 0x100;
    var b3 := b2 / 0x100;
    assert ShiftRightBytes(v, 1) == b1 by { assert ShiftRightBytes(b1, 0) == b1; }
    assert ShiftRightBytes(v, 2) == b2 by { assert ShiftRightBytes(b2, 0) == b2; }
    assert ShiftRightBytes(v, 3) == b3 by {
      assert ShiftRightBytes(v, 3) == ShiftRightBytes(b1, 2);
      assert ShiftRightBytes(b1, 2) == ShiftRightBytes(b2, 1);
      assert ShiftRightBytes(b3, 0) == b3;
    }
    assert b2 == v / 0x1_0000;
    assert b3 == v / 0x100_0000;
  }

  /// write_u64 emits byte i as `(v >> 8i) & 0xFF`.
  lemma EncodeU64Byte(v: u64, i: nat)
    requires i < 8
    ensures EncodeU64(v)[i] == ShiftRightBytes(v, i) % 0x100
  {
    LittleEndianByte(v, 8, i);
  }

  // ---------------------------------------------------------------------
  // Reading: where a value sits in a buffer

  /// bytes occurs in data starting at offset p.
  ghost predicate HasAt(data: seq<u8>, p: nat, bytes: seq<u8>) {
    p + |bytes| <= |data| && data[p..p + |bytes|] == bytes
  }

  lemma HasAtSplit(data: seq<u8>, p: nat, a: seq<u8>, b: seq<u8>)
    requires HasAt(data, p, a + b)
    ensures HasAt(data, p, a) && HasAt(data, p + |a|, b)
  {
    assert data[p..p + |a|] == data[p..p + |a| + |b|][..|a|];
    assert data[p + |a|..p + |a| + |b|] == data[p..p + |a| + |b|][|a|..];
  }

  /// What read_u8 returns with the cursor at p, and where the cursor moves.
  function U8At(data: seq<u8>, p: nat): (r: (u8, nat))
    ensures p + 1 <= |data| ==> r.1 == p + 1
    ensures p + 1 > |data| ==> r == (0, p)
  {
    if p + 1 <= |data| then (data[p], p + 1) else (0, p)
  }

  /// read_u32: four bytes, low byte first, or (0, p) when fewer than four remain.
  function U32At(data: seq<u8>, p: nat): (r: (u32, nat))
    ensures p + 4 <= |data| ==> r.1 == p + 4
    ensures p + 4 > |data| ==> r == (0, p)
  {
    if p + 4 <= |data| then
      assert Pow256(4) == 0x1_0000_0000;
      (FromLittleEndian(data[p..p + 4]), p + 4)
    else (0, p)
  }

  /// read_u64: eight bytes, low byte first, or (0, p) when fewer than eight remain.
  function U64At(data: seq<u8>, p: nat): (r: (u64, nat))
    ensures p + 8 <= |data| ==> r.1 == p + 8
    ensures p + 8 > |data| ==> r == (0, p)
  {
    if p + 8 <= |data| then
      assert Pow256(8) == 0x1_0000_0000_0000_0000;
      (FromLittleEndian(data[p..p + 8]), p + 8)
    else (0, p)
  }

  function F32At(data: seq<u8>, p: nat): (r: (F32, nat))
    ensures p <= r.1 && (p <= |data| ==> r.1 <= |data|)
  {
    U32At(data, p)
  }

  /// read_bool: any non-zero byte reads as true.
  function BoolAt(data: seq<u8>, p: nat): (r: (bool, nat))
    ensures p <= r.1 && (p <= |data| ==> r.1 <= |data|)
  {
    var (b, q) := U8At(data, p);
    (b != 0, q)
  }

  function VecAt(data: seq<u8>, p: nat): (r: (Vec, nat))
    ensures p <= r.1 && (p <= |data| ==> r.1 <= |data|)
  {
    var (x, p1) := F32At(data, p);
    var (y, p2) := F32At(data, p1);
    var (z, p3) := F32At(data, p2);
    (Vec(x, y, z), p3)
  }

  function RotMatAt(data: seq<u8>, p: nat): (r: (RotMat, nat))
    ensures p <= r.1 && (p <= |data| ==> r.1 <= |data|)
  {
    var (forward, p1) := VecAt(data, p);
    var (right, p2) := VecAt(data, p1);
    var (up, p3) := VecAt(data, p2);
    (RotMat(forward, right, up), p3)
  }

  // Round trips: reading where a value was written gives it back and moves
  // the cursor past exactly its bytes.

  lemma U8RoundTrip(data: seq<u8>, p: nat, v: u8)
    requires HasAt(data, p, EncodeU8(v))
    ensures U8At(data, p) == (v, p + 1)
  {
    assert data[p] == data[p..p + 1][0];
  }

  lemma U32RoundTrip(data: seq<u8>, p: nat, v: u32)
    requires HasAt(data, p, EncodeU32(v))
    ensures U32At(data, p) == (v, p + 4)
  {
    LittleEndianRoundTrip(v, 4);
  }

  lemma U64RoundTrip(data: seq<u8>, p: nat, v: u64)
    requires HasAt(data, p, EncodeU64(v))
    ensures U64At(data, p) == (v, p + 8)
  {
    LittleEndianRoundTrip(v, 8);
  }

  lemma F32RoundTrip(data: seq<u8>, p: nat, v: F32)
    requires HasAt(data, p, EncodeF32(v))
    ensures F32At(data, p) == (v, p + 4)
  {
    U32RoundTrip(data, p, v);
  }

  lemma BoolRoundTrip(data: seq<u8>, p: nat, b: bool)
    requires HasAt(data, p, EncodeBool(b))
    ensures BoolAt(data, p) == (b, p + 1)
  {
    U8RoundTrip(data, p, BoolByte(b));
  }

  lemma VecRoundTrip(data: seq<u8>, p: nat, v: Vec)
    requires HasAt(data, p, EncodeVec(v))
    ensures VecAt(data, p) == (v, p + 12)
  {
    HasAtSplit(data, p, EncodeF32(v.x) + EncodeF32(v.y), EncodeF32(v.z));
    HasAtSplit(data, p, EncodeF32(v.x), EncodeF32(v.y));
    F32RoundTrip(data, p, v.x);
    F32RoundTrip(data, p + 4, v.y);
    F32RoundTrip(data, p + 8, v.z);
  }

  lemma RotMatRoundTrip(data: seq<u8>, p: nat, m: RotMat)
    requires HasAt(data, p, EncodeRotMat(m))
    ensures RotMatAt(data, p) == (m, p + 36)
  {
    HasAtSplit(data, p, EncodeVec(m.forward) + EncodeVec(m.right), EncodeVec(m.up));
    HasAtSplit(data, p, EncodeVec(m.forward), EncodeVec(m.right));
    VecRoundTrip(data, p, m.forward);
    VecRoundTrip(data, p + 12, m.right);
    VecRoundTrip(data, p + 24, m.up);
  }

  // ---------------------------------------------------------------------
  // The writer

  class ByteWriter {
    var data: seq<u8>

    constructor ()
      ensures data == []
    {
      data := [];
    }

    method WriteU8(val: u8)
      modifies this
      ensures data == old(data) + EncodeU8(val)
    {
      data := data + [val];
    }

    method WriteU32(val: u32)
      modifies this
      ensures data == old(data) + EncodeU32(val)
    {
      data := data + [val % 0x100];
      data := data + [(val / 0x100) % 0x100];
      data := data + [(val / 0x1_0000) % 0x100];
      data := data + [(val / 0x100_0000) % 0x100];
      EncodeU32Bytes(val);
    }

    method WriteU64(val: u64)
      modifies this
      ensures data == old(data) + EncodeU64(val)
    {
      for i := 0 to 8
        invariant data == old(data) + LittleEndian(val, i)
      {
        LittleEndianSnoc(val, i);
        data := data + [ShiftRightBytes(val, i) % 0x100];
      }
    }

    method WriteF32(val: F32)
      modifies this
      ensures data == old(data) + EncodeF32(val)
    {
      WriteU32(val);
    }

    method WriteBool(val: bool)
      modifies this
      ensures data == old(data) + EncodeBool(val)
    {
      WriteU8(BoolByte(val));
    }

    method WriteVec(v: Vec)
      modifies this
      ensures data == old(data) + EncodeVec(v)
    {
      WriteF32(v.x);
      WriteF32(v.y);
      WriteF32(v.z);
    }

    method WriteRotMat(m: RotMat)
      modifies this
      ensures data == old(data) + EncodeRotMat(m)
    {
      WriteVec(m.forward);
      WriteVec(m.right);
      WriteVec(m.up);
    }
  }

  // ---------------------------------------------------------------------
  // The reader

  class ByteReader {
    /// The `size` bytes the reader was constructed over.
    const data: seq<u8>
    var pos: nat

    constructor (data: seq<u8>)
      ensures this.data == data && pos == 0
    {
      this.data := data;
      pos := 0;
    }

    /// At least `n` unread bytes are left after the cursor.
    function HasRemaining(n: nat): (r: bool)
      reads this
      ensures r <==> pos <= |data| && n <= |data| - pos
    {
      pos + n <= |data|
    }

    method ReadU8() returns (val: u8)
      modifies this
      ensures (val, pos) == U8At(data, old(pos))
    {
      if !HasRemaining(1) {
        return 0;
      }
      val := data[pos];
      pos := pos + 1;
    }

    method ReadU32() returns (val: u32)
      modifies this
      ensures (val, pos) == U32At(data, old(pos))
    {
      if !HasRemaining(4) {
        return 0;
      }
      ReadU32Value(data, pos);
      val := data[pos] + (data[pos + 1] as int) * 0x100 + (data[pos + 2] as int) * 0x1_0000
        + (data[pos + 3] as int) * 0x100_0000;
      pos := pos + 4;
    }

    method ReadU64() returns (val: u64)
      modifies this
      ensures (val, pos) == U64At(data, old(pos))
    {
      if !HasRemaining(8) {
        return 0;
      }
      ghost var p0 := pos;
      var acc: nat := 0;
      for i := 0 to 8
        invariant pos == p0 + i
        invariant acc == FromLittleEndian(data[p0..p0 + i])
      {
        FromLittleEndianSnoc(data[p0..p0 + i], data[pos]);
        assert data[p0..p0 + i + 1] == data[p0..p0 + i] + [data[pos]];
        acc := acc + (data[pos] as int) * Pow256(i);
        pos := pos + 1;
      }
      val := acc;
    }

    method ReadF32() returns (val: F32)
      modifies this
      ensures (val, pos) == F32At(data, old(pos))
    {
      val := ReadU32();
    }

    method ReadBool() returns (val: bool)
      modifies this
      ensures (val, pos) == BoolAt(data, old(pos))
    {
      var b := ReadU8();
      val := b != 0;
    }

    method ReadVec() returns (v: Vec)
      modifies this
      ensures (v, pos) == VecAt(data, old(pos))
    {
      var x := ReadF32();
      var y := ReadF32();
      var z := ReadF32();
      v := Vec(x, y, z);
    }

    method ReadRotMat() returns (m: RotMat)
      modifies this
      ensures (m, pos) == RotMatAt(data, old(pos))
    {
      var forward := ReadVec();
      var right := ReadVec();
      var up := ReadVec();
      m := RotMat(forward, right, up);
    }
  }

  /// The little-endian value of four bytes is their weighted sum; this is the
  /// value `ReadU32` assembles. `OrLanes` shows the sum equals read_u32's OR of shifted bytes.
  lemma ReadU32Value(data: seq<u8>, p: nat)
    requires p + 4 <= |data|
    ensures FromLittleEndian(data[p..p + 4])
         == data[p] + (data[p + 1] as int) * 0x100 + (data[p + 2] as int) * 0x1_0000 + (data[p + 3] as int) * 0x100_0000
  {
    var s := data[p..p + 4];
    FromLittleEndianSnoc(s[..3], s[3]);
    FromLittleEndianSnoc(s[..2], s[2]);
    FromLittleEndianSnoc(s[..1], s[1]);
    FromLittleEndianSnoc([], s[0]);
    assert s[..3] + [s[3]] == s;
    assert s[..2] + [s[2]] == s[..3];
    assert s[..1] + [s[1]] == s[..2];
    assert [] + [s[0]] == s[..1];
    assert Pow256(1) == 0x100 && Pow256(2) == 0x1_0000 && Pow256(3) == 0x100_0000;
  }

  /// Bytes shifted by 0, 8, 16 and 24 bits occupy disjoint lanes of a 32-bit word,
  /// so read_u32's OR of the shifted bytes is their weighted sum.
  lemma OrLanes(b0: bv32, b1: bv32, b2: bv32, b3: bv32)
    requires b0 < 0x100 && b1 < 0x100 && b2 < 0x100 && b3 < 0x100
    ensures b0 | (b1 << 8) | (b2 << 16) | (b3 << 24) == b0 + b1 * 0x100 + b2 * 0x1_0000 + b3 * 0x100_0000
  {
  }

  /// The same for the eight lanes of the 64-bit word read_u64 assembles.
  lemma OrLanes64(b0: bv64, b1: bv64, b2: bv64, b3: bv64, b4: bv64, b5: bv64, b6: bv64, b7: bv64)
    requires b0 < 0x100 && b1 < 0x100 && b2 < 0x100 && b3 < 0x100
    requires b4 < 0x100 && b5 < 0x100 && b6 < 0x100 && b7 < 0x100
    ensures b0 | (b1 << 8) | (b2 << 16) | (b3 << 24) | (b4 << 32) | (b5 << 40) | (b6 << 48) | (b7 << 56)
         == b0 + b1 * 0x100 + b2 * 0x1_0000 + b3 * 0x100_0000 + b4 * 0x1_0000_0000
            + b5 * 0x100_0000_0000 + b6 * 0x1_0000_0000_0000 + b7 * 0x100_0000_0000_0000
  {
  }
}

=== FILE: wire_game_state.dfy ===
/** A whole frame of the remote-visualisation protocol: a 21-byte header
    (tick count, tick rate, game mode, pad count, car count), the ball, the
    boost pads, then the cars.

    `EncodeGameState` and `DecodeGameState` are the specifications of
    `ToBytes` (to_bytes) and `FromBytes` (from_bytes); `NumBytes` is the
    packet length `GetNumBytes` (get_num_bytes) predicts from a header. */
module RLViserGameState {
  import opened RLViserBytes
  import opened RLViserRecords
  import opened GameModes

  /// tick count (8) + tick rate (4) + game mode (1) + pad count (4) + car count (4)
  const MIN_NUM_BYTES: nat := 8 + 4 + 1 + 4 + 4

  /// Where the two counts sit in the header.
  const NUM_PADS_OFFSET: nat := 13
  const NUM_CARS_OFFSET: nat := 17

  datatype GameState = GameState(
    tickCount: u64,
    tickRate: F32,
    gameMode: GameMode,
    pads: seq<BoostPadInfo>,
    cars: seq<CarInfo>,
    ball: BallState)

  /// `static_cast<uint32_t>(v.size())`: a count truncated to 32 bits.
  function CountU32(n: nat): (r: u32)
    ensures n < 0x1_0000_0000 ==> r == n
  {
    n % 0x1_0000_0000
  }

  // ---------------------------------------------------------------------
  // Encoding

  function EncodeHeader(s: GameState): (r: seq<u8>)
    ensures |r| == MIN_NUM_BYTES
  {
    EncodeU64(s.tickCount) + EncodeF32(s.tickRate) + EncodeU8(s.gameMode as int)
      + EncodeU32(CountU32(|s.pads|)) + EncodeU32(CountU32(|s.cars|))
  }

  /// Records one after another, each encoded by enc.
  function EncodeList<T>(enc: T -> seq<u8>, xs: seq<T>): seq<u8>
  {
    if xs == [] then [] else EncodeList(enc, xs[..|xs| - 1]) + enc(xs[|xs| - 1])
  }

  lemma {:induction false} EncodeListLength<T>(enc: T -> seq<u8>, size: nat, xs: seq<T>)
    requires forall x :: |enc(x)| == size
    ensures |EncodeList(enc, xs)| == |xs| * size
  {
    if xs != [] {
      EncodeListLength(enc, size, xs[..|xs| - 1]);
      MulSucc(|xs| - 1, size);
    }
  }

  /// The pads one after another, BOOST_PAD_INFO_NUM_BYTES each.
  function EncodePads(pads: seq<BoostPadInfo>): (r: seq<u8>)
    ensures |r| == |pads| * BOOST_PAD_INFO_NUM_BYTES
  {
    EncodeListLength(EncodeBoostPadInfo, BOOST_PAD_INFO_NUM_BYTES, pads);
    EncodeList(EncodeBoostPadInfo, pads)
  }

  /// The cars one after another, CAR_INFO_NUM_BYTES each.
  function EncodeCars(cars: seq<CarInfo>): (r: seq<u8>)
    ensures |r| == |cars| * CAR_INFO_NUM_BYTES
  {
    EncodeListLength(EncodeCarInfo, CAR_INFO_NUM_BYTES, cars);
    EncodeList(EncodeCarInfo, cars)
  }

  /// The packet to_bytes produces; its length is the header, the ball and
  /// the fixed size of every pad and car.
  function EncodeGameState(s: GameState): (r: seq<u8>)
    ensures |r| == MIN_NUM_BYTES + BALL_STATE_NUM_BYTES
                   + |s.pads| * BOOST_PAD_INFO_NUM_BYTES + |s.cars| * CAR_INFO_NUM_BYTES
  {
    EncodeHeader(s) + EncodeBallState(s.ball) + EncodePads(s.pads) + EncodeCars(s.cars)
  }

  lemma AppendAssoc(a: seq<u8>, b: seq<u8>, c: seq<u8>)
    ensures a + b + c == a + (b + c)
  {
  }

  lemma EncodeListSnoc<T>(enc: T -> seq<u8>, xs: seq<T>, x: T)
    ensures EncodeList(enc, xs + [x]) == EncodeList(enc, xs) + enc(x)
  {
    assert (xs + [x])[..|xs|] == xs;
  }

  /// The pad loop of to_bytes.
  method WritePads(w: ByteWriter, pads: seq<BoostPadInfo>)
    modifies w
    ensures w.data == old(w.data) + EncodePads(pads)
  {
    for i := 0 to |pads|
      invariant w.data == old(w.data) + EncodePads(pads[..i])
    {
      assert pads[..i + 1] == pads[..i] + [pads[i]];
      EncodeListSnoc(EncodeBoostPadInfo, pads[..i], pads[i]);
      WriteBoostPadInfo(w, pads[i]);
      AppendAssoc(old(w.data), EncodePads(pads[..i]), EncodeBoostPadInfo(pads[i]));
    }
    assert pads[..|pads|] == pads;
  }

  /// The car loop of to_bytes.
  method WriteCars(w: ByteWriter, cars: seq<CarInfo>)
    modifies w
    ensures w.data == old(w.data) + EncodeCars(cars)
  {
    for i := 0 to |cars|
      invariant w.data == old(w.data) + EncodeCars(cars[..i])
    {
      assert cars[..i + 1] == cars[..i] + [cars[i]];
      EncodeListSnoc(EncodeCarInfo, cars[..i], cars[i]);
      WriteCarInfo(w, cars[i]);
      AppendAssoc(old(w.data), EncodeCars(cars[..i]), EncodeCarInfo(cars[i]));
    }
    assert cars[..|cars|] == cars;
  }

  /// The header fields of to_bytes.
  method WriteHeader(w: ByteWriter, s: GameState)
    modifies w
    ensures w.data == old(w.data) + EncodeHeader(s)
  {
    w.WriteU64(s.tickCount);
    w.WriteF32(s.tickRate);
    w.WriteU8(s.gameMode as int);
    w.WriteU32(CountU32(|s.pads|));
    w.WriteU32(CountU32(|s.cars|));
    AppendHeader(old(w.data), s);
  }

  lemma AppendHeader(acc: seq<u8>, s: GameState)
    ensures acc + EncodeU64(s.tickCount) + EncodeF32(s.tickRate) + EncodeU8(s.gameMode as int)
              + EncodeU32(CountU32(|s.pads|)) + EncodeU32(CountU32(|s.cars|))
         == acc + EncodeHeader(s)
  {
  }

  method ToBytes(s: GameState) returns (bytes: seq<u8>)
    ensures bytes == EncodeGameState(s)
  {
    var w := new ByteWriter();
    WriteHeader(w, s);
    assert w.data == EncodeHeader(s);
    WriteBallState(w, s.ball);
    WritePads(w, s.pads);
    WriteCars(w, s.cars);
    bytes := w.data;
  }

  // ---------------------------------------------------------------------
  // Decoding

  /// n records one after another, each read by at.
  function ListAt<T>(at: (seq<u8>, nat) -> (T, nat), data: seq<u8>, p: nat, n: nat): (r: (seq<T>, nat))
    ensures |r.0| == n
  {
    if n == 0 then ([], p)
    else
      var (xs, q) := ListAt(at, data, p, n - 1);
      var (x, q') := at(data, q);
      (xs + [x], q')
  }

  function PadsAt(data: seq<u8>, p: nat, n: nat): (r: (seq<BoostPadInfo>, nat))
    ensures |r.0| == n
  {
    ListAt(BoostPadInfoAt, data, p, n)
  }

  function CarsAt(data: seq<u8>, p: nat, n: nat): (r: (seq<CarInfo>, nat))
    ensures |r.0| == n
  {
    ListAt(CarInfoAt, data, p, n)
  }

  /// What from_bytes returns for a buffer. Every read is guarded, so any
  /// buffer, however short, decodes to some state: fields past the end read
  /// as 0, and the lists have exactly the lengths the header announces.
  function DecodeGameState(data: seq<u8>): (s: GameState)
    ensures |s.pads| == U32At(data, NUM_PADS_OFFSET).0 || |data| < MIN_NUM_BYTES
    ensures |s.cars| == U32At(data, NUM_CARS_OFFSET).0 || |data| < MIN_NUM_BYTES
  {
    var (tickCount, p1) := U64At(data, 0);
    var (tickRate, p2) := F32At(data, p1);
    var (mode, p3) := U8At(data, p2);
    var (numPads, p4) := U32At(data, p3);
    var (numCars, p5) := U32At(data, p4);
    var (ball, p6) := BallStateAt(data, p5);
    var (pads, p7) := PadsAt(data, p6, numPads);
    var (cars, p8) := CarsAt(data, p7, numCars);
    GameState(tickCount, tickRate, mode as GameMode, pads, cars, ball)
  }

  /// The pad loop of from_bytes.
  method ReadPads(r: ByteReader, n: nat) returns (pads: seq<BoostPadInfo>)
    modifies r
    ensures (pads, r.pos) == PadsAt(r.data, old(r.pos), n)
  {
    pads := [];
    for i := 0 to n
      invariant (pads, r.pos) == PadsAt(r.data, old(r.pos), i)
    {
      var pad := ReadBoostPadInfo(r);
      pads := pads + [pad];
    }
  }

  /// The car loop of from_bytes.
  method ReadCars(r: ByteReader, n: nat) returns (cars: seq<CarInfo>)
    modifies r
    ensures (cars, r.pos) == CarsAt(r.data, old(r.pos), n)
  {
    cars := [];
    for i := 0 to n
      invariant (cars, r.pos) == CarsAt(r.data, old(r.pos), i)
    {
      var car := ReadCarInfo(r);
      cars := cars + [car];
    }
  }

  method FromBytes(data: seq<u8>) returns (s: GameState)
    ensures s == DecodeGameState(data)
  {
    var r := new ByteReader(data);
    var tickCount := r.ReadU64();
    var tickRate := r.ReadF32();
    var mode := r.ReadU8();
    var numPads := r.ReadU32();
    var numCars := r.ReadU32();
    var ball := ReadBallState(r);
    var pads := ReadPads(r, numPads);
    var cars := ReadCars(r, numCars);
    s := GameState(tickCount, tickRate, mode as GameMode, pads, cars, ball);
  }

  // ---------------------------------------------------------------------
  // Packet length

  /// What get_num_bytes returns: 0 for a buffer too short to hold the
  /// header, otherwise the length the header's two counts imply.
  function NumBytes(data: seq<u8>): (n: nat)
    ensures |data| < MIN_NUM_BYTES ==> n == 0
    ensures |data| >= MIN_NUM_BYTES ==> n >= MIN_NUM_BYTES + BALL_STATE_NUM_BYTES
  {
    if |data| < MIN_NUM_BYTES then 0
    else
      MIN_NUM_BYTES + BALL_STATE_NUM_BYTES
        + U32At(data, NUM_PADS_OFFSET).0 * BOOST_PAD_INFO_NUM_BYTES
        + U32At(data, NUM_CARS_OFFSET).0 * CAR_INFO_NUM_BYTES
  }

  method GetNumBytes(data: seq<u8>) returns (n: nat)
    ensures n == NumBytes(data)
  {
    if |data| < MIN_NUM_BYTES {
      return 0;
    }
    var r := new ByteReader(data);
    var _ := r.ReadU64();
    var _ := r.ReadF32();
    var _ := r.ReadU8();
    var numPads := r.ReadU32();
    var numCars := r.ReadU32();
    n := MIN_NUM_BYTES + BALL_STATE_NUM_BYTES
           + numPads * BOOST_PAD_INFO_NUM_BYTES + numCars * CAR_INFO_NUM_BYTES;
  }

  // ---------------------------------------------------------------------
  // Round trips

  /// Reading records where they were written gives them back, in order,
  /// whenever reading one record where it was written gives it back.
  lemma {:induction false} ListRoundTrip<T>(enc: T -> seq<u8>, at: (seq<u8>, nat) -> (T, nat), size: nat,
                                            data: seq<u8>, p: nat, xs: seq<T>)
    requires forall x :: |enc(x)| == size
    requires forall q: nat, x :: HasAt(data, q, enc(x)) ==> at(data, q) == (x, q + size)
    requires HasAt(data, p, EncodeList(enc, xs))
    ensures ListAt(at, data, p, |xs|) == (xs, p + |xs| * size)
  {
    if xs != [] {
      var init, last := xs[..|xs| - 1], xs[|xs| - 1];
      var q := p + |init| * size;
      assert ListAt(at, data, p, |init|) == (init, q) && at(data, q) == (last, q + size) by {
        assert EncodeList(enc, xs) == EncodeList(enc, init) + enc(last);
        HasAtSplit(data, p, EncodeList(enc, init), enc(last));
        EncodeListLength(enc, size, init);
        ListRoundTrip(enc, at, size, data, p, init);
      }
      MulSucc(|init|, size);
      assert init + [last] == xs;
    }
  }

  lemma BoostPadInfoRoundTripAnywhere(data: seq<u8>)
    ensures forall q: nat, pad :: HasAt(data, q, EncodeBoostPadInfo(pad)) ==> BoostPadInfoAt(data, q) == (pad, q + BOOST_PAD_INFO_NUM_BYTES)
  {
    forall q: nat, pad | HasAt(data, q, EncodeBoostPadInfo(pad))
      ensures BoostPadInfoAt(data, q) == (pad, q + BOOST_PAD_INFO_NUM_BYTES)
    {
      BoostPadInfoRoundTrip(data, q, pad);
    }
  }

  lemma PadsRoundTrip(data: seq<u8>, p: nat, pads: seq<BoostPadInfo>)
    requires HasAt(data, p, EncodePads(pads))
    ensures PadsAt(data, p, |pads|) == (pads, p + |pads| * BOOST_PAD_INFO_NUM_BYTES)
  {
    BoostPadInfoRoundTripAnywhere(data);
    ListRoundTrip(EncodeBoostPadInfo, BoostPadInfoAt, BOOST_PAD_INFO_NUM_BYTES, data, p, pads);
  }

  lemma CarInfoRoundTripAnywhere(data: seq<u8>)
    ensures forall q: nat, car :: HasAt(data, q, EncodeCarInfo(car)) ==> CarInfoAt(data, q) == (car, q + CAR_INFO_NUM_BYTES)
  {
    forall q: nat, car | HasAt(data, q, EncodeCarInfo(car))
      ensures CarInfoAt(data, q) == (car, q + CAR_INFO_NUM_BYTES)
    {
      CarInfoRoundTrip(data, q, car);
    }
  }

  lemma CarsRoundTrip(data: seq<u8>, p: nat, cars: seq<CarInfo>)
    requires HasAt(data, p, EncodeCars(cars))
    ensures CarsAt(data, p, |cars|) == (cars, p + |cars| * CAR_INFO_NUM_BYTES)
  {
    CarInfoRoundTripAnywhere(data);
    ListRoundTrip(EncodeCarInfo, CarInfoAt, CAR_INFO_NUM_BYTES, data, p, cars);
  }

  /// from_bytes(to_bytes(s)) == s, also when the packet is followed by
  /// other bytes, provided both lists are short enough for their counts to
  /// survive the 32-bit cast.
  lemma DecodeEncode(data: seq<u8>, s: GameState)
    requires |s.pads| < 0x1_0000_0000 && |s.cars| < 0x1_0000_0000
    requires HasAt(data, 0, EncodeGameState(s))
    ensures DecodeGameState(data) == s
  {
    SplitSections(data, s);
    HeaderRoundTrip(data, s);
    BallSectionRoundTrip(data, s);
    PadsSectionRoundTrip(data, s);
    CarsSectionRoundTrip(data, s);
  }

  /// Where the four sections of a packet sit.
  lemma SplitSections(data: seq<u8>, s: GameState)
    requires HasAt(data, 0, EncodeGameState(s))
    ensures HasAt(data, 0, EncodeHeader(s))
    ensures HasAt(data, MIN_NUM_BYTES, EncodeBallState(s.ball))
    ensures HasAt(data, PadsOffset(), EncodePads(s.pads))
    ensures HasAt(data, CarsOffset(s), EncodeCars(s.cars))
  {
    var h := EncodeHeader(s);
    var b := EncodeBallState(s.ball);
    var ps := EncodePads(s.pads);
    var cs := EncodeCars(s.cars);
    HasAtSplit(data, 0, h + b + ps, cs);
    HasAtSplit(data, 0, h + b, ps);
    HasAtSplit(data, 0, h, b);
  }

  /// The offset of the first pad, and of the first car, in a packet.
  function PadsOffset(): nat
  {
    MIN_NUM_BYTES + BALL_STATE_NUM_BYTES
  }

  function CarsOffset(s: GameState): nat
  {
    PadsOffset() + |s.pads| * BOOST_PAD_INFO_NUM_BYTES
  }

  lemma BallSectionRoundTrip(data: seq<u8>, s: GameState)
    requires HasAt(data, MIN_NUM_BYTES, EncodeBallState(s.ball))
    ensures BallStateAt(data, MIN_NUM_BYTES) == (s.ball, PadsOffset())
  {
    BallStateRoundTrip(data, MIN_NUM_BYTES, s.ball);
  }

  lemma PadsSectionRoundTrip(data: seq<u8>, s: GameState)
    requires HasAt(data, PadsOffset(), EncodePads(s.pads))
    ensures PadsAt(data, PadsOffset(), |s.pads|) == (s.pads, CarsOffset(s))
  {
    PadsRoundTrip(data, PadsOffset(), s.pads);
  }

  lemma CarsSectionRoundTrip(data: seq<u8>, s: GameState)
    requires HasAt(data, CarsOffset(s), EncodeCars(s.cars))
    ensures CarsAt(data, CarsOffset(s), |s.cars|).0 == s.cars
  {
    CarsRoundTrip(data, CarsOffset(s), s.cars);
  }

  /// The five header fields read back as written.
  lemma HeaderRoundTrip(data: seq<u8>, s: GameState)
    requires HasAt(data, 0, EncodeHeader(s))
    ensures U64At(data, 0) == (s.tickCount, 8)
    ensures F32At(data, 8) == (s.tickRate, 12)
    ensures U8At(data, 12) == (s.gameMode as int, 13)
    ensures U32At(data, NUM_PADS_OFFSET) == (CountU32(|s.pads|), 17)
    ensures U32At(data, NUM_CARS_OFFSET) == (CountU32(|s.cars|), 21)
  {
    var e1, e2, e3 := EncodeU64(s.tickCount), EncodeF32(s.tickRate), EncodeU8(s.gameMode as int);
    var e4, e5 := EncodeU32(CountU32(|s.pads|)), EncodeU32(CountU32(|s.cars|));
    HasAtSplit(data, 0, e1 + e2 + e3 + e4, e5);
    HasAtSplit(data, 0, e1 + e2 + e3, e4);
    HasAtSplit(data, 0, e1 + e2, e3);
    HasAtSplit(data, 0, e1, e2);
    U64RoundTrip(data, 0, s.tickCount);
    F32RoundTrip(data, 8, s.tickRate);
    U8RoundTrip(data, 12, s.gameMode as int);
    U32RoundTrip(data, 13, CountU32(|s.pads|));
    U32RoundTrip(data, 17, CountU32(|s.cars|));
  }

  /// from_bytes(to_bytes(s)) == s.
  lemma FromBytesToBytes(s: GameState)
    requires |s.pads| < 0x1_0000_0000 && |s.cars| < 0x1_0000_0000
    ensures DecodeGameState(EncodeGameState(s)) == s
  {
    var data := EncodeGameState(s);
    assert data[0..|data|] == data;
    DecodeEncode(data, s);
  }

  /// get_num_bytes on a packet from to_bytes returns that packet's length,
  /// under the same bound on the counts.
  lemma NumBytesToBytes(s: GameState)
    requires |s.pads| < 0x1_0000_0000 && |s.cars| < 0x1_0000_0000
    ensures NumBytes(EncodeGameState(s)) == |EncodeGameState(s)|
  {
    var data := EncodeGameState(s);
    HasAtSplit(data, 0, EncodeHeader(s), EncodeBallState(s.ball) + EncodePads(s.pads) + EncodeCars(s.cars));
    HeaderRoundTrip(data, s);
  }
}

=== FILE: wire_records.dfy ===
/** The records of the remote-visualisation wire format: a car, a boost pad
    and the ball, each written field by field in a fixed order and read back
    in the same order.

    Each record has
    - `EncodeX`: the bytes its writer appends, with their exact count;
    - `XAt`: what its reader returns with the cursor at a position, and
      where the cursor ends up;
    - `XRoundTrip`: reading where the record was written gives it back;
    - `WriteX` / `ReadX`: the writer and reader, proved against the two
      functions above.

    The records hold the fields that travel on the wire; the simulator's
    structures carry more, which this format does not transmit. */
module RLViserRecords {
  import opened RLViserBytes

  /// A car's team, as the byte that carries it (BLUE = 0, ORANGE = 1); the
  /// reader casts whatever byte it finds.
  type Team = u8
  const BLUE: Team := 0
  const ORANGE: Team := 1

  /// CarInfo::NUM_BYTES, BoostPadInfo::NUM_BYTES, and the ball size that
  /// get_num_bytes assumes.
  const CAR_INFO_NUM_BYTES: nat := 316
  const BOOST_PAD_INFO_NUM_BYTES: nat := 1 + 4 + 12 + 1
  const BALL_STATE_NUM_BYTES: nat := 12 + 36 + 12 + 12 + 12

  datatype WorldContact = WorldContact(hasContact: bool, contactNormal: Vec)

  datatype CarContact = CarContact(otherCarID: u32, cooldownTimer: F32)

  datatype BallHitInfo = BallHitInfo(
    isValid: bool, relativePosOnBall: Vec, ballPos: Vec, extraHitVel: Vec,
    tickCountWhenHit: u64, tickCountWhenExtraImpulseApplied: u64)

  datatype CarControls = CarControls(
    throttle: F32, steer: F32, pitch: F32, yaw: F32, roll: F32,
    boost: bool, jump: bool, handbrake: bool)

  /// The four wheel-contact flags of a car.
  type Wheels = w: seq<bool> | |w| == 4 witness [false, false, false, false]

  datatype CarState = CarState(
    pos: Vec, rotMat: RotMat, vel: Vec, angVel: Vec,
    isOnGround: bool, wheelsWithContact: Wheels,
    hasJumped: bool, hasDoubleJumped: bool, hasFlipped: bool, flipRelTorque: Vec,
    jumpTime: F32, flipTime: F32, isFlipping: bool, isJumping: bool,
    airTime: F32, airTimeSinceJump: F32, boost: F32, timeSinceBoosted: F32,
    isBoosting: bool, boostingTime: F32,
    isSupersonic: bool, supersonicTime: F32, handbrakeVal: F32,
    isAutoFlipping: bool, autoFlipTimer: F32, autoFlipTorqueScale: F32,
    worldContact: WorldContact, carContact: CarContact,
    isDemoed: bool, demoRespawnTimer: F32,
    ballHitInfo: BallHitInfo, lastControls: CarControls)

  datatype WheelPairConfig = WheelPairConfig(
    wheelRadius: F32, suspensionRestLength: F32, connectionPointOffset: Vec)

  datatype CarConfig = CarConfig(
    hitboxSize: Vec, hitboxPosOffset: Vec,
    frontWheels: WheelPairConfig, backWheels: WheelPairConfig, dodgeDeadzone: F32)

  datatype CarInfo = CarInfo(id: u32, team: Team, state: CarState, config: CarConfig)

  datatype BoostPadInfo = BoostPadInfo(isActive: bool, cooldown: F32, pos: Vec, isBig: bool)

  datatype HeatseekerInfo = HeatseekerInfo(yTargetDir: F32, curTargetSpeed: F32, timeSinceHit: F32)

  /// BallStateInfo's payload: the ball's state.
  datatype BallState = BallState(pos: Vec, rotMat: RotMat, vel: Vec, angVel: Vec, hsInfo: HeatseekerInfo)

  // ---------------------------------------------------------------------
  // The wheel-contact flags, which both sides move with a four-step loop

  /// A run of flags, one byte each, in order.
  function EncodeBools(bs: seq<bool>): (r: seq<u8>)
    ensures |r| == |bs|
  {
    if bs == [] then [] else EncodeBools(bs[..|bs| - 1]) + EncodeBool(bs[|bs| - 1])
  }

  function EncodeWheels(wheels: Wheels): (r: seq<u8>)
    ensures |r| == 4
  {
    EncodeBools(wheels)
  }

  /// Reading n flags one after another.
  function BoolsAt(data: seq<u8>, p: nat, n: nat): (r: (seq<bool>, nat))
    ensures |r.0| == n
    ensures p <= r.1 && (p <= |data| ==> r.1 <= |data|)
  {
    if n == 0 then ([], p)
    else
      var (bs, q) := BoolsAt(data, p, n - 1);
      var (b, q') := BoolAt(data, q);
      (bs + [b], q')
  }

  function WheelsAt(data: seq<u8>, p: nat): (r: (Wheels, nat))
    ensures p <= r.1 && (p <= |data| ==> r.1 <= |data|)
  {
    BoolsAt(data, p, 4)
  }

  lemma {:induction false} BoolsRoundTrip(data: seq<u8>, p: nat, bs: seq<bool>)
    requires HasAt(data, p, EncodeBools(bs))
    ensures BoolsAt(data, p, |bs|) == (bs, p + |bs|)
  {
    if bs != [] {
      var init, last := bs[..|bs| - 1], bs[|bs| - 1];
      assert EncodeBools(bs) == EncodeBools(init) + EncodeBool(last);
      HasAtSplit(data, p, EncodeBools(init), EncodeBool(last));
      BoolsRoundTrip(data, p, init);
      BoolRoundTrip(data, p + |init|, last);
      assert BoolsAt(data, p, |bs|) == (init + [last], p + |init| + 1);
      assert init + [last] == bs;
    }
  }

  lemma WheelsRoundTrip(data: seq<u8>, p: nat, wheels: Wheels)
    requires HasAt(data, p, EncodeWheels(wheels))
    ensures WheelsAt(data, p) == (wheels, p + 4)
  {
    BoolsRoundTrip(data, p, wheels);
  }

  method WriteWheels(w: ByteWriter, wheels: Wheels)
    modifies w
    ensures w.data == old(w.data) + EncodeWheels(wheels)
  {
    for i := 0 to 4
      invariant w.data == old(w.data) + EncodeBools(wheels[..i])
    {
      assert wheels[..i + 1][..i] == wheels[..i];
      w.WriteBool(wheels[i]);
    }
    assert wheels[..4] == wheels;
  }

  method ReadWheels(r: ByteReader) returns (wheels: Wheels)
    modifies r
    ensures (wheels, r.pos) == WheelsAt(r.data, old(r.pos))
  {
    var flags: seq<bool> := [];
    for i := 0 to 4
      invariant (flags, r.pos) == BoolsAt(r.data, old(r.pos), i)
    {
      var b := r.ReadBool();
      flags := flags + [b];
    }
    wheels := flags;
  }

  // ---------------------------------------------------------------------
  // Nested RocketSim records, in the order CarInfo::write emits their fields

  /// The bytes a WorldContact occupies on the wire (13).
  function EncodeWorldContact(c: WorldContact): (r: seq<u8>)
    ensures |r| == 13
  {
    EncodeBool(c.hasContact)
      + EncodeVec(c.contactNormal)
  }

  /// Decoding a WorldContact with the cursor at p.
  function WorldContactAt(data: seq<u8>, p: nat): (r: (WorldContact, nat))
    ensures p <= r.1 && (p <= |data| ==> r.1 <= |data|)
  {
    var (hasContact, p1) := BoolAt(data, p);
    var (contactNormal, p2) := VecAt(data, p1);
    (WorldContact(hasContact, contactNormal), p2)
  }

  /// Reading where a WorldContact was written gives it back, 13 bytes further on.
  lemma WorldContactRoundTrip(data: seq<u8>, p: nat, c: WorldContact)
    requires HasAt(data, p, EncodeWorldContact(c))
    ensures WorldContactAt(data, p) == (c, p + 13)
  {
    var e1 := EncodeBool(c.hasContact);
    var e2 := EncodeVec(c.contactNormal);
    HasAtSplit(data, p, e1, e2);
    BoolRoundTrip(data, p, c.hasContact);
    VecRoundTrip(data, p + 1, c.contactNormal);
  }

  method WriteWorldContact(w: ByteWriter, c: WorldContact)
    modifies w
    ensures w.data == old(w.data) + EncodeWorldContact(c)
  {
    w.WriteBool(c.hasContact);
    w.WriteVec(c.contactNormal);
  }


  method ReadWorldContact(r: ByteReader) returns (c: WorldContact)
    modifies r
    ensures (c, r.pos) == WorldContactAt(r.data, old(r.pos))
  {
    var hasContact := r.ReadBool();
    var contactNormal := r.ReadVec();
    c := WorldContact(hasContact, contactNormal);
  }

  /// The bytes a CarContact occupies on the wire (8).
  function EncodeCarContact(c: CarContact): (r: seq<u8>)
    ensures |r| == 8
  {
    EncodeU32(c.otherCarID)
      + EncodeF32(c.cooldownTimer)
  }

  /// Decoding a CarContact with the cursor at p.
  function CarContactAt(data: seq<u8>, p: nat): (r: (CarContact, nat))
    ensures p <= r.1 && (p <= |data| ==> r.1 <= |data|)
  {
    var (otherCarID, p1) := U32At(data, p);
    var (cooldownTimer, p2) := F32At(data, p1);
    (CarContact(otherCarID, cooldownTimer), p2)
  }

  /// Reading where a CarContact was written gives it back, 8 bytes further on.
  lemma CarContactRoundTrip(data: seq<u8>, p: nat, c: CarContact)
    requires HasAt(data, p, EncodeCarContact(c))
    ensures CarContactAt(data, p) == (c, p + 8)
  {
    var e1 := EncodeU32(c.otherCarID);
    var e2 := EncodeF32(c.cooldownTimer);
    HasAtSplit(data, p, e1, e2);
    U32RoundTrip(data, p, c.otherCarID);
    F32RoundTrip(data, p + 4, c.cooldownTimer);
  }

  method WriteCarContact(w: ByteWriter, c: CarContact)
    modifies w
    ensures w.data == old(w.data) + EncodeCarContact(c)
  {
    w.WriteU32(c.otherCarID);
    w.WriteF32(c.cooldownTimer);
  }


  method ReadCarContact(r: ByteReader) returns (c: CarContact)
    modifies r
    ensures (c, r.pos) == CarContactAt(r.data, old(r.pos))
  {
    var otherCarID := r.ReadU32();
    var cooldownTimer := r.ReadF32();
    c := CarContact(otherCarID, cooldownTimer);
  }

  /// The bytes a BallHitInfo occupies on the wire (53).
  function EncodeBallHitInfo(h: BallHitInfo): (r: seq<u8>)
    ensures |r| == 53
  {
    EncodeBool(h.isValid)
      + EncodeVec(h.relativePosOnBall)
      + EncodeVec(h.ballPos)
      + EncodeVec(h.extraHitVel)
      + EncodeU64(h.tickCountWhenHit)
      + EncodeU64(h.tickCountWhenExtraImpulseApplied)
  }

  /// Decoding a BallHitInfo with the cursor at p.
  function BallHitInfoAt(data: seq<u8>, p: nat): (r: (BallHitInfo, nat))
    ensures p <= r.1 && (p <= |data| ==> r.1 <= |data|)
  {
    var (isValid, p1) := BoolAt(data, p);
    var (relativePosOnBall, p2) := VecAt(data, p1);
    var (ballPos, p3) := VecAt(data, p2);
    var (extraHitVel, p4) := VecAt(data, p3);
    var (tickCountWhenHit, p5) := U64At(data, p4);
    var (tickCountWhenExtraImpulseApplied, p6) := U64At(data, p5);
    (BallHitInfo(isValid, relativePosOnBall, ballPos, extraHitVel, tickCountWhenHit, tickCountWhenExtraImpulseApplied), p6)
  }

  /// Reading where a BallHitInfo was written gives it back, 53 bytes further on.
  lemma BallHitInfoRoundTrip(data: seq<u8>, p: nat, h: BallHitInfo)
    requires HasAt(data, p, EncodeBallHitInfo(h))
    ensures BallHitInfoAt(data, p) == (h, p + 53)
  {
    var e1 := EncodeBool(h.isValid);
    var e2 := EncodeVec(h.relativePosOnBall);
    var e3 := EncodeVec(h.ballPos);
    var e4 := EncodeVec(h.extraHitVel);
    var e5 := EncodeU64(h.tickCountWhenHit);
    var e6 := EncodeU64(h.tickCountWhenExtraImpulseApplied);
    var a2 := e1 + e2;
    var a3 := a2 + e3;
    var a4 := a3 + e4;
    var a5 := a4 + e5;
    assert |a2| == 13 && |a3| == 25 && |a4| == 37 && |a5| == 45;
    HasAtSplit(data, p, a5, e6);
    HasAtSplit(data, p, a4, e5);
    HasAtSplit(data, p, a3, e4);
    HasAtSplit(data, p, a2, e3);
    HasAtSplit(data, p, e1, e2);
    BoolRoundTrip(data, p, h.isValid);
    VecRoundTrip(data, p + 1, h.relativePosOnBall);
    VecRoundTrip(data, p + 13, h.ballPos);
    VecRoundTrip(data, p + 25, h.extraHitVel);
    U64RoundTrip(data, p + 37, h.tickCountWhenHit);
    U64RoundTrip(data, p + 45, h.tickCountWhenExtraImpulseApplied);
  }

  method WriteBallHitInfo(w: ByteWriter, h: BallHitInfo)
    modifies w
    ensures w.data == old(w.data) + EncodeBallHitInfo(h)
  {
    w.WriteBool(h.isValid);
    w.WriteVec(h.relativePosOnBall);
    w.WriteVec(h.ballPos);
    w.WriteVec(h.extraHitVel);
    w.WriteU64(h.tickCountWhenHit);
    w.WriteU64(h.tickCountWhenExtraImpulseApplied);
    AppendBallHitInfo(old(w.data), h);
  }

  lemma AppendBallHitInfo(acc: seq<u8>, h: BallHitInfo)
    ensures acc + EncodeBool(h.isValid) + EncodeVec(h.relativePosOnBall) + EncodeVec(h.ballPos) + EncodeVec(h.extraHitVel) + EncodeU64(h.tickCountWhenHit) + EncodeU64(h.tickCountWhenExtraImpulseApplied) == acc + EncodeBallHitInfo(h)
  {
  }

  method ReadBallHitInfo(r: ByteReader) returns (h: BallHitInfo)
    modifies r
    ensures (h, r.pos) == BallHitInfoAt(r.data, old(r.pos))
  {
    var isValid := r.ReadBool();
    var relativePosOnBall := r.ReadVec();
    var ballPos := r.ReadVec();
    var extraHitVel := r.ReadVec();
    var tickCountWhenHit := r.ReadU64();
    var tickCountWhenExtraImpulseApplied := r.ReadU64();
    h := BallHitInfo(isValid, relativePosOnBall, ballPos, extraHitVel, tickCountWhenHit, tickCountWhenExtraImpulseApplied);
  }

  /// The bytes a CarControls occupies on the wire (23).
  function EncodeCarControls(c: CarControls): (r: seq<u8>)
    ensures |r| == 23
  {
    EncodeF32(c.throttle)
      + EncodeF32(c.steer)
      + EncodeF32(c.pitch)
      + EncodeF32(c.yaw)
      + EncodeF32(c.roll)
      + EncodeBool(c.boost)
      + EncodeBool(c.jump)
      + EncodeBool(c.handbrake)
  }

  /// Decoding a CarControls with the cursor at p.
  function CarControlsAt(data: seq<u8>, p: nat): (r: (CarControls, nat))
    ensures p <= r.1 && (p <= |data| ==> r.1 <= |data|)
  {
    var (throttle, p1) := F32At(data, p);
    var (steer, p2) := F32At(data, p1);
    var (pitch, p3) := F32At(data, p2);
    var (yaw, p4) := F32At(data, p3);
    var (roll, p5) := F32At(data, p4);
    var (boost, p6) := BoolAt(data, p5);
    var (jump, p7) := BoolAt(data, p6);
    var (handbrake, p8) := BoolAt(data, p7);
    (CarControls(throttle, steer, pitch, yaw, roll, boost, jump, handbrake), p8)
  }

  /// Reading where a CarControls was written gives it back, 23 bytes further on.
  lemma CarControlsRoundTrip(data: seq<u8>, p: nat, c: CarControls)
    requires HasAt(data, p, EncodeCarControls(c))
    ensures CarControlsAt(data, p) == (c, p + 23)
  {
    var e1 := EncodeF32(c.throttle);
    var e2 := EncodeF32(c.steer);
    var e3 := EncodeF32(c.pitch);
    var e4 := EncodeF32(c.yaw);
    var e5 := EncodeF32(c.roll);
    var e6 := EncodeBool(c.boost);
    var e7 := EncodeBool(c.jump);
    var e8 := EncodeBool(c.handbrake);
    var a2 := e1 + e2;
    var a3 := a2 + e3;
    var a4 := a3 + e4;
    var a5 := a4 + e5;
    var a6 := a5 + e6;
    var a7 := a6 + e7;
    assert |a2| == 8 && |a3| == 12 && |a4| == 16 && |a5| == 20 && |a6| == 21 && |a7| == 22;
    HasAtSplit(data, p, a7, e8);
    HasAtSplit(data, p, a6, e7);
    HasAtSplit(data, p, a5, e6);
    HasAtSplit(data, p, a4, e5);
    HasAtSplit(data, p, a3, e4);
    HasAtSplit(data, p, a2, e3);
    HasAtSplit(data, p, e1, e2);
    F32RoundTrip(data, p, c.throttle);
    F32RoundTrip(data, p + 4, c.steer);
    F32RoundTrip(data, p + 8, c.pitch);
    F32RoundTrip(data, p + 12, c.yaw);
    F32RoundTrip(data, p + 16, c.roll);
    BoolRoundTrip(data, p + 20, c.boost);
    BoolRoundTrip(data, p + 21, c.jump);
    BoolRoundTrip(data, p + 22, c.handbrake);
  }

  method WriteCarControls(w: ByteWriter, c: CarControls)
    modifies w
    ensures w.data == old(w.data) + EncodeCarControls(c)
  {
    w.WriteF32(c.throttle);
    w.WriteF32(c.steer);
    w.WriteF32(c.pitch);
    w.WriteF32(c.yaw);
    w.WriteF32(c.roll);
    w.WriteBool(c.boost);
    w.WriteBool(c.jump);
    w.WriteBool(c.handbrake);
    AppendCarControls(old(w.data), c);
  }

  lemma AppendCarControls(acc: seq<u8>, c: CarControls)
    ensures acc + EncodeF32(c.throttle) + EncodeF32(c.steer) + EncodeF32(c.pitch) + EncodeF32(c.yaw) + EncodeF32(c.roll) + EncodeBool(c.boost) + EncodeBool(c.jump) + EncodeBool(c.handbrake) == acc + EncodeCarControls(c)
  {
  }

  method ReadCarControls(r: ByteReader) returns (c: CarControls)
    modifies r
    ensures (c, r.pos) == CarControlsAt(r.data, old(r.pos))
  {
    var throttle := r.ReadF32();
    var steer := r.ReadF32();
    var pitch := r.ReadF32();
    var yaw := r.ReadF32();
    var roll := r.ReadF32();
    var boost := r.ReadBool();
    var jump := r.ReadBool();
    var handbrake := r.ReadBool();
    c := CarControls(throttle, steer, pitch, yaw, roll, boost, jump, handbrake);
  }

  /// The bytes a WheelPairConfig occupies on the wire (20).
  function EncodeWheelPairConfig(c: WheelPairConfig): (r: seq<u8>)
    ensures |r| == 20
  {
    EncodeF32(c.wheelRadius)
      + EncodeF32(c.suspensionRestLength)
      + EncodeVec(c.connectionPointOffset)
  }

  /// Decoding a WheelPairConfig with the cursor at p.
  function WheelPairConfigAt(data: seq<u8>, p: nat): (r: (WheelPairConfig, nat))
    ensures p <= r.1 && (p <= |data| ==> r.1 <= |data|)
  {
    var (wheelRadius, p1) := F32At(data, p);
    var (suspensionRestLength, p2) := F32At(data, p1);
    var (connectionPointOffset, p3) := VecAt(data, p2);
    (WheelPairConfig(wheelRadius, suspensionRestLength, connectionPointOffset), p3)
  }

  /// Reading where a WheelPairConfig was written gives it back, 20 bytes further on.
  lemma WheelPairConfigRoundTrip(data: seq<u8>, p: nat, c: WheelPairConfig)
    requires HasAt(data, p, EncodeWheelPairConfig(c))
    ensures WheelPairConfigAt(data, p) == (c, p + 20)
  {
    var e1 := EncodeF32(c.wheelRadius);
    var e2 := EncodeF32(c.suspensionRestLength);
    var e3 := EncodeVec(c.connectionPointOffset);
    HasAtSplit(data, p, e1 + e2, e3);
    HasAtSplit(data, p, e1, e2);
    F32RoundTrip(data, p, c.wheelRadius);
    F32RoundTrip(data, p + 4, c.suspensionRestLength);
    VecRoundTrip(data, p + 8, c.connectionPointOffset);
  }

  method WriteWheelPairConfig(w: ByteWriter, c: WheelPairConfig)
    modifies w
    ensures w.data == old(w.data) + EncodeWheelPairConfig(c)
  {
    w.WriteF32(c.wheelRadius);
    w.WriteF32(c.suspensionRestLength);
    w.WriteVec(c.connectionPointOffset);
    AppendWheelPairConfig(old(w.data), c);
  }

  lemma AppendWheelPairConfig(acc: seq<u8>, c: WheelPairConfig)
    ensures acc + EncodeF32(c.wheelRadius) + EncodeF32(c.suspensionRestLength) + EncodeVec(c.connectionPointOffset) == acc + EncodeWheelPairConfig(c)
  {
  }

  method ReadWheelPairConfig(r: ByteReader) returns (c: WheelPairConfig)
    modifies r
    ensures (c, r.pos) == WheelPairConfigAt(r.data, old(r.pos))
  {
    var wheelRadius := r.ReadF32();
    var suspensionRestLength := r.ReadF32();
    var connectionPointOffset := r.ReadVec();
    c := WheelPairConfig(wheelRadius, suspensionRestLength, connectionPointOffset);
  }

  /// The bytes a CarConfig occupies on the wire (68).
  function EncodeCarConfig(c: CarConfig): (r: seq<u8>)
    ensures |r| == 68
  {
    EncodeVec(c.hitboxSize)
      + EncodeVec(c.hitboxPosOffset)
      + EncodeWheelPairConfig(c.frontWheels)
      + EncodeWheelPairConfig(c.backWheels)
      + EncodeF32(c.dodgeDeadzone)
  }

  /// Decoding a CarConfig with the cursor at p.
  function CarConfigAt(data: seq<u8>, p: nat): (r: (CarConfig, nat))
    ensures p <= r.1 && (p <= |data| ==> r.1 <= |data|)
  {
    var (hitboxSize, p1) := VecAt(data, p);
    var (hitboxPosOffset, p2) := VecAt(data, p1);
    var (frontWheels, p3) := WheelPairConfigAt(data, p2);
    var (backWheels, p4) := WheelPairConfigAt(data, p3);
    var (dodgeDeadzone, p5) := F32At(data, p4);
    (CarConfig(hitboxSize, hitboxPosOffset, frontWheels, backWheels, dodgeDeadzone), p5)
  }

  /// Reading where a CarConfig was written gives it back, 68 bytes further on.
  lemma CarConfigRoundTrip(data: seq<u8>, p: nat, c: CarConfig)
    requires HasAt(data, p, EncodeCarConfig(c))
    ensures CarConfigAt(data, p) == (c, p + 68)
  {
    var e1 := EncodeVec(c.hitboxSize);
    var e2 := EncodeVec(c.hitboxPosOffset);
    var e3 := EncodeWheelPairConfig(c.frontWheels);
    var e4 := EncodeWheelPairConfig(c.backWheels);
    var e5 := EncodeF32(c.dodgeDeadzone);
    HasAtSplit(data, p, e1 + e2 + e3 + e4, e5);
    HasAtSplit(data, p, e1 + e2 + e3, e4);
    HasAtSplit(data, p, e1 + e2, e3);
    HasAtSplit(data, p, e1, e2);
    VecRoundTrip(data, p, c.hitboxSize);
    VecRoundTrip(data, p + 12, c.hitboxPosOffset);
    WheelPairConfigRoundTrip(data, p + 24, c.frontWheels);
    WheelPairConfigRoundTrip(data, p + 44, c.backWheels);
    F32RoundTrip(data, p + 64, c.dodgeDeadzone);
  }

  method WriteCarConfig(w: ByteWriter, c: CarConfig)
    modifies w
    ensures w.data == old(w.data) + EncodeCarConfig(c)
  {
    w.WriteVec(c.hitboxSize);
    w.WriteVec(c.hitboxPosOffset);
    WriteWheelPairConfig(w, c.frontWheels);
    WriteWheelPairConfig(w, c.backWheels);
    w.WriteF32(c.dodgeDeadzone);
    AppendCarConfig(old(w.data), c);
  }

  lemma AppendCarConfig(acc: seq<u8>, c: CarConfig)
    ensures acc + EncodeVec(c.hitboxSize) + EncodeVec(c.hitboxPosOffset) + EncodeWheelPairConfig(c.frontWheels) + EncodeWheelPairConfig(c.backWheels) + EncodeF32(c.dodgeDeadzone) == acc + EncodeCarConfig(c)
  {
  }

  method ReadCarConfig(r: ByteReader) returns (c: CarConfig)
    modifies r
    ensures (c, r.pos) == CarConfigAt(r.data, old(r.pos))
  {
    var hitboxSize := r.ReadVec();
    var hitboxPosOffset := r.ReadVec();
    var frontWheels := ReadWheelPairConfig(r);
    var backWheels := ReadWheelPairConfig(r);
    var dodgeDeadzone := r.ReadF32();
    c := CarConfig(hitboxSize, hitboxPosOffset, frontWheels, backWheels, dodgeDeadzone);
  }

  // ---------------------------------------------------------------------
  // CarState, written in runs of consecutive fields

  /// Position, orientation and velocities (72 bytes).
  function EncodeCarPhysics(s: CarState): (r: seq<u8>)
    ensures |r| == 72
  {
    EncodeVec(s.pos)
      + EncodeRotMat(s.rotMat)
      + EncodeVec(s.vel)
      + EncodeVec(s.angVel)
  }

  function CarPhysicsAt(data: seq<u8>, p: nat): (r: (Vec, RotMat, Vec, Vec, nat))
    ensures p <= r.4 && (p <= |data| ==> r.4 <= |data|)
  {
    var (pos, p1) := VecAt(data, p);
    var (rotMat, p2) := RotMatAt(data, p1);
    var (vel, p3) := VecAt(data, p2);
    var (angVel, p4) := VecAt(data, p3);
    (pos, rotMat, vel, angVel, p4)
  }

  lemma CarPhysicsRoundTrip(data: seq<u8>, p: nat, s: CarState)
    requires HasAt(data, p, EncodeCarPhysics(s))
    ensures CarPhysicsAt(data, p) == (s.pos, s.rotMat, s.vel, s.angVel, p + 72)
  {
    var e1 := EncodeVec(s.pos);
    var e2 := EncodeRotMat(s.rotMat);
    var e3 := EncodeVec(s.vel);
    var e4 := EncodeVec(s.angVel);
    HasAtSplit(data, p, e1 + e2 + e3, e4);
    HasAtSplit(data, p, e1 + e2, e3);
    HasAtSplit(data, p, e1, e2);
    VecRoundTrip(data, p, s.pos);
    RotMatRoundTrip(data, p + 12, s.rotMat);
    VecRoundTrip(data, p + 48, s.vel);
    VecRoundTrip(data, p + 60, s.angVel);
  }

  method WriteCarPhysics(w: ByteWriter, s: CarState)
    modifies w
    ensures w.data == old(w.data) + EncodeCarPhysics(s)
  {
    w.WriteVec(s.pos);
    w.WriteRotMat(s.rotMat);
    w.WriteVec(s.vel);
    w.WriteVec(s.angVel);
    AppendCarPhysics(old(w.data), s);
  }

  lemma AppendCarPhysics(acc: seq<u8>, s: CarState)
    ensures acc + EncodeVec(s.pos) + EncodeRotMat(s.rotMat) + EncodeVec(s.vel) + EncodeVec(s.angVel) == acc + EncodeCarPhysics(s)
  {
  }

  method ReadCarPhysics(r: ByteReader) returns (pos: Vec, rotMat: RotMat, vel: Vec, angVel: Vec)
    modifies r
    ensures (pos, rotMat, vel, angVel, r.pos) == CarPhysicsAt(r.data, old(r.pos))
  {
    pos := r.ReadVec();
    rotMat := r.ReadRotMat();
    vel := r.ReadVec();
    angVel := r.ReadVec();
  }

  /// Ground contact and the four wheel-contact flags (5 bytes).
  function EncodeCarGround(s: CarState): (r: seq<u8>)
    ensures |r| == 5
  {
    EncodeBool(s.isOnGround)
      + EncodeWheels(s.wheelsWithContact)
  }

  function CarGroundAt(data: seq<u8>, p: nat): (r: (bool, Wheels, nat))
    ensures p <= r.2 && (p <= |data| ==> r.2 <= |data|)
  {
    var (isOnGround, p1) := BoolAt(data, p);
    var (wheelsWithContact, p2) := WheelsAt(data, p1);
    (isOnGround, wheelsWithContact, p2)
  }

  lemma CarGroundRoundTrip(data: seq<u8>, p: nat, s: CarState)
    requires HasAt(data, p, EncodeCarGround(s))
    ensures CarGroundAt(data, p) == (s.isOnGround, s.wheelsWithContact, p + 5)
  {
    var e1 := EncodeBool(s.isOnGround);
    var e2 := EncodeWheels(s.wheelsWithContact);
    HasAtSplit(data, p, e1, e2);
    BoolRoundTrip(data, p, s.isOnGround);
    WheelsRoundTrip(data, p + 1, s.wheelsWithContact);
  }

  method WriteCarGround(w: ByteWriter, s: CarState)
    modifies w
    ensures w.data == old(w.data) + EncodeCarGround(s)
  {
    w.WriteBool(s.isOnGround);
    WriteWheels(w, s.wheelsWithContact);
  }


  method ReadCarGround(r: ByteReader) returns (isOnGround: bool, wheelsWithContact: Wheels)
    modifies r
    ensures (isOnGround, wheelsWithContact, r.pos) == CarGroundAt(r.data, old(r.pos))
  {
    isOnGround := r.ReadBool();
    wheelsWithContact := ReadWheels(r);
  }

  /// Jump and flip flags and the flip torque (15 bytes).
  function EncodeCarJump(s: CarState): (r: seq<u8>)
    ensures |r| == 15
  {
    EncodeBool(s.hasJumped)
      + EncodeBool(s.hasDoubleJumped)
      + EncodeBool(s.hasFlipped)
      + EncodeVec(s.flipRelTorque)
  }

  function CarJumpAt(data: seq<u8>, p: nat): (r: (bool, bool, bool, Vec, nat))
    ensures p <= r.4 && (p <= |data| ==> r.4 <= |data|)
  {
    var (hasJumped, p1) := BoolAt(data, p);
    var (hasDoubleJumped, p2) := BoolAt(data, p1);
    var (hasFlipped, p3) := BoolAt(data, p2);
    var (flipRelTorque, p4) := VecAt(data, p3);
    (hasJumped, hasDoubleJumped, hasFlipped, flipRelTorque, p4)
  }

  lemma CarJumpRoundTrip(data: seq<u8>, p: nat, s: CarState)
    requires HasAt(data, p, EncodeCarJump(s))
    ensures CarJumpAt(data, p) == (s.hasJumped, s.hasDoubleJumped, s.hasFlipped, s.flipRelTorque, p + 15)
  {
    var e1 := EncodeBool(s.hasJumped);
    var e2 := EncodeBool(s.hasDoubleJumped);
    var e3 := EncodeBool(s.hasFlipped);
    var e4 := EncodeVec(s.flipRelTorque);
    HasAtSplit(data, p, e1 + e2 + e3, e4);
    HasAtSplit(data, p, e1 + e2, e3);
    HasAtSplit(data, p, e1, e2);
    BoolRoundTrip(data, p, s.hasJumped);
    BoolRoundTrip(data, p + 1, s.hasDoubleJumped);
    BoolRoundTrip(data, p + 2, s.hasFlipped);
    VecRoundTrip(data, p + 3, s.flipRelTorque);
  }

  method WriteCarJump(w: ByteWriter, s: CarState)
    modifies w
    ensures w.data == old(w.data) + EncodeCarJump(s)
  {
    w.WriteBool(s.hasJumped);
    w.WriteBool(s.hasDoubleJumped);
    w.WriteBool(s.hasFlipped);
    w.WriteVec(s.flipRelTorque);
    AppendCarJump(old(w.data), s);
  }

  lemma AppendCarJump(acc: seq<u8>, s: CarState)
    ensures acc + EncodeBool(s.hasJumped) + EncodeBool(s.hasDoubleJumped) + EncodeBool(s.hasFlipped) + EncodeVec(s.flipRelTorque) == acc + EncodeCarJump(s)
  {
  }

  method ReadCarJump(r: ByteReader) returns (hasJumped: bool, hasDoubleJumped: bool, hasFlipped: bool, flipRelTorque: Vec)
    modifies r
    ensures (hasJumped, hasDoubleJumped, hasFlipped, flipRelTorque, r.pos) == CarJumpAt(r.data, old(r.pos))
  {
    hasJumped := r.ReadBool();
    hasDoubleJumped := r.ReadBool();
    hasFlipped := r.ReadBool();
    flipRelTorque := r.ReadVec();
  }

  /// Jump and flip timers and progress (10 bytes).
  function EncodeCarJumpTimers(s: CarState): (r: seq<u8>)
    ensures |r| == 10
  {
    EncodeF32(s.jumpTime)
      + EncodeF32(s.flipTime)
      + EncodeBool(s.isFlipping)
      + EncodeBool(s.isJumping)
  }

  function CarJumpTimersAt(data: seq<u8>, p: nat): (r: (F32, F32, bool, bool, nat))
    ensures p <= r.4 && (p <= |data| ==> r.4 <= |data|)
  {
    var (jumpTime, p1) := F32At(data, p);
    var (flipTime, p2) := F32At(data, p1);
    var (isFlipping, p3) := BoolAt(data, p2);
    var (isJumping, p4) := BoolAt(data, p3);
    (jumpTime, flipTime, isFlipping, isJumping, p4)
  }

  lemma CarJumpTimersRoundTrip(data: seq<u8>, p: nat, s: CarState)
    requires HasAt(data, p, EncodeCarJumpTimers(s))
    ensures CarJumpTimersAt(data, p) == (s.jumpTime, s.flipTime, s.isFlipping, s.isJumping, p + 10)
  {
    var e1 := EncodeF32(s.jumpTime);
    var e2 := EncodeF32(s.flipTime);
    var e3 := EncodeBool(s.isFlipping);
    var e4 := EncodeBool(s.isJumping);
    HasAtSplit(data, p, e1 + e2 + e3, e4);
    HasAtSplit(data, p, e1 + e2, e3);
    HasAtSplit(data, p, e1, e2);
    F32RoundTrip(data, p, s.jumpTime);
    F32RoundTrip(data, p + 4, s.flipTime);
    BoolRoundTrip(data, p + 8, s.isFlipping);
    BoolRoundTrip(data, p + 9, s.isJumping);
  }

  method WriteCarJumpTimers(w: ByteWriter, s: CarState)
    modifies w
    ensures w.data == old(w.data) + EncodeCarJumpTimers(s)
  {
    w.WriteF32(s.jumpTime);
    w.WriteF32(s.flipTime);
    w.WriteBool(s.isFlipping);
    w.WriteBool(s.isJumping);
    AppendCarJumpTimers(old(w.data), s);
  }

  lemma AppendCarJumpTimers(acc: seq<u8>, s: CarState)
    ensures acc + EncodeF32(s.jumpTime) + EncodeF32(s.flipTime) + EncodeBool(s.isFlipping) + EncodeBool(s.isJumping) == acc + EncodeCarJumpTimers(s)
  {
  }

  method ReadCarJumpTimers(r: ByteReader) returns (jumpTime: F32, flipTime: F32, isFlipping: bool, isJumping: bool)
    modifies r
    ensures (jumpTime, flipTime, isFlipping, isJumping, r.pos) == CarJumpTimersAt(r.data, old(r.pos))
  {
    jumpTime := r.ReadF32();
    flipTime := r.ReadF32();
    isFlipping := r.ReadBool();
    isJumping := r.ReadBool();
  }

  /// Air time and boost (21 bytes).
  function EncodeCarAirBoost(s: CarState): (r: seq<u8>)
    ensures |r| == 21
  {
    EncodeF32(s.airTime)
      + EncodeF32(s.airTimeSinceJump)
      + EncodeF32(s.boost)
      + EncodeF32(s.timeSinceBoosted)
      + EncodeBool(s.isBoosting)
      + EncodeF32(s.boostingTime)
  }

  function CarAirBoostAt(data: seq<u8>, p: nat): (r: (F32, F32, F32, F32, bool, F32, nat))
    ensures p <= r.6 && (p <= |data| ==> r.6 <= |data|)
  {
    var (airTime, p1) := F32At(data, p);
    var (airTimeSinceJump, p2) := F32At(data, p1);
    var (boost, p3) := F32At(data, p2);
    var (timeSinceBoosted, p4) := F32At(data, p3);
    var (isBoosting, p5) := BoolAt(data, p4);
    var (boostingTime, p6) := F32At(data, p5);
    (airTime, airTimeSinceJump, boost, timeSinceBoosted, isBoosting, boostingTime, p6)
  }

  lemma CarAirBoostRoundTrip(data: seq<u8>, p: nat, s: CarState)
    requires HasAt(data, p, EncodeCarAirBoost(s))
    ensures CarAirBoostAt(data, p) == (s.airTime, s.airTimeSinceJump, s.boost, s.timeSinceBoosted, s.isBoosting, s.boostingTime, p + 21)
  {
    var e1 := EncodeF32(s.airTime);
    var e2 := EncodeF32(s.airTimeSinceJump);
    var e3 := EncodeF32(s.boost);
    var e4 := EncodeF32(s.timeSinceBoosted);
    var e5 := EncodeBool(s.isBoosting);
    var e6 := EncodeF32(s.boostingTime);
    HasAtSplit(data, p, e1 + e2 + e3 + e4 + e5, e6);
    HasAtSplit(data, p, e1 + e2 + e3 + e4, e5);
    HasAtSplit(data, p, e1 + e2 + e3, e4);
    HasAtSplit(data, p, e1 + e2, e3);
    HasAtSplit(data, p, e1, e2);
    F32RoundTrip(data, p, s.airTime);
    F32RoundTrip(data, p + 4, s.airTimeSinceJump);
    F32RoundTrip(data, p + 8, s.boost);
    F32RoundTrip(data, p + 12, s.timeSinceBoosted);
    BoolRoundTrip(data, p + 16, s.isBoosting);
    F32RoundTrip(data, p + 17, s.boostingTime);
  }

  method WriteCarAirBoost(w: ByteWriter, s: CarState)
    modifies w
    ensures w.data == old(w.data) + EncodeCarAirBoost(s)
  {
    w.WriteF32(s.airTime);
    w.WriteF32(s.airTimeSinceJump);
    w.WriteF32(s.boost);
    w.WriteF32(s.timeSinceBoosted);
    w.WriteBool(s.isBoosting);
    w.WriteF32(s.boostingTime);
    AppendCarAirBoost(old(w.data), s);
  }

  lemma AppendCarAirBoost(acc: seq<u8>, s: CarState)
    ensures acc + EncodeF32(s.airTime) + EncodeF32(s.airTimeSinceJump) + EncodeF32(s.boost) + EncodeF32(s.timeSinceBoosted) + EncodeBool(s.isBoosting) + EncodeF32(s.boostingTime) == acc + EncodeCarAirBoost(s)
  {
  }

  method ReadCarAirBoost(r: ByteReader) returns (airTime: F32, airTimeSinceJump: F32, boost: F32, timeSinceBoosted: F32, isBoosting: bool, boostingTime: F32)
    modifies r
    ensures (airTime, airTimeSinceJump, boost, timeSinceBoosted, isBoosting, boostingTime, r.pos) == CarAirBoostAt(r.data, old(r.pos))
  {
    airTime := r.ReadF32();
    airTimeSinceJump := r.ReadF32();
    boost := r.ReadF32();
    timeSinceBoosted := r.ReadF32();
    isBoosting := r.ReadBool();
    boostingTime := r.ReadF32();
  }

  /// Supersonic, handbrake and auto-flip state (18 bytes).
  function EncodeCarSupersonic(s: CarState): (r: seq<u8>)
    ensures |r| == 18
  {
    EncodeBool(s.isSupersonic)
      + EncodeF32(s.supersonicTime)
      + EncodeF32(s.handbrakeVal)
      + EncodeBool(s.isAutoFlipping)
      + EncodeF32(s.autoFlipTimer)
      + EncodeF32(s.autoFlipTorqueScale)
  }

  function CarSupersonicAt(data: seq<u8>, p: nat): (r: (bool, F32, F32, bool, F32, F32, nat))
    ensures p <= r.6 && (p <= |data| ==> r.6 <= |data|)
  {
    var (isSupersonic, p1) := BoolAt(data, p);
    var (supersonicTime, p2) := F32At(data, p1);
    var (handbrakeVal, p3) := F32At(data, p2);
    var (isAutoFlipping, p4) := BoolAt(data, p3);
    var (autoFlipTimer, p5) := F32At(data, p4);
    var (autoFlipTorqueScale, p6) := F32At(data, p5);
    (isSupersonic, supersonicTime, handbrakeVal, isAutoFlipping, autoFlipTimer, autoFlipTorqueScale, p6)
  }

  lemma CarSupersonicRoundTrip(data: seq<u8>, p: nat, s: CarState)
    requires HasAt(data, p, EncodeCarSupersonic(s))
    ensures CarSupersonicAt(data, p) == (s.isSupersonic, s.supersonicTime, s.handbrakeVal, s.isAutoFlipping, s.autoFlipTimer, s.autoFlipTorqueScale, p + 18)
  {
    var e1 := EncodeBool(s.isSupersonic);
    var e2 := EncodeF32(s.supersonicTime);
    var e3 := EncodeF32(s.handbrakeVal);
    var e4 := EncodeBool(s.isAutoFlipping);
    var e5 := EncodeF32(s.autoFlipTimer);
    var e6 := EncodeF32(s.autoFlipTorqueScale);
    HasAtSplit(data, p, e1 + e2 + e3 + e4 + e5, e6);
    HasAtSplit(data, p, e1 + e2 + e3 + e4, e5);
    HasAtSplit(data, p, e1 + e2 + e3, e4);
    HasAtSplit(data, p, e1 + e2, e3);
    HasAtSplit(data, p, e1, e2);
    BoolRoundTrip(data, p, s.isSupersonic);
    F32RoundTrip(data, p + 1, s.supersonicTime);
    F32RoundTrip(data, p + 5, s.handbrakeVal);
    BoolRoundTrip(data, p + 9, s.isAutoFlipping);
    F32RoundTrip(data, p + 10, s.autoFlipTimer);
    F32RoundTrip(data, p + 14, s.autoFlipTorqueScale);
  }

  method WriteCarSupersonic(w: ByteWriter, s: CarState)
    modifies w
    ensures w.data == old(w.data) + EncodeCarSupersonic(s)
  {
    w.WriteBool(s.isSupersonic);
    w.WriteF32(s.supersonicTime);
    w.WriteF32(s.handbrakeVal);
    w.WriteBool(s.isAutoFlipping);
    w.WriteF32(s.autoFlipTimer);
    w.WriteF32(s.autoFlipTorqueScale);
    AppendCarSupersonic(old(w.data), s);
  }

  lemma AppendCarSupersonic(acc: seq<u8>, s: CarState)
    ensures acc + EncodeBool(s.isSupersonic) + EncodeF32(s.supersonicTime) + EncodeF32(s.handbrakeVal) + EncodeBool(s.isAutoFlipping) + EncodeF32(s.autoFlipTimer) + EncodeF32(s.autoFlipTorqueScale) == acc + EncodeCarSupersonic(s)
  {
  }

  method ReadCarSupersonic(r: ByteReader) returns (isSupersonic: bool, supersonicTime: F32, handbrakeVal: F32, isAutoFlipping: bool, autoFlipTimer: F32, autoFlipTorqueScale: F32)
    modifies r
    ensures (isSupersonic, supersonicTime, handbrakeVal, isAutoFlipping, autoFlipTimer, autoFlipTorqueScale, r.pos) == CarSupersonicAt(r.data, old(r.pos))
  {
    isSupersonic := r.ReadBool();
    supersonicTime := r.ReadF32();
    handbrakeVal := r.ReadF32();
    isAutoFlipping := r.ReadBool();
    autoFlipTimer := r.ReadF32();
    autoFlipTorqueScale := r.ReadF32();
  }

  /// World and car contact, demolition (26 bytes).
  function EncodeCarContacts(s: CarState): (r: seq<u8>)
    ensures |r| == 26
  {
    EncodeWorldContact(s.worldContact)
      + EncodeCarContact(s.carContact)
      + EncodeBool(s.isDemoed)
      + EncodeF32(s.demoRespawnTimer)
  }

  function CarContactsAt(data: seq<u8>, p: nat): (r: (WorldContact, CarContact, bool, F32, nat))
    ensures p <= r.4 && (p <= |data| ==> r.4 <= |data|)
  {
    var (worldContact, p1) := WorldContactAt(data, p);
    var (carContact, p2) := CarContactAt(data, p1);
    var (isDemoed, p3) := BoolAt(data, p2);
    var (demoRespawnTimer, p4) := F32At(data, p3);
    (worldContact, carContact, isDemoed, demoRespawnTimer, p4)
  }

  lemma CarContactsRoundTrip(data: seq<u8>, p: nat, s: CarState)
    requires HasAt(data, p, EncodeCarContacts(s))
    ensures CarContactsAt(data, p) == (s.worldContact, s.carContact, s.isDemoed, s.demoRespawnTimer, p + 26)
  {
    var e1 := EncodeWorldContact(s.worldContact);
    var e2 := EncodeCarContact(s.carContact);
    var e3 := EncodeBool(s.isDemoed);
    var e4 := EncodeF32(s.demoRespawnTimer);
    HasAtSplit(data, p, e1 + e2 + e3, e4);
    HasAtSplit(data, p, e1 + e2, e3);
    HasAtSplit(data, p, e1, e2);
    WorldContactRoundTrip(data, p, s.worldContact);
    CarContactRoundTrip(data, p + 13, s.carContact);
    BoolRoundTrip(data, p + 21, s.isDemoed);
    F32RoundTrip(data, p + 22, s.demoRespawnTimer);
  }

  method WriteCarContacts(w: ByteWriter, s: CarState)
    modifies w
    ensures w.data == old(w.data) + EncodeCarContacts(s)
  {
    WriteWorldContact(w, s.worldContact);
    WriteCarContact(w, s.carContact);
    w.WriteBool(s.isDemoed);
    w.WriteF32(s.demoRespawnTimer);
    AppendCarContacts(old(w.data), s);
  }

  lemma AppendCarContacts(acc: seq<u8>, s: CarState)
    ensures acc + EncodeWorldContact(s.worldContact) + EncodeCarContact(s.carContact) + EncodeBool(s.isDemoed) + EncodeF32(s.demoRespawnTimer) == acc + EncodeCarContacts(s)
  {
  }

  method ReadCarContacts(r: ByteReader) returns (worldContact: WorldContact, carContact: CarContact, isDemoed: bool, demoRespawnTimer: F32)
    modifies r
    ensures (worldContact, carContact, isDemoed, demoRespawnTimer, r.pos) == CarContactsAt(r.data, old(r.pos))
  {
    worldContact := ReadWorldContact(r);
    carContact := ReadCarContact(r);
    isDemoed := r.ReadBool();
    demoRespawnTimer := r.ReadF32();
  }

  /// The bytes a CarState occupies on the wire (243).
  function EncodeCarState(s: CarState): (r: seq<u8>)
    ensures |r| == 243
  {
    EncodeCarPhysics(s)
      + EncodeCarGround(s)
      + EncodeCarJump(s)
      + EncodeCarJumpTimers(s)
      + EncodeCarAirBoost(s)
      + EncodeCarSupersonic(s)
      + EncodeCarContacts(s)
      + EncodeBallHitInfo(s.ballHitInfo)
      + EncodeCarControls(s.lastControls)
  }

  /// Decoding a CarState with the cursor at p.
  function CarStateAt(data: seq<u8>, p: nat): (r: (CarState, nat))
    ensures p <= r.1 && (p <= |data| ==> r.1 <= |data|)
  {
    var (pos, rotMat, vel, angVel, p1) := CarPhysicsAt(data, p);
    var (isOnGround, wheelsWithContact, p2) := CarGroundAt(data, p1);
    var (hasJumped, hasDoubleJumped, hasFlipped, flipRelTorque, p3) := CarJumpAt(data, p2);
    var (jumpTime, flipTime, isFlipping, isJumping, p4) := CarJumpTimersAt(data, p3);
    var (airTime, airTimeSinceJump, boost, timeSinceBoosted, isBoosting, boostingTime, p5) := CarAirBoostAt(data, p4);
    var (isSupersonic, supersonicTime, handbrakeVal, isAutoFlipping, autoFlipTimer, autoFlipTorqueScale, p6) := CarSupersonicAt(data, p5);
    var (worldContact, carContact, isDemoed, demoRespawnTimer, p7) := CarContactsAt(data, p6);
    var (ballHitInfo, p8) := BallHitInfoAt(data, p7);
    var (lastControls, p9) := CarControlsAt(data, p8);
    (CarState(pos, rotMat, vel, angVel, isOnGround, wheelsWithContact, hasJumped, hasDoubleJumped, hasFlipped, flipRelTorque, jumpTime, flipTime, isFlipping, isJumping, airTime, airTimeSinceJump, boost, timeSinceBoosted, isBoosting, boostingTime, isSupersonic, supersonicTime, handbrakeVal, isAutoFlipping, autoFlipTimer, autoFlipTorqueScale, worldContact, carContact, isDemoed, demoRespawnTimer, ballHitInfo, lastControls), p9)
  }

  /// Reading where a CarState was written gives it back, 243 bytes further on.
  lemma CarStateRoundTrip(data: seq<u8>, p: nat, s: CarState)
    requires HasAt(data, p, EncodeCarState(s))
    ensures CarStateAt(data, p) == (s, p + 243)
  {
    var e1 := EncodeCarPhysics(s);
    var e2 := EncodeCarGround(s);
    var e3 := EncodeCarJump(s);
    var e4 := EncodeCarJumpTimers(s);
    var e5 := EncodeCarAirBoost(s);
    var e6 := EncodeCarSupersonic(s);
    var e7 := EncodeCarContacts(s);
    var e8 := EncodeBallHitInfo(s.ballHitInfo);
    var e9 := EncodeCarControls(s.lastControls);
    var a2 := e1 + e2;
    var a3 := a2 + e3;
    var a4 := a3 + e4;
    var a5 := a4 + e5;
    var a6 := a5 + e6;
    var a7 := a6 + e7;
    var a8 := a7 + e8;
    assert |a2| == 77 && |a3| == 92 && |a4| == 102 && |a5| == 123 && |a6| == 141 && |a7| == 167 && |a8| == 220;
    HasAtSplit(data, p, a8, e9);
    HasAtSplit(data, p, a7, e8);
    HasAtSplit(data, p, a6, e7);
    HasAtSplit(data, p, a5, e6);
    HasAtSplit(data, p, a4, e5);
    HasAtSplit(data, p, a3, e4);
    HasAtSplit(data, p, a2, e3);
    HasAtSplit(data, p, e1, e2);
    CarPhysicsRoundTrip(data, p, s);
    CarGroundRoundTrip(data, p + 72, s);
    CarJumpRoundTrip(data, p + 77, s);
    CarJumpTimersRoundTrip(data, p + 92, s);
    CarAirBoostRoundTrip(data, p + 102, s);
    CarSupersonicRoundTrip(data, p + 123, s);
    CarContactsRoundTrip(data, p + 141, s);
    BallHitInfoRoundTrip(data, p + 167, s.ballHitInfo);
    CarControlsRoundTrip(data, p + 220, s.lastControls);
  }

  method WriteCarState(w: ByteWriter, s: CarState)
    modifies w
    ensures w.data == old(w.data) + EncodeCarState(s)
  {
    WriteCarPhysics(w, s);
    WriteCarGround(w, s);
    WriteCarJump(w, s);
    WriteCarJumpTimers(w, s);
    WriteCarAirBoost(w, s);
    WriteCarSupersonic(w, s);
    WriteCarContacts(w, s);
    WriteBallHitInfo(w, s.ballHitInfo);
    WriteCarControls(w, s.lastControls);
    AppendCarState(old(w.data), s);
  }

  lemma AppendCarState(acc: seq<u8>, s: CarState)
    ensures acc + EncodeCarPhysics(s) + EncodeCarGround(s) + EncodeCarJump(s) + EncodeCarJumpTimers(s) + EncodeCarAirBoost(s) + EncodeCarSupersonic(s) + EncodeCarContacts(s) + EncodeBallHitInfo(s.ballHitInfo) + EncodeCarControls(s.lastControls) == acc + EncodeCarState(s)
  {
  }

  method ReadCarState(r: ByteReader) returns (s: CarState)
    modifies r
    ensures (s, r.pos) == CarStateAt(r.data, old(r.pos))
  {
    var pos, rotMat, vel, angVel := ReadCarPhysics(r);
    var isOnGround, wheelsWithContact := ReadCarGround(r);
    var hasJumped, hasDoubleJumped, hasFlipped, flipRelTorque := ReadCarJump(r);
    var jumpTime, flipTime, isFlipping, isJumping := ReadCarJumpTimers(r);
    var airTime, airTimeSinceJump, boost, timeSinceBoosted, isBoosting, boostingTime := ReadCarAirBoost(r);
    var isSupersonic, supersonicTime, handbrakeVal, isAutoFlipping, autoFlipTimer, autoFlipTorqueScale := ReadCarSupersonic(r);
    var worldContact, carContact, isDemoed, demoRespawnTimer := ReadCarContacts(r);
    var ballHitInfo := ReadBallHitInfo(r);
    var lastControls := ReadCarControls(r);
    s := CarState(pos, rotMat, vel, angVel, isOnGround, wheelsWithContact, hasJumped, hasDoubleJumped, hasFlipped, flipRelTorque, jumpTime, flipTime, isFlipping, isJumping, airTime, airTimeSinceJump, boost, timeSinceBoosted, isBoosting, boostingTime, isSupersonic, supersonicTime, handbrakeVal, isAutoFlipping, autoFlipTimer, autoFlipTorqueScale, worldContact, carContact, isDemoed, demoRespawnTimer, ballHitInfo, lastControls);
  }

  // ---------------------------------------------------------------------
  // The three records of the wire format

  /// CarInfo::write: id, team byte, car state, car config (316).
  function EncodeCarInfo(info: CarInfo): (r: seq<u8>)
    ensures |r| == CAR_INFO_NUM_BYTES
  {
    EncodeU32(info.id)
      + EncodeU8(info.team)
      + EncodeCarState(info.state)
      + EncodeCarConfig(info.config)
  }

  /// Decoding a CarInfo with the cursor at p.
  function CarInfoAt(data: seq<u8>, p: nat): (r: (CarInfo, nat))
    ensures p <= r.1 && (p <= |data| ==> r.1 <= |data|)
  {
    var (id, p1) := U32At(data, p);
    var (team, p2) := U8At(data, p1);
    var (state, p3) := CarStateAt(data, p2);
    assert p <= p3 && (p <= |data| ==> p3 <= |data|);
    var (config, p4) := CarConfigAt(data, p3);
    (CarInfo(id, team, state, config), p4)
  }

  /// Reading where a CarInfo was written gives it back, 316 bytes further on.
  lemma CarInfoRoundTrip(data: seq<u8>, p: nat, info: CarInfo)
    requires HasAt(data, p, EncodeCarInfo(info))
    ensures CarInfoAt(data, p) == (info, p + 316)
  {
    var e1 := EncodeU32(info.id);
    var e2 := EncodeU8(info.team);
    var e3 := EncodeCarState(info.state);
    var e4 := EncodeCarConfig(info.config);
    HasAtSplit(data, p, e1 + e2 + e3, e4);
    HasAtSplit(data, p, e1 + e2, e3);
    HasAtSplit(data, p, e1, e2);
    U32RoundTrip(data, p, info.id);
    U8RoundTrip(data, p + 4, info.team);
    CarStateRoundTrip(data, p + 5, info.state);
    CarConfigRoundTrip(data, p + 248, info.config);
  }

  method WriteCarInfo(w: ByteWriter, info: CarInfo)
    modifies w
    ensures w.data == old(w.data) + EncodeCarInfo(info)
  {
    w.WriteU32(info.id);
    w.WriteU8(info.team);
    WriteCarState(w, info.state);
    WriteCarConfig(w, info.config);
    AppendCarInfo(old(w.data), info);
  }

  lemma AppendCarInfo(acc: seq<u8>, info: CarInfo)
    ensures acc + EncodeU32(info.id) + EncodeU8(info.team) + EncodeCarState(info.state) + EncodeCarConfig(info.config) == acc + EncodeCarInfo(info)
  {
  }

  method ReadCarInfo(r: ByteReader) returns (info: CarInfo)
    modifies r
    ensures (info, r.pos) == CarInfoAt(r.data, old(r.pos))
  {
    var id := r.ReadU32();
    var team := r.ReadU8();
    var state := ReadCarState(r);
    var config := ReadCarConfig(r);
    info := CarInfo(id, team, state, config);
  }

  /// BoostPadInfo::write (18).
  function EncodeBoostPadInfo(pad: BoostPadInfo): (r: seq<u8>)
    ensures |r| == BOOST_PAD_INFO_NUM_BYTES
  {
    EncodeBool(pad.isActive)
      + EncodeF32(pad.cooldown)
      + EncodeVec(pad.pos)
      + EncodeBool(pad.isBig)
  }

  /// Decoding a BoostPadInfo with the cursor at p.
  function BoostPadInfoAt(data: seq<u8>, p: nat): (r: (BoostPadInfo, nat))
    ensures p <= r.1 && (p <= |data| ==> r.1 <= |data|)
  {
    var (isActive, p1) := BoolAt(data, p);
    var (cooldown, p2) := F32At(data, p1);
    var (pos, p3) := VecAt(data, p2);
    var (isBig, p4) := BoolAt(data, p3);
    (BoostPadInfo(isActive, cooldown, pos, isBig), p4)
  }

  /// Reading where a BoostPadInfo was written gives it back, 18 bytes further on.
  lemma BoostPadInfoRoundTrip(data: seq<u8>, p: nat, pad: BoostPadInfo)
    requires HasAt(data, p, EncodeBoostPadInfo(pad))
    ensures BoostPadInfoAt(data, p) == (pad, p + 18)
  {
    var e1 := EncodeBool(pad.isActive);
    var e2 := EncodeF32(pad.cooldown);
    var e3 := EncodeVec(pad.pos);
    var e4 := EncodeBool(pad.isBig);
    HasAtSplit(data, p, e1 + e2 + e3, e4);
    HasAtSplit(data, p, e1 + e2, e3);
    HasAtSplit(data, p, e1, e2);
    BoolRoundTrip(data, p, pad.isActive);
    F32RoundTrip(data, p + 1, pad.cooldown);
    VecRoundTrip(data, p + 5, pad.pos);
    BoolRoundTrip(data, p + 17, pad.isBig);
  }

  method WriteBoostPadInfo(w: ByteWriter, pad: BoostPadInfo)
    modifies w
    ensures w.data == old(w.data) + EncodeBoostPadInfo(pad)
  {
    w.WriteBool(pad.isActive);
    w.WriteF32(pad.cooldown);
    w.WriteVec(pad.pos);
    w.WriteBool(pad.isBig);
    AppendBoostPadInfo(old(w.data), pad);
  }

  lemma AppendBoostPadInfo(acc: seq<u8>, pad: BoostPadInfo)
    ensures acc + EncodeBool(pad.isActive) + EncodeF32(pad.cooldown) + EncodeVec(pad.pos) + EncodeBool(pad.isBig) == acc + EncodeBoostPadInfo(pad)
  {
  }

  method ReadBoostPadInfo(r: ByteReader) returns (pad: BoostPadInfo)
    modifies r
    ensures (pad, r.pos) == BoostPadInfoAt(r.data, old(r.pos))
  {
    var isActive := r.ReadBool();
    var cooldown := r.ReadF32();
    var pos := r.ReadVec();
    var isBig := r.ReadBool();
    pad := BoostPadInfo(isActive, cooldown, pos, isBig);
  }

  /// The bytes a HeatseekerInfo occupies on the wire (12).
  function EncodeHeatseekerInfo(hs: HeatseekerInfo): (r: seq<u8>)
    ensures |r| == 12
  {
    EncodeF32(hs.yTargetDir)
      + EncodeF32(hs.curTargetSpeed)
      + EncodeF32(hs.timeSinceHit)
  }

  /// Decoding a HeatseekerInfo with the cursor at p.
  function HeatseekerInfoAt(data: seq<u8>, p: nat): (r: (HeatseekerInfo, nat))
    ensures p <= r.1 && (p <= |data| ==> r.1 <= |data|)
  {
    var (yTargetDir, p1) := F32At(data, p);
    var (curTargetSpeed, p2) := F32At(data, p1);
    var (timeSinceHit, p3) := F32At(data, p2);
    (HeatseekerInfo(yTargetDir, curTargetSpeed, timeSinceHit), p3)
  }

  /// Reading where a HeatseekerInfo was written gives it back, 12 bytes further on.
  lemma HeatseekerInfoRoundTrip(data: seq<u8>, p: nat, hs: HeatseekerInfo)
    requires HasAt(data, p, EncodeHeatseekerInfo(hs))
    ensures HeatseekerInfoAt(data, p) == (hs, p + 12)
  {
    var e1 := EncodeF32(hs.yTargetDir);
    var e2 := EncodeF32(hs.curTargetSpeed);
    var e3 := EncodeF32(hs.timeSinceHit);
    HasAtSplit(data, p, e1 + e2, e3);
    HasAtSplit(data, p, e1, e2);
    F32RoundTrip(data, p, hs.yTargetDir);
    F32RoundTrip(data, p + 4, hs.curTargetSpeed);
    F32RoundTrip(data, p + 8, hs.timeSinceHit);
  }

  method WriteHeatseekerInfo(w: ByteWriter, hs: HeatseekerInfo)
    modifies w
    ensures w.data == old(w.data) + EncodeHeatseekerInfo(hs)
  {
    w.WriteF32(hs.yTargetDir);
    w.WriteF32(hs.curTargetSpeed);
    w.WriteF32(hs.timeSinceHit);
    AppendHeatseekerInfo(old(w.data), hs);
  }

  lemma AppendHeatseekerInfo(acc: seq<u8>, hs: HeatseekerInfo)
    ensures acc + EncodeF32(hs.yTargetDir) + EncodeF32(hs.curTargetSpeed) + EncodeF32(hs.timeSinceHit) == acc + EncodeHeatseekerInfo(hs)
  {
  }

  method ReadHeatseekerInfo(r: ByteReader) returns (hs: HeatseekerInfo)
    modifies r
    ensures (hs, r.pos) == HeatseekerInfoAt(r.data, old(r.pos))
  {
    var yTargetDir := r.ReadF32();
    var curTargetSpeed := r.ReadF32();
    var timeSinceHit := r.ReadF32();
    hs := HeatseekerInfo(yTargetDir, curTargetSpeed, timeSinceHit);
  }

  /// BallStateInfo::write: kinematics, then the heatseeker info (84).
  function EncodeBallState(ball: BallState): (r: seq<u8>)
    ensures |r| == BALL_STATE_NUM_BYTES
  {
    EncodeVec(ball.pos)
      + EncodeRotMat(ball.rotMat)
      + EncodeVec(ball.vel)
      + EncodeVec(ball.angVel)
      + EncodeHeatseekerInfo(ball.hsInfo)
  }

  /// Decoding a BallState with the cursor at p.
  function BallStateAt(data: seq<u8>, p: nat): (r: (BallState, nat))
    ensures p <= r.1 && (p <= |data| ==> r.1 <= |data|)
  {
    var (pos, p1) := VecAt(data, p);
    var (rotMat, p2) := RotMatAt(data, p1);
    var (vel, p3) := VecAt(data, p2);
    var (angVel, p4) := VecAt(data, p3);
    var (hsInfo, p5) := HeatseekerInfoAt(data, p4);
    (BallState(pos, rotMat, vel, angVel, hsInfo), p5)
  }

  /// Reading where a BallState was written gives it back, 84 bytes further on.
  lemma BallStateRoundTrip(data: seq<u8>, p: nat, ball: BallState)
    requires HasAt(data, p, EncodeBallState(ball))
    ensures BallStateAt(data, p) == (ball, p + 84)
  {
    var e1 := EncodeVec(ball.pos);
    var e2 := EncodeRotMat(ball.rotMat);
    var e3 := EncodeVec(ball.vel);
    var e4 := EncodeVec(ball.angVel);
    var e5 := EncodeHeatseekerInfo(ball.hsInfo);
    HasAtSplit(data, p, e1 + e2 + e3 + e4, e5);
    HasAtSplit(data, p, e1 + e2 + e3, e4);
    HasAtSplit(data, p, e1 + e2, e3);
    HasAtSplit(data, p, e1, e2);
    VecRoundTrip(data, p, ball.pos);
    RotMatRoundTrip(data, p + 12, ball.rotMat);
    VecRoundTrip(data, p + 48, ball.vel);
    VecRoundTrip(data, p + 60, ball.angVel);
    HeatseekerInfoRoundTrip(data, p + 72, ball.hsInfo);
  }

  method WriteBallState(w: ByteWriter, ball: BallState)
    modifies w
    ensures w.data == old(w.data) + EncodeBallState(ball)
  {
    w.WriteVec(ball.pos);
    w.WriteRotMat(ball.rotMat);
    w.WriteVec(ball.vel);
    w.WriteVec(ball.angVel);
    WriteHeatseekerInfo(w, ball.hsInfo);
    AppendBallState(old(w.data), ball);
  }

  lemma AppendBallState(acc: seq<u8>, ball: BallState)
    ensures acc + EncodeVec(ball.pos) + EncodeRotMat(ball.rotMat) + EncodeVec(ball.vel) + EncodeVec(ball.angVel) + EncodeHeatseekerInfo(ball.hsInfo) == acc + EncodeBallState(ball)
  {
  }

  method ReadBallState(r: ByteReader) returns (ball: BallState)
    modifies r
    ensures (ball, r.pos) == BallStateAt(r.data, old(r.pos))
  {
    var pos := r.ReadVec();
    var rotMat := r.ReadRotMat();
    var vel := r.ReadVec();
    var angVel := r.ReadVec();
    var hsInfo := ReadHeatseekerInfo(r);
    ball := BallState(pos, rotMat, vel, angVel, hsInfo);
  }

}

=== FILE: wrappers.dfy ===
/** The optional-value wrapper shared by the models (a NULL pointer is `None`). */
module Wrappers {

  datatype Option<T> = None | Some(value: T)
}
